=== FILE: README.md ===
# Prediction analytics of the farm-prediction backend, in Dafny

The backend stores one document per prediction a farmer makes. There are two shapes.

- **Basic records.** Yield, crop and risk predictions are written with a
  `prediction_type`, an `input_data` dict, an `output_data` dict, a
  `model_type` and `created_at`.
- **Detailed records.** These have type `yield_detailed` and are written by
  the save-detailed endpoint. They carry crop, season, location, region and
  land area at the top level, plus a `prediction_result` dict. They have no
  `input_data` and no `output_data`.

The analytics endpoints read these records back and summarise them. This
project models those endpoints and proves what they return.

- **Filtered listing** (`get_predictions_with_filters`). The store query
  applies an inclusive date range. The normaliser maps both record shapes to
  one row; basic records estimate revenue at 20 per unit of yield. Then come
  the crop, season, case-insensitive location, region and revenue filters.
- **Aggregate dashboard.** The community dashboard counts all records. It
  averages the yields of the yield records. Its success rate is the share of
  records whose output confidence is at least 0.70.
- **Personal dashboard.** The user lookup, then:
  - the all-time and current-year counts, the per-type counts, the average
    yield and the success rate;
  - the crop distribution and its top crop;
  - the ten newest records.
- **History.** The capped history with its per-type summary. Also the
  paginated listing, with its skip and limit and its page count.
- **Yearly analytics.** Per-month counts, quarter totals, the crop and risk
  distributions, and the estimated revenue at 25 per unit.
- **Quarterly analytics.** One quarter's total, its average yield, its
  revenue and its set of recommended crops.
- **The JSON-file store.** `backend/database.py` stands in for MongoDB when
  no server is reachable. The model covers its equality matching, `find`,
  `find_one`, `count_documents` and `insert_one`, and the JSON file each
  insert writes: a datetime or ObjectId goes in as its `str` and reads back
  as a string. It also covers its cursor sort, which is stable, reverses for
  direction -1 and raises TypeError on keys that do not compare.

Each endpoint becomes a pure function over the stored records, and the
user id, the current year and the request parameters become arguments.
Every exception the endpoint catches becomes an `Err` carrying the Python
exception kind. Each function is paired with an independent description of
its result, such as "exactly the normalised candidates that pass every
supplied filter, newest first". A lemma connects the two for all inputs.

## Layout

- **`wrappers.dfy`** — `Option` and `Result`, with the exception kinds the
  endpoints raise.
- **`calendar.dfy`** — datetimes, their order, and `datetime(year, month, 1)`.
- **`values.dfy`**:
  - dynamically typed values and `dict.get`;
  - truthiness;
  - ASCII `str.lower` and substring search;
  - Python's `<`, and an order on all values that extends it.
- **`averages.dfy`** — MongoDB's `$avg`, which skips non-numbers, and the
  percentage used by the success rates.
- **`sorting.dfy`** — stable insertion sort by a key, in either direction.
- **`tally.dfy`** — counting dicts (`d[k] = d.get(k, 0) + 1`) as bucket
  lists, and the most frequent key.
- **`store.dfy`** — the JSON-file store.
- **`records.dfy`** — prediction records, query criteria, `find`, and the
  `created_at` sorts.
- **`normalize.dfy`** — the save paths and the normaliser of the filter
  endpoint.
- **`filters.dfy`** — the filter endpoint.
- **`dashboard.dfy`** — both dashboards.
- **`history.dfy`** — history and pagination.
- **`analytics.dfy`** — yearly and quarterly analytics.

## Model

| member | source | states |
|---|---|---|
| MockStore.MatchesLoop | backend/database.py:83-88 | A document matches exactly when it has every query key with an equal value; the empty query matches every document |
| MockStore.Find | backend/database.py:77-81 | `find` returns no more documents than are stored |
| MockStore.FindMembers | backend/database.py:77-81 | A document occurs in the result as often as it is stored if it matches the query, and not at all otherwise |
| MockStore.FindConcat | backend/database.py:77-81 | Filtering keeps stored order: the matches of two concatenated lists are the matches of the first followed by those of the second |
| MockStore.FindAll | backend/database.py:83-88 | The empty query returns every stored document in stored order |
| MockStore.FindOne | backend/database.py:69-75 | `find_one` is None exactly when nothing matches; otherwise it is a matching document with no matching document before it |
| MockStore.FindOneIsFirstOfFind | backend/database.py:69-81 | `find_one` is the first element of `find` on the same query |
| MockStore.CountDocuments | backend/database.py:98-105 | `count_documents` equals the length of `find`, with a missing or empty query counting every document |
| MockStore.InsertOne | backend/database.py:54-67 | Insertion appends and leaves earlier documents alone. The new document has the given keys plus `_id`, each holding its value as the JSON file gives it back; the new document contains only plain JSON values, so a collection read from the file stays one. The returned id is the given `_id`, or the text of the new ObjectId, and the stored `_id` is that id as the file gives it back |
| MockStore.FindAfterInsert | backend/database.py:54-81 | After an insert, any query finds what it found before, plus the new document as the file holds it when it matches; that document reads back unchanged |
| MockStore.FindOneAfterInsert | backend/database.py:54-75 | If no stored document has the new id as the file writes it, looking that up returns the inserted document; so does looking up the returned id itself when it is a string, number or null |
| MockStore.InsertedIdLost | backend/database.py:54-75 | A document inserted with an ObjectId or datetime `_id` is never found by `find_one` with the id `insert_one` returned, because the file holds that id as a string |
| MockStore.Stored | backend/database.py:32-35 | What the file gives back for a value holds no datetime or ObjectId; a datetime comes back as its `str` text and an ObjectId as its 24 hex digits |
| MockStore.StoredKeepsPlain | backend/database.py:22-35 | A value JSON already holds comes back from the file unchanged |
| MockStore.ObjectIdRoundTrip | backend/database.py:57 | The 24 hex digits of an ObjectId read back as the same ObjectId |
| Calendar.DateTimeText | backend/database.py:35 | The text `str` gives a datetime is 19 characters, or 26 when it has microseconds, and begins with the date and a space |
| Calendar.DigitsRoundTrip | backend/database.py:57 | Zero-padded digits read back as the number, modulo the powers of the base that do not fit |
| MockStore.CursorSort | backend/database.py:113-116 | The cursor sort fails with TypeError exactly when two or more documents have keys `<` cannot compare. Otherwise it returns a permutation ordered by the key, descending for direction -1 |
| MockStore.CursorSortStable | backend/database.py:113-116 | Documents with equal sort keys keep their relative order, in both directions |
| Sorting.SortByPermutes | backend/database.py:115 | Sorting returns a permutation of its input |
| Sorting.SortByOrdered | backend/database.py:115 | Sorting leaves no element whose key should precede the key of an earlier element |
| Sorting.SortByStable | backend/database.py:115 | Elements whose keys are equivalent appear in their original relative order |
| Sorting.PrecedesIsStrictWeakOrder | backend/database.py:115 | The key order used by the sort is a strict weak order in both directions |
| Values.LessTotalOnComparable | backend/database.py:115 | On values Python can compare, the extended order is total |
| Values.LessAsymmetric | backend/database.py:115 | The extended order is asymmetric |
| Values.LessNegativelyTransitive | backend/database.py:115 | Incomparability under the extended order is transitive |
| Values.StrLessTotal | backend/database.py:115 | String order is total on distinct strings |
| Values.StrLessTransitive | backend/database.py:115 | String order is transitive |
| Values.StrLessIrreflexive | backend/database.py:115 | No string precedes itself |
| Values.JsonKeysOfOneType | backend/app.py:43-51 | Dict keys that are all strings, or all numbers, can be written as sorted JSON keys |
| Values.JsonKeysNullAlone | backend/app.py:43-51 | A null key is writable only as the dict's only key, and a datetime, ObjectId or dict key never |
| Values.GetKey | backend/app.py:1509 | `.get` on a dict returns the stored value or the default; on anything else it raises AttributeError |
| Values.Lookup | backend/app.py:1344 | `dict.get` returns the stored value when the key is present and the default otherwise |
| Values.SubField | backend/app.py:1094 | A dotted path such as `output_data.confidence` resolves exactly when the outer field is a dict holding the key |
| Values.Lower | backend/app.py:1383 | Lower-casing keeps the length and lower-cases each ASCII letter in place |
| Values.LowerIdempotent | backend/app.py:1383 | Lower-casing twice is the same as lower-casing once |
| Values.SubstringAtOffset | backend/app.py:1383 | `needle in hay` holds exactly when the needle occurs at some offset of the hay |
| Calendar.FirstOfMonth | backend/app.py:1486-1487 | `datetime(year, month, 1)` succeeds exactly for a year in 1..9999 and a month in 1..12. A year or month too wide for a C int raises OverflowError; any other failure is ValueError |
| Calendar.BeforeIsStrictTotalOrder | backend/app.py:1491 | Datetime `<` is irreflexive, asymmetric, transitive and total |
| Calendar.MonthWindow | backend/app.py:1562-1572 | A datetime lies in [first of month m1, first of month m2) of a year exactly when it has that year and a month in m1..m2-1 |
| Calendar.TailOfYearWindow | backend/app.py:1486-1491 | A datetime lies in [first of month m, first of next year) exactly when it has that year and a month at or after m |
| Averages.NumbersMembers | backend/app.py:1089 | The values `$avg` averages are exactly the numeric fields |
| Averages.NumbersEmpty | backend/app.py:1089 | `$avg` has nothing to average exactly when no field is a number |
| Averages.Avg | backend/app.py:1089 | `$avg` is null exactly when no field holds a number; otherwise it is the mean of the numeric fields: times their number it gives their sum |
| Averages.AvgOrZero | backend/app.py:1105 | `$avg` read as 0 when null is the mean of the numeric fields, and 0 when there are none |
| Averages.Mean | backend/app.py:1528 | `total / count if count > 0 else 0` times the count gives the total, and is 0 for no values |
| Averages.AvgBounds | backend/app.py:1089 | The average lies within any bounds that hold for every numeric field |
| Averages.SumBounds | backend/app.py:1089 | A sum of n values within [lo, hi] lies within [n·lo, n·hi] |
| Averages.Percent | backend/app.py:1107 | A success percentage is part × 100 / whole, and 0 for an empty whole. It lies in 0..100, is 100 exactly when every record succeeds, and is 0 exactly when none does or there are none |
| Averages.PercentBound | backend/app.py:1212 | A ratio of a part to its whole lies in [0, 1]. It is 1 exactly for the whole and 0 exactly for an empty part |
| Tally.TallySpec | backend/app.py:1039-1042 | Counting keys into a dict adds to each key's count the number of times the key occurs. The grand total grows by the number of keys and the key set gains exactly those keys. Keys stay distinct |
| Tally.BumpCounts | backend/app.py:1042 | One increment raises the count of its key by one and leaves every other count alone |
| Tally.BumpTotal | backend/app.py:1042 | One increment raises the grand total by one and adds its key to the key set |
| Tally.BumpDistinct | backend/app.py:1042 | One increment keeps the keys of the dict distinct |
| Tally.KeySetMembers | backend/app.py:1042 | A key is in the dict exactly when some bucket carries it |
| Tally.DistinctBucketCount | backend/app.py:1238 | With distinct keys, the number of entries equals the number of distinct keys |
| Tally.Zeroed | backend/app.py:1500 | A dict initialised with keys holds each of them at zero |
| Tally.ZeroedCountsNothing | backend/app.py:1500 | A dict initialised with keys counts nothing under any key |
| Tally.FreshTally | backend/app.py:1204-1207 | A dict counted from empty has distinct keys, and its counts sum to the number of keys counted |
| Tally.TopIndex | backend/app.py:1178 | The chosen bucket has a count no smaller than any other |
| Tally.TopKey | backend/app.py:1216 | The top key is absent only for an empty dict. Otherwise it is one of the keys, and no key has a larger count |
| Tally.CountOfDistinct | backend/app.py:1215 | With distinct keys, looking up a bucket's key returns that bucket's count |
| Records.Select | backend/app.py:1339 | A query returns no more records than are stored |
| Records.SelectMembers | backend/app.py:1339 | A record is returned as often as it is stored if it satisfies the criterion, and not at all otherwise |
| Records.SelectCounts | backend/app.py:1339 | A query keeps each record's multiplicity exactly when the record satisfies the criterion |
| Records.SelectAllHold | backend/app.py:1339 | Every returned record satisfies the criterion |
| Records.SelectCons | backend/app.py:1339 | Selection keeps stored order, one record at a time |
| Records.SelectBoth | backend/app.py:1326-1336 | Adding a condition to a query is the same as filtering the first query's result by it |
| Records.Count | backend/app.py:1439 | A count never exceeds the number of stored records |
| Records.CountExtremes | backend/app.py:1107 | The count equals the number of records exactly when all satisfy the criterion, and is zero exactly when none does |
| Records.NewestFirst | backend/app.py:1339 | Sorting newest first keeps the number of records |
| Records.OldestFirst | backend/app.py:1492 | Sorting oldest first keeps the number of records |
| Records.NewestFirstSpec | backend/app.py:1339 | Sorting on `created_at` descending permutes the records and leaves none created after an earlier one |
| Records.OldestFirstSpec | backend/app.py:1492 | Sorting on `created_at` ascending permutes the records and leaves none created before an earlier one |
| Normalizer.Repeat | backend/app.py:1372 | A string times n has n times the string's length, starts with the string and repeats with the string's length as period |
| Normalizer.TimesRevenuePerUnit | backend/app.py:1372 | Multiplying a yield by 20: a number becomes 20 times itself, a string becomes itself repeated 20 times, and anything else raises TypeError |
| Normalizer.Normalize | backend/app.py:1343-1376 | The normaliser fails exactly on unnormalisable records: the mapping it reads figures from is not a dict, or a basic output yield is neither a number nor a string. It carries the id and date through |
| Normalizer.NormalizeDetailed | backend/app.py:1347-1356 | A detailed record's row takes each descriptive key as stored. Absent keys default to "Unknown", 0 or "acres", and the figures come from `prediction_result` with 0 as the default |
| Normalizer.NormalizeBasic | backend/app.py:1359-1376 | A basic record's row defaults to "Mixed", "All Seasons", "Various Locations" and "Multiple Regions", on 1 "acre". Figures come from `output_data` with revenue 20×yield when that is present, and from `prediction_result` otherwise |
| Normalizer.SaveDetailed | backend/app.py:1259-1282 | The save-detailed endpoint writes a detailed record owned by the caller and stamped with the current time |
| Normalizer.SaveBasic | backend/app.py:609-624 | The yield, crop and risk endpoints write basic records with an `output_data` dict, owned by the caller and stamped with the current time |
| Normalizer.SavedDetailedReadsBack | backend/app.py:1259-1282 | A saved detailed record normalises back to the request's descriptive values. A key the request lacks was stored as null, so it reads back as null rather than the "Unknown" default |
| Normalizer.SavedDetailedWithBadResultFails | backend/app.py:1280 | A saved detailed record whose `result` is not a dict makes the normaliser raise AttributeError |
| Normalizer.SavedBasicNormalizes | backend/app.py:1368-1372 | A saved basic record with a numeric yield normalises with the basic defaults and a revenue of 20 times its yield |
| Normalizer.RevenueExamples | backend/app.py:1354-1372 | A detailed record reports its stored revenue, and a basic yield of 200 reports a revenue of 4000 |
| Filters.DriverBound | backend/app.py:1330-1336 | The date sent to the store for a parsed bound is the same day with the time floored to the millisecond, as a BSON date holds it: at most the parsed time and less than one millisecond before it |
| Filters.StoreQueryWindow | backend/app.py:1327-1336 | The store query selects the caller's records between the supplied dates, each floored to the millisecond, inclusive at both ends; an absent or empty date does not restrict |
| Filters.SubMillisecondStart | backend/app.py:1330-1336 | A stored record of the caller created at 00:00:00.000 is still a candidate for a start date of 00:00:00.000500 the same day, because the driver drops the sub-millisecond digits |
| Filters.Check | backend/app.py:1379-1390 | A row is kept exactly when it passes every supplied filter; a filter can only raise AttributeError or TypeError |
| Filters.FilterPredictions | backend/app.py:1310-1413 | A malformed date parameter fails the request with ValueError; a success reports a count equal to the number of rows |
| Filters.NormalizeAll | backend/app.py:1343-1376 | Normalising every candidate succeeds exactly when each one normalises, and yields their rows in order |
| Filters.KeepSatisfying | backend/app.py:1378-1390 | Filtering never adds rows |
| Filters.Scan | backend/app.py:1343-1410 | The one-pass loop never returns more rows than it was given records, and every row it returns passes every supplied filter; Filters.ScanIsFilterOfNormalized states exactly which rows |
| Filters.ScanIsFilterOfNormalized | backend/app.py:1343-1405 | The one-pass loop succeeds exactly when all candidates normalise and no filter test raises. It then returns the normalised rows that pass the filters |
| Filters.KeepSatisfyingMembers | backend/app.py:1379-1390 | A row is kept exactly when it is among the inputs and passes every supplied filter |
| Filters.KeepSatisfyingKeepsOrder | backend/app.py:1392-1405 | Filtering a newest-first list leaves it newest first |
| Filters.FilterSemantics | backend/app.py:1310-1413 | The endpoint succeeds exactly when the dates parse, every candidate normalises and no test raises. It then returns exactly the normalised candidates that pass every filter, newest first, with their count. The candidates are the caller's records within the date bounds as the driver sends them, floored to the millisecond |
| Filters.FilterMembers | backend/app.py:1326-1405 | A row is returned exactly when it normalises a stored record of the caller in the date range, whose bounds are floored to the millisecond as the driver sends them, and passes every supplied filter |
| Filters.FilterNewestFirst | backend/app.py:1339 | Returned rows are ordered newest first |
| Filters.NoFiltersKeepAll | backend/app.py:1379-1390 | With no filter supplied, and a revenue bound of 0 counting as none, every row is kept |
| Filters.LocationIgnoresCase | backend/app.py:1383 | The location filter gives the same answer for a location and its lower-cased form |
| Filters.UnknownCropGivesNothing | backend/app.py:1379-1380 | A crop that no candidate carries yields an empty, successful response |
| Dashboard.AggregateDashboard | backend/app.py:1077-1121 | The aggregate dashboard fails with TypeError exactly when yield records exist but none has a numeric yield. Otherwise it counts every record and every user. Its average yield is the mean of the numeric yields of the yield records, 0 when there are none. Its success rate is the percentage of records with a confidence of at least 0.70 |
| Dashboard.AggregateSuccessRate | backend/app.py:1093-1107 | The success rate is the number of records with a numeric confidence of at least 0.70, times 100, over the number of records (0 when there are none). It is 100 exactly when every record has one, and 0 exactly when none has |
| Dashboard.AggregateYieldBounds | backend/app.py:1085-1105 | The community average yield is the mean of the numeric yields, and so stays within any bounds around 0 that hold for every numeric yield |
| Dashboard.SuccessCount | backend/app.py:1160-1167 | No more records succeed than there are |
| Dashboard.SuccessCountCounts | backend/app.py:1160-1167 | The summed success count is the number of records whose confidence is at least 0.70 in BSON order |
| Dashboard.UserInfoOf | backend/app.py:1224-1226 | Reporting the user fails exactly when a truthy `created_at` is not a datetime; a falsy one is reported as null |
| Dashboard.Take | backend/app.py:1182 | `$limit` keeps the first n records, or all of them when there are fewer |
| Dashboard.PersonalDashboard | backend/app.py:1124-1246 | The personal dashboard answers "user not found" exactly when no user has the caller's id. Otherwise it fails with TypeError when a year group key (a type, or a crop of a crop prediction) is a dict; else with AttributeError when the user's truthy `created_at` is not a datetime; else with TypeError when the crop keys cannot be written as sorted JSON keys (a null crop beside a named one, or crops of two types). Any other reply carries the statistics of the caller's records |
| Dashboard.KindKeysCount | backend/app.py:1149-1150 | The group of a type counts exactly the records of that type |
| Dashboard.YearKindCount | backend/app.py:1146-1206 | The count stored for a type is the number of the caller's records of that type created this year |
| Dashboard.ThreeKindsBound | backend/app.py:1231-1233 | Three distinct types together count at most all records |
| Dashboard.Stats | backend/app.py:1180-1243 | The statistics carry the caller's details and the requested year. The all-time total never exceeds the store's size, and the recent list holds ten records, or all of them when the caller has fewer. Dashboard.PersonalTotals, Dashboard.PersonalKinds, Dashboard.PersonalCrops, Dashboard.PersonalSuccessRate and Dashboard.PersonalRecent state the remaining fields |
| Dashboard.PersonalTotals | backend/app.py:1197-1212 | The all-time total counts the caller's records and the year total counts those created this year. The year total never exceeds the all-time total, and the success rate lies in 0..100 |
| Dashboard.PersonalSuccessRate | backend/app.py:1199-1212 | The success rate is the year's successful records times 100 over the year total, and 0 for an empty year |
| Dashboard.PersonalKinds | backend/app.py:1204-1233 | The yield, crop and risk counts are the year's records of each type, and together they do not exceed the year total |
| Dashboard.PersonalYieldBounds | backend/app.py:1151-1209 | The personal average yield is the mean of the year's numeric yields, and so stays within any bounds around 0 that hold for them |
| Dashboard.PersonalYieldMean | backend/app.py:1151-1209 | The personal average yield is the mean of the numeric yields of the year's yield predictions, and 0 when there are none |
| Dashboard.SelectMonotone | backend/app.py:1146 | A stronger criterion never counts more records |
| Dashboard.PersonalCrops | backend/app.py:1172-1216 | Each crop's count is its number of occurrences this year. `crop_count` is the number of distinct crops. The top crop is "N/A" when there are none, and otherwise a crop that occurs, with no crop counted more often |
| Dashboard.TallyOfCrops | backend/app.py:1174-1216 | Grouping crop records gives distinct crops with their occurrence counts, empty exactly when there are no records, and a top crop that occurs with a maximal count |
| Dashboard.CountOfIsSomeBucket | backend/app.py:1216 | A positive count belongs to some bucket of the distribution |
| Dashboard.NewestPrefix | backend/app.py:1181-1182 | The n newest records are stored records, newest first, and no record left out is newer than any kept one |
| Dashboard.PersonalRecent | backend/app.py:1180-1219 | The recent list holds min(10, n) of the caller's records, newest first, and no record of the caller left out is newer than any listed one |
| History.ApplyLimit | backend/app.py:1036 | `limit(n)` keeps a prefix: all records for n = 0, and at most abs(n) records otherwise |
| History.PredictionHistory | backend/app.py:1020-1050 | A limit whose size does not fit a 64-bit integer raises OverflowError. Otherwise the history fails with TypeError exactly when a listed record's type is a dict, or the listed types cannot be written as sorted JSON keys (a missing type beside a named one, say). A success lists the caller's records of the requested type, newest first, capped by the limit, and counts them |
| History.Window | backend/app.py:1442-1445 | A sorted, skipped and limited query result holds no more records than match past the skipped ones, and no more than a non-zero limit allows; History.WindowContents states which records |
| History.WindowContents | backend/app.py:1442-1445 | A skipped and limited newest-first window holds stored records that satisfy the query, newest first |
| History.Listed | backend/app.py:1031-1036 | The history lists no more records than match the query, and no more than a non-zero limit allows; History.ListedContents and History.ListedAll state which records |
| History.ListedContents | backend/app.py:1031-1036 | The history lists only the caller's stored records, only of the requested type when one is given, newest first |
| History.ListedAll | backend/app.py:1036 | When the limit does not bind, the history lists every matching record |
| History.HistoryListing | backend/app.py:1027-1047 | A successful history lists the caller's records of the requested type, newest first. It lists all of them when the limit does not bind |
| History.HistorySummary | backend/app.py:1039-1045 | The summary counts each type as often as it is listed, its counts add up to `count`, and it has one entry per distinct listed type |
| History.TallyUniform | backend/app.py:1040-1042 | Counting a run of one key into that key's entry adds the run's length |
| History.KindTally | backend/app.py:1039-1042 | The summary loop over any list counts each type as often as it occurs, its counts add up to the list's length, and it has one entry per distinct type |
| History.OneKindTally | backend/app.py:1039-1042 | The summary loop over a list of one type is empty for an empty list and otherwise a single entry for that type holding the list's length |
| History.HistorySummaryOfOneType | backend/app.py:1032-1042 | With a type requested, the summary is empty or a single entry for that type holding the count |
| History.FloorDiv | backend/app.py:1466 | `//` rounds toward negative infinity: the remainder lies between 0 and the divisor |
| History.FormatItem | backend/app.py:1450-1457 | Formatting an entry raises KeyError for the first missing key among the type, `input_data` and `output_data`, and otherwise carries the id and date through |
| History.FormatAll | backend/app.py:1449-1458 | Formatting a page succeeds exactly when every entry formats, and keeps their order |
| History.Paginate | backend/app.py:1429-1468 | A negative skip raises ValueError, and a skip or limit too wide for a 64-bit integer raises OverflowError. Once the entries format, the page fails exactly when the limit is 0, with ZeroDivisionError. A reply's items are the formatted records of the page, and its total counts every matching record |
| History.UserPredictions | backend/app.py:1422-1471 | A negative skip raises ValueError, and a skip or limit too wide for a 64-bit integer raises OverflowError. A reply holds one item per record of the page, each that record formatted, and reports the number of matching records as the total |
| History.PageCount | backend/app.py:1466 | With a positive limit, the page count is the fewest pages that hold every matching record |
| History.CeilingPages | backend/app.py:1466 | (total + limit - 1) // limit is the ceiling of total / limit |
| History.PageRecords | backend/app.py:1442-1445 | A page holds no more records than remain past the skipped ones, and no more than a non-zero limit allows; History.PageWindow and History.PageContents state which records |
| History.PageWindow | backend/app.py:1442-1445 | With a positive limit, a page skipping `skip` records holds the next `limit` newest matching records, or all that remain, in order: its entry j is the (skip + j)-th newest |
| History.PageContents | backend/app.py:1434-1445 | A page holds only the caller's stored records, only of the requested type unless it is "all", newest first |
| History.DetailedRecordBreaksPage | backend/app.py:1453 | A user whose only record is a saved detailed record gets KeyError('input_data') from the listing |
| History.FormatItemLenient | backend/app.py:1450-1457 | The lenient entry format never fails, and agrees with the strict one whenever that succeeds |
| History.UserPredictionsLenient | backend/app.py:1422-1471 | The lenient listing succeeds exactly when the skip is non-negative, the skip and limit fit a 64-bit integer, and the limit is not 0 |
| History.LenientPageLists | backend/app.py:1442-1458 | The lenient listing returns one entry per record on the page, with matching ids and dates |
| Analytics.OutputDict | backend/app.py:1509 | Reading `output_data` raises KeyError when it is absent, AttributeError when it is present but not a dict, and otherwise gives the dict |
| Analytics.Initial | backend/app.py:1495-1500 | The initial state has twelve months with every count at zero, no yields and no crops, and exactly the Low, Medium and High risk levels, each at zero |
| Analytics.Accumulate | backend/app.py:1508-1517 | Type-specific accumulation leaves the monthly table alone, and any type but yield, crop and risk is ignored |
| Analytics.Step | backend/app.py:1502-1517 | A record is processed only if its type is a column of the monthly table, and the state stays well formed |
| Analytics.StepCorrected | backend/app.py:1502-1517 | The corrected loop body keeps the state well formed |
| Analytics.Run | backend/app.py:1502-1517 | Running the loop keeps the state well formed |
| Analytics.YearWindowSpec | backend/app.py:1486-1492 | The year query selects exactly the caller's records created in that year |
| Analytics.Report | backend/app.py:1519-1530 | The report has 12 months and 4 quarters. Its average yield times the yield count is the summed yield, and 0 for no yields. The estimated revenue is 25 times the average when that is positive, and 0 otherwise |
| Analytics.Yearly | backend/app.py:1476-1547 | A year too wide for a C int raises OverflowError, and any other year outside 1..9998 raises ValueError. Once the loop has run, the analytics fail with TypeError exactly when the crop or risk distribution cannot be written as sorted JSON keys. A success reports the number of the caller's records in the year |
| Analytics.YearlyCorrected | backend/app.py:1476-1547 | The corrected yearly analytics have the same OverflowError and ValueError year bounds, the same JSON-key failure and the same total |
| Analytics.YearlyCorrectedIs | backend/app.py:1489-1530 | The corrected report comes from running the corrected loop over the year's records, oldest first |
| Analytics.RunMonthly | backend/app.py:1503-1506 | For every month, the loop adds that month's records to its total and each known type's records to that type's column |
| Analytics.MonthsPartition | backend/app.py:1503 | Every record falls in exactly one of the twelve months |
| Analytics.YearlyCorrectedBreakdown | backend/app.py:1495-1525 | Each month counts the year's records created in it, and per type those of each type. Each quarter sums its three months, and the quarters add up to the total |
| Analytics.QuarterOfMonths | backend/app.py:1520-1525 | A quarter's total is the sum of its three months' counts |
| Analytics.CropsOfNames | backend/app.py:1512-1514 | Collecting crops record by record gives the crop names of the crop records, in order |
| Analytics.RiskLevelsOfNames | backend/app.py:1515-1517 | Collecting risk levels record by record gives the levels of the risk records, in order |
| Analytics.StepTallies | backend/app.py:1508-1517 | One record bumps the crop distribution if it is a crop, bumps the risk distribution if it is a risk, and counts a yield if it is a yield |
| Analytics.RunCrops | backend/app.py:1512-1514 | The loop's crop distribution is the tally of the crop records' names |
| Analytics.RunRisks | backend/app.py:1515-1517 | The loop's risk distribution is the tally of the risk records' levels |
| Analytics.RunYieldCount | backend/app.py:1508-1511 | The loop counts exactly the yield records |
| Analytics.RunTallies | backend/app.py:1502-1517 | The loop's crop and risk distributions tally the crop names and risk levels, and its yield count is the number of yield records |
| Analytics.YieldsOfCount | backend/app.py:1508-1510 | There is one summed yield per yield record |
| Analytics.StepYield | backend/app.py:1508-1511 | One step adds a yield record's output yield (0 when absent) to the sum and counts it, and leaves both alone for other records |
| Analytics.RunYields | backend/app.py:1502-1511 | The loop, as written or corrected, sums the yields of the yield records and counts them |
| Analytics.ReportYield | backend/app.py:1508-1530 | The report's average yield is the mean of the yield records' yields, and 0 when there are none |
| Analytics.YearlyYield | backend/app.py:1508-1530 | The yearly average yield is the mean of the yields of the year's yield records (0 for none), and the revenue is 25 times it when positive and 0 otherwise |
| Analytics.YearlyCorrectedYield | backend/app.py:1508-1530 | The corrected report has the same average yield and revenue |
| Analytics.YearlyCorrectedDistributions | backend/app.py:1499-1517 | Each crop is counted as often as it occurs among the year's crop records, and each risk level as often as it occurs among the risk records. The totals equal the numbers of such records, and Low, Medium and High are always reported |
| Analytics.RiskTally | backend/app.py:1500-1517 | Counting risk levels into the initial dict adds one per record and keeps Low, Medium and High as keys |
| Analytics.RiskKeysWritable | backend/app.py:1499-1517 | The risk distribution can be written as sorted JSON keys exactly when every risk level is a string |
| Analytics.YearlyCorrectedWritable | backend/app.py:1499-1547 | Once the corrected loop has run, the report is written exactly when the crops are writable JSON keys and every risk level is a string |
| Analytics.ThreeLevels | backend/app.py:1500 | The initial risk distribution is Low, Medium and High at zero |
| Analytics.StepSucceeds | backend/app.py:1503-1517 | Whether one step of the loop raises depends only on the record: as written, its type must be a key of the month's dict, and for the three kinds its output must be a dict with a numeric yield or a hashable crop or risk level |
| Analytics.RunSucceeds | backend/app.py:1502-1517 | The loop, as written or corrected, completes exactly when every record passes its step |
| Analytics.AccumulateIgnoresMonths | backend/app.py:1508-1517 | The branches on the type read and change nothing of the monthly table |
| Analytics.RunTalliesAgree | backend/app.py:1502-1517 | Whenever the loop as written completes, the corrected loop completes too, with the same yield sum and count and the same crop and risk distributions |
| Analytics.YearlySucceeds | backend/app.py:1476-1547 | The yearly analytics as written succeed exactly when the year is in 1..9998, every record of the year passes the as-written step, the crops are writable JSON keys and every risk level is a string |
| Analytics.YearlyCorrectedSucceeds | backend/app.py:1476-1547 | The corrected yearly analytics succeed exactly when the year is in 1..9998, every record passes the corrected step, the crops are writable JSON keys and every risk level is a string |
| Analytics.YearlyYieldExample | backend/app.py:1508-1530 | One yield record with yield 3 in March 2024 gives the 2024 analytics a total of 1, an average yield of 3 and an estimated revenue of 75 |
| Analytics.RunAgrees | backend/app.py:1502-1517 | On records that are all of type yield, crop or risk, the loop as written and the corrected loop agree |
| Analytics.YearlyAgreesOnBasicRecords | backend/app.py:1476-1547 | When every record in the year is a yield, crop or risk record, the yearly analytics as written equal the corrected ones |
| Analytics.RunRejectsOtherKinds | backend/app.py:1504-1505 | The loop as written fails on any record whose type is missing or not a column of the monthly table |
| Analytics.YearlyRejectsDetailed | backend/app.py:1504-1505 | Any detailed record of the caller in the year makes the yearly analytics as written fail |
| Analytics.YearlyDetailedExample | backend/app.py:1505 | One detailed record in March 2024 makes the 2024 analytics raise KeyError('yield_detailed') |
| Analytics.DefaultQuarter | backend/app.py:1559 | The default quarter lies in 1..4 and contains the current month |
| Analytics.QuarterBounds | backend/app.py:1562-1568 | The quarter's dates exist exactly for quarters 1..4 in years 1..9999, except that quarter 4 needs a following year. They run from the first of its first month to the first of the next quarter's first month. A year or first month too wide for a C int raises OverflowError; any other failure is ValueError |
| Analytics.QuarterWindowSpec | backend/app.py:1562-1573 | The quarter query selects exactly the caller's records created in the quarter's three months of the year |
| Analytics.QuarterStep | backend/app.py:1580-1586 | A record without a type raises KeyError, and a step adds at most one crop |
| Analytics.QuarterStepSpec | backend/app.py:1580-1586 | One record appends its crop name if it is a crop, and adds its yield and counts it if it is a yield |
| Analytics.QuarterRunSpec | backend/app.py:1580-1586 | The loop collects the crop names of the crop records in order and counts the yield records |
| Analytics.QuarterRunCrops | backend/app.py:1585-1586 | The collected crops are the crop records' names in order |
| Analytics.QuarterRunYields | backend/app.py:1581-1584 | The loop counts exactly the yield records and sums their yields |
| Analytics.Quarterly | backend/app.py:1552-1604 | A year or first month too wide for a C int raises OverflowError, and quarter dates that do not exist raise ValueError. Once the loop has run, the analytics fail with TypeError exactly when a collected crop is a dict. A success reports the number of the caller's records in the quarter, and a revenue of 25 times the average yield |
| Analytics.QuarterlyYield | backend/app.py:1576-1589 | The quarter's average yield is the mean of the yields of its yield records, 0 when there are none, and the revenue is 25 times it whatever its sign |
| Analytics.QuarterlyCrops | backend/app.py:1578-1599 | The recommended crops are exactly the set of crop names of the quarter's crop records |
| Analytics.QuarterRun | backend/app.py:1580-1586 | The quarterly loop completes exactly when every record has a type, every yield record has a dict output with a numeric yield, and every crop record has a dict output |
| Analytics.QuarterlyAfterRun | backend/app.py:1570-1604 | Within valid bounds, the quarterly analytics succeed exactly when the loop completes and every collected crop is hashable |
| Analytics.QuarterlySucceeds | backend/app.py:1552-1604 | The quarterly analytics succeed exactly when the quarter's dates exist, every record of the quarter passes the loop, and every crop record's crop is hashable |
| Analytics.QuarterlyDictCropExample | backend/app.py:1586-1599 | A crop record in February 2024 whose crop is a dict makes the first-quarter analytics raise TypeError |
| Analytics.MonthCountConcat | backend/app.py:1521-1524 | Month counts add over concatenation |
| Analytics.RemoveAt | backend/app.py:1492 | Removing one position removes exactly that record from the multiset |
| Analytics.MonthCountRemove | backend/app.py:1492 | Removing one record lowers its month's count by one |
| Analytics.MonthCountPermutation | backend/app.py:1492 | Reordering the records does not change any month's count |
| Analytics.QuarterMonths | backend/app.py:1562-1573 | The number of records in a quarter is the sum of the counts of its three months among the year's records |
| Analytics.YearQuarterCount | backend/app.py:1519-1525 | A yearly quarter total is the sum of the three months' counts among the year's records, in any order |
| Analytics.QuarterWindowMatchesYearly | backend/app.py:1520-1573 | The number of records in a quarter's window equals the corrected yearly report's total for that quarter |
| Analytics.QuarterlyMatchesYearly | backend/app.py:1520-1596 | The quarterly analytics' total equals the corrected yearly report's total for the same quarter |

## Left out

- HTTP and authentication are left out: Flask routing, JWT identity, JSON
  bodies, status codes and error strings. An endpoint's caught exception
  appears as `Err(kind)`; an uncaught 404 appears as `UserNotFound`.
- Integer widths are modelled where the source hands an integer to C or
  BSON: `datetime` takes a C int year and month, and the driver sends skip
  and limit as 64-bit integers, so wider values raise OverflowError.
- Parsing request arguments is left out. `int(...)` and `ObjectId(...)`
  failures on bad page, limit, year, quarter or user id are not modelled, so
  those arguments arrive already parsed.
- `request.args.get(..., type=float)` turns an unparsable value into None;
  the model receives the already-parsed optional number.
- The clock is an argument. `datetime.utcnow()` becomes the current year in
  the personal dashboard and the analytics, and `now` in the save paths.
- Output formatting of the endpoints is left out. This covers `round`,
  `isoformat`, `strftime`, `str(ObjectId)` and `prediction_to_dict`
  (backend/app.py:236-247). Rows carry the raw id and the datetime, and
  reported averages, rates and revenues are unrounded reals. Only the
  JSON-file store writes `str` of datetimes and ObjectIds.
- Of `jsonify` (backend/app.py:43-51), only the dict-key failure is
  modelled: with sorted keys, a dict whose keys are not all of one
  comparable type, or include a key `json` cannot write, raises TypeError.
  This is modelled for the history summary, the personal crop dict and the
  yearly crop and risk distributions. Python's `bool` keys and the text the
  provider writes are not modelled.
- Numbers are reals, so IEEE floating-point rounding is not modelled.
  Python's `bool` is not a separate value kind.
- Integer and float types are not distinguished. A float-valued
  `prediction_type` or crop name that equals an integer is one value.
- Lists are not a value kind. A list-valued `prediction_type` would also
  raise TypeError as a summary key; only dicts do in the model.
- `str.lower` is modelled for ASCII letters only.
- The model-training and inference code is left out, as are the
  soil/weather groups of the detailed record. Neither is read by the
  analytics.
- Also left out: the `update_one` that follows each save; user
  registration and login.
- Of the store's file persistence, the model keeps what `_save_json`
  writes and `json.load` reads back. The collection is a sequence argument
  standing for what `_load_json` returned, so its fallback to an empty list
  for a missing or corrupt file is not modelled. Also left out:
  `create_index`, `list_collection_names`, the client and database
  wrappers, the file's indentation, and `insert_one` adding `_id` to the
  caller's own dict.
- `MockCursor.__iter__` is left out; a cursor is its list of documents.
- The JSON-file store has no `aggregate`, `skip` or `limit`, and its
  `find_one` takes one argument, so with it both dashboards and the
  paginated listing would raise. Its `_matches` also compares a `{'$gte':
  ...}` operator dict by equality, so date-range queries would match
  nothing. The endpoints are therefore modelled against MongoDB semantics:
  - query operators;
  - `$avg` ignoring non-numbers;
  - `skip` and `limit`;
  - `$group` and `$facet`.

  The JSON-file store is modelled on its own in `store.dfy`.
- Filters.StoreQueryWindow: a date bound written with a UTC offset is not
  shifted to UTC before it is compared. `datetime.fromisoformat` then
  returns an aware datetime, and the driver converts it to UTC, which needs
  calendar arithmetic across days and months that the model does not have.
  A bound without an offset is read as UTC, as the driver does.
- FilterSemantics: states the candidates through the same store query, so
  it does not cover date bounds with a UTC offset either.
- FilterMembers: likewise covers only date bounds without a UTC offset.
- Stored `created_at` values are taken as read back from the store, which
  keeps whole milliseconds. The model does not require a record's time to be
  a whole millisecond.
- MongoDB leaves the order of equal sort keys and of `$group` results
  unspecified. The model keeps stored order, and groups in order of first
  appearance. `Records.NewestFirst` and `Records.OldestFirst` fix that
  choice. `Dashboard.PersonalCrops` states the top crop only as some crop
  with a maximal count, which is all MongoDB promises for ties.
- A `$gte` in a `$match` query matches only values of the bound's own
  type. A `$gte` inside `$cond` uses the BSON cross-type order: missing and
  null fields sort below numbers, and every other kind sorts above them.
  Within that order, only numbers are compared by value.
- Analytics.Yearly: the KeyError raised for a non-string type reports an
  empty key name rather than the value's text.
- Analytics.Quarterly: `revenue` has no positive guard in the source, unlike
  the yearly `estimated_revenue`. The model keeps that difference, and a
  negative average yield gives a negative quarterly revenue.
- Analytics.Yearly: a record of type "total" is counted twice in its month,
  once for its type and once for the total. Only the corrected loop is
  proved to count each record once.

Two facts about the source worth stating plainly:
- A malformed `start_date` or `end_date` makes the whole filter request fail
  with ValueError, because backend/app.py:1330-1334 parses it without a
  guard.
- Basic records estimate revenue at 20 per unit of yield
  (backend/app.py:1372); the yearly and quarterly analytics use 25
  (backend/app.py:1529, 1588).

## Findings

| source | as written | input that shows it | evidently intended | confidence | as-written member | corrected member |
|---|---|---|---|---|---|---|
| backend/app.py:1495-1505 | The monthly table has only the yield, crop, risk and total columns, yet every record's `prediction_type` is used as a column key | A user with one detailed record (type `yield_detailed`, written by the save-detailed endpoint) in the requested year: the analytics raise KeyError('yield_detailed') and return 500 | Count every record in its month's total, and in a type column only when the type has one | not executed | Analytics.YearlyDetailedExample | Analytics.YearlyCorrectedBreakdown |
| backend/app.py:1452-1454 | Each listed record's `input_data` and `output_data` are read with `[]` | A user whose newest record is a saved detailed record, which has neither key: the paginated listing raises KeyError('input_data') and returns 500 | List detailed records too, with missing keys shown as null | not executed | History.DetailedRecordBreaksPage | History.LenientPageLists |

=== FILE: analytics.dfy ===
/** The calendar reports: the yearly report (`get_yearly_analytics`) with its
    monthly and quarterly breakdowns and crop and risk distributions, and
    the single-quarter report (`get_quarterly_analytics`). */
module Analytics {
  import opened Wrappers
  import opened Calendar
  import opened Values
  import opened Tally
  import opened Records
  import opened Averages

  /** The price per unit of yield both reports multiply by. */
  const PricePerUnit: real := 25.0

  /** The text of a KeyError raised for a missing dict key. */
  function KeyName(v: Value): string {
    if v.Str? then v.s else ""
  }

  /** `pred['output_data']` followed by `.get`: KeyError when the record has
      no output, AttributeError when the output is not a dict. */
  function OutputDict(p: Prediction): (r: Result<map<string, Value>>)
    ensures r.Ok? <==> p.output.Some? && p.output.value.Obj?
    ensures r.Ok? ==> r.value == p.output.value.fields
    ensures p.output.None? ==> r == Err(KeyError("output_data"))
    ensures p.output.Some? && !p.output.value.Obj? ==> r == Err(AttributeError)
  {
    if p.output.None? then Err(KeyError("output_data"))
    else if !p.output.value.Obj? then Err(AttributeError)
    else Ok(p.output.value.fields)
  }

  // ---------------------------------------------------------------------
  // The yearly report

  /** One month of `monthly_data`. */
  datatype MonthCounts = MonthCounts(yieldN: nat, cropN: nat, riskN: nat, total: nat)

  /** The loop's state: the twelve months (month m at index m - 1), the
      yield sum and count, and the crop and risk distributions. */
  datatype YearState = YearState(
    monthly: seq<MonthCounts>,
    totalYield: real,
    yieldCount: nat,
    crops: seq<Bucket>,
    risks: seq<Bucket>)

  predicate Wf(st: YearState) {
    |st.monthly| == 12
  }

  /** Before the loop: every month zero, no crops, and the three risk levels
      at zero. */
  function Initial(): (st: YearState)
    ensures Wf(st)
    ensures forall m :: 0 <= m < 12 ==> st.monthly[m] == MonthCounts(0, 0, 0, 0)
    ensures st.totalYield == 0.0 && st.yieldCount == 0 && st.crops == []
    ensures KeySet(st.risks) == {Str("Low"), Str("Medium"), Str("High")}
    ensures forall k :: CountOf(st.risks, k) == 0
  {
    ThreeLevels();
    YearState(seq(12, _ => MonthCounts(0, 0, 0, 0)), 0.0, 0, [],
              Zeroed([Str("Low"), Str("Medium"), Str("High")]))
  }

  /** The keys of a month's dict. */
  const MonthKeys: set<Value> := {Str("yield"), Str("crop"), Str("risk"), Str("total")}

  /** The three kinds the loop accumulates figures for. */
  const Kinds: set<Value> := {Str("yield"), Str("crop"), Str("risk")}

  /** `monthly_data[month][t] += 1` for a key of the month's dict. */
  function CountKind(row: MonthCounts, t: Value): MonthCounts {
    if t == Str("yield") then row.(yieldN := row.yieldN + 1)
    else if t == Str("crop") then row.(cropN := row.cropN + 1)
    else if t == Str("risk") then row.(riskN := row.riskN + 1)
    else if t == Str("total") then row.(total := row.total + 1)
    else row
  }

  /** The `if`/`elif` chain on the type: a yield adds its numeric `yield`
      (default 0) to the sum, a crop counts its `crop` (default "Unknown"),
      a risk counts its `risk_level` (default "Low"). */
  function Accumulate(st: YearState, p: Prediction, t: Value): (r: Result<YearState>)
    ensures r.Ok? ==> r.value.monthly == st.monthly
    ensures t !in Kinds ==> r == Ok(st)
  {
    if t == Str("yield") then
      var out :- OutputDict(p);
      var y := Lookup(out, "yield", Num(0.0));
      if y.Num? then Ok(st.(totalYield := st.totalYield + y.r, yieldCount := st.yieldCount + 1))
      else Err(TypeError)
    else if t == Str("crop") then
      var out :- OutputDict(p);
      var c := Lookup(out, "crop", Str("Unknown"));
      if Hashable(c) then Ok(st.(crops := Bump(st.crops, c))) else Err(TypeError)
    else if t == Str("risk") then
      var out :- OutputDict(p);
      var k := Lookup(out, "risk_level", Str("Low"));
      if Hashable(k) then Ok(st.(risks := Bump(st.risks, k))) else Err(TypeError)
    else Ok(st)
  }

  /** One iteration as written: `pred['prediction_type']` must exist, and
      `monthly_data[month][pred_type]` raises KeyError for any type that is
      not a key of the month's dict. A type of "total" bumps the month's
      total twice. */
  function Step(st: YearState, p: Prediction): (r: Result<YearState>)
    requires Wf(st)
    ensures r.Ok? ==> Wf(r.value)
    ensures r.Ok? ==> p.kind.Some? && p.kind.value in MonthKeys
  {
    if p.kind.None? then Err(KeyError("prediction_type"))
    else
      var t := p.kind.value;
      if !Hashable(t) then Err(TypeError)
      else if t !in MonthKeys then Err(KeyError(KeyName(t)))
      else
        var m := p.createdAt.month - 1;
        var row := CountKind(st.monthly[m], t);
        Accumulate(st.(monthly := st.monthly[m := row.(total := row.total + 1)]), p, t)
  }

  /** One iteration counting every record in its month's total and only the
      three known kinds in their own columns. */
  function StepCorrected(st: YearState, p: Prediction): (r: Result<YearState>)
    requires Wf(st)
    ensures r.Ok? ==> Wf(r.value)
  {
    var t := KindKey(p);
    var m := p.createdAt.month - 1;
    var row := if t in Kinds then CountKind(st.monthly[m], t) else st.monthly[m];
    Accumulate(st.(monthly := st.monthly[m := row.(total := row.total + 1)]), p, t)
  }

  /** The loop over the records, stopping at the first exception. */
  function Run(st: YearState, ps: seq<Prediction>, corrected: bool): (r: Result<YearState>)
    requires Wf(st)
    ensures r.Ok? ==> Wf(r.value)
    decreases |ps|
  {
    if ps == [] then Ok(st)
    else
      var next := if corrected then StepCorrected(st, ps[0]) else Step(st, ps[0]);
      if next.Err? then Err(next.error) else Run(next.value, ps[1..], corrected)
  }

  /** The `if`/`elif` branch for type `t` reads the record without raising:
      for the three kinds the output is a dict; a yield's `yield` is a
      number, and a crop's crop and a risk's level can be dict keys. */
  predicate Accumulates(p: Prediction, t: Value) {
    t in Kinds ==>
      && p.output.Some? && p.output.value.Obj?
      && (t == Str("yield") ==> Lookup(p.output.value.fields, "yield", Num(0.0)).Num?)
      && (t == Str("crop") ==> Hashable(CropName(p)))
      && (t == Str("risk") ==> Hashable(RiskLevel(p)))
  }

  /** A record the loop passes without raising. As written, its type must
      also be present and be a key of the month's dict; corrected, any type
      is counted. */
  predicate Steps(p: Prediction, corrected: bool) {
    if corrected then Accumulates(p, KindKey(p))
    else p.kind.Some? && p.kind.value in MonthKeys && Accumulates(p, p.kind.value)
  }

  /** Whether a step raises depends on the record alone, not on the state. */
  lemma StepSucceeds(st: YearState, p: Prediction, corrected: bool)
    requires Wf(st)
    ensures (if corrected then StepCorrected(st, p) else Step(st, p)).Ok? <==> Steps(p, corrected)
  {
  }

  /** The loop completes exactly when every record passes its step. */
  lemma {:induction false} RunSucceeds(st: YearState, ps: seq<Prediction>, corrected: bool)
    requires Wf(st)
    ensures Run(st, ps, corrected).Ok? <==> forall i :: 0 <= i < |ps| ==> Steps(ps[i], corrected)
    decreases |ps|
  {
    if ps != [] {
      StepSucceeds(st, ps[0], corrected);
      var next := if corrected then StepCorrected(st, ps[0]) else Step(st, ps[0]);
      if next.Ok? {
        RunSucceeds(next.value, ps[1..], corrected);
        assert forall i :: 0 < i < |ps| ==> ps[i] == ps[1..][i - 1];
      }
    }
  }

  /** The branches on the type read and write everything but the months. */
  lemma AccumulateIgnoresMonths(a: YearState, b: YearState, p: Prediction, t: Value)
    requires a.(monthly := b.monthly) == b
    ensures Accumulate(a, p, t).Ok? == Accumulate(b, p, t).Ok?
    ensures Accumulate(a, p, t).Ok? ==> Accumulate(a, p, t).value.(monthly := b.monthly) == Accumulate(b, p, t).value
  {
  }

  /** Apart from the monthly counts, the as-written loop computes what the
      corrected loop computes, and the corrected loop completes whenever the
      as-written one does. */
  lemma {:induction false} RunTalliesAgree(a: YearState, b: YearState, ps: seq<Prediction>)
    requires Wf(a) && Wf(b) && a.(monthly := b.monthly) == b
    requires Run(a, ps, false).Ok?
    ensures Run(b, ps, true).Ok?
    ensures Run(a, ps, false).value.(monthly := Run(b, ps, true).value.monthly) == Run(b, ps, true).value
    decreases |ps|
  {
    if ps != [] {
      var p := ps[0];
      var t := p.kind.value;
      var m := p.createdAt.month - 1;
      var rowA := CountKind(a.monthly[m], t);
      var a1 := a.(monthly := a.monthly[m := rowA.(total := rowA.total + 1)]);
      var rowB := if t in Kinds then CountKind(b.monthly[m], t) else b.monthly[m];
      var b1 := b.(monthly := b.monthly[m := rowB.(total := rowB.total + 1)]);
      assert KindKey(p) == t;
      AccumulateIgnoresMonths(a1, b1, p, t);
      RunTalliesAgree(Step(a, p).value, StepCorrected(b, p).value, ps[1..]);
    }
  }

  /** The records between the first instant of `year` and the first instant
      of the next year. */
  function YearWindow(uid: nat, year: int): Criterion {
    Both(Both(OwnedBy(uid), CreatedFrom(MonthStart(year, 1))), CreatedBefore(MonthStart(year + 1, 1)))
  }

  /** The window holds exactly the owner's records created in `year`. */
  lemma YearWindowSpec(uid: nat, year: int, p: Prediction)
    ensures Holds(YearWindow(uid, year), p) <==> p.owner == uid && p.createdAt.year == year
  {
    TailOfYearWindow(p.createdAt, year, 1);
    var owned := Both(OwnedBy(uid), CreatedFrom(MonthStart(year, 1)));
    assert Holds(owned, p) <==> Holds(OwnedBy(uid), p) && Holds(CreatedFrom(MonthStart(year, 1)), p);
    assert Holds(YearWindow(uid, year), p) <==> Holds(owned, p) && Holds(CreatedBefore(MonthStart(year + 1, 1)), p);
  }

  /** The window's records, oldest first. */
  function YearRecords(store: seq<Prediction>, uid: nat, year: int): seq<Prediction> {
    OldestFirst(Select(store, YearWindow(uid, year)))
  }

  function QuarterTotal(monthly: seq<MonthCounts>, q: nat): nat
    requires |monthly| == 12 && q < 4
  {
    monthly[3 * q].total + monthly[3 * q + 1].total + monthly[3 * q + 2].total
  }

  datatype YearReport = YearReport(
    year: int,
    total: nat,
    avgYield: real,
    estimatedRevenue: real,
    monthly: seq<MonthCounts>,
    quarterly: seq<nat>,
    crops: seq<Bucket>,
    risks: seq<Bucket>)

  /** The report from the loop's final state. The revenue estimate is the
      average yield times the price when the average is positive, else 0. */
  function Report(year: int, total: nat, st: YearState): (r: YearReport)
    requires Wf(st)
    ensures |r.monthly| == 12 && |r.quarterly| == 4
    ensures MeanOfTotal(r.avgYield, st.totalYield, st.yieldCount)
    ensures r.estimatedRevenue >= 0.0
    ensures r.avgYield > 0.0 ==> r.estimatedRevenue == r.avgYield * PricePerUnit
    ensures r.avgYield <= 0.0 ==> r.estimatedRevenue == 0.0
    ensures r.crops == st.crops && r.risks == st.risks
  {
    var avg := Mean(st.totalYield, st.yieldCount);
    YearReport(year, total, avg, if avg > 0.0 then avg * PricePerUnit else 0.0, st.monthly,
               [QuarterTotal(st.monthly, 0), QuarterTotal(st.monthly, 1),
                QuarterTotal(st.monthly, 2), QuarterTotal(st.monthly, 3)],
               st.crops, st.risks)
  }

  /** The reply can be written: the crop and risk distributions are keyed
      by values the JSON provider accepts. */
  predicate Writable(st: YearState) {
    JsonKeysOk(KeySet(st.crops)) && JsonKeysOk(KeySet(st.risks))
  }

  /** `get_yearly_analytics` as written. `datetime(year, 1, 1)` raises
      OverflowError for a year too wide for a C `int`; it and
      `datetime(year + 1, 1, 1)` raise ValueError for any other year outside
      1 to 9998; distributions whose keys the reply cannot write raise
      TypeError. */
  function Yearly(store: seq<Prediction>, uid: nat, year: int): (r: Result<YearReport>)
    ensures !FitsCInt(year) ==> r == Err(OverflowError)
    ensures FitsCInt(year) && !(1 <= year <= 9998) ==> r == Err(ValueError)
    ensures var run := Run(Initial(), YearRecords(store, uid, year), false);
            1 <= year <= 9998 && run.Ok? ==> (r.Err? <==> !Writable(run.value)) && (r.Err? ==> r.error == TypeError)
    ensures r.Ok? ==> r.value.total == Count(store, YearWindow(uid, year))
    ensures r.Ok? ==> JsonKeysOk(KeySet(r.value.crops)) && JsonKeysOk(KeySet(r.value.risks))
  {
    var start :- FirstOfMonth(year, 1);
    var end :- FirstOfMonth(year + 1, 1);
    var ps := YearRecords(store, uid, year);
    var st :- Run(Initial(), ps, false);
    if !Writable(st) then Err(TypeError) else Ok(Report(year, |ps|, st))
  }

  /** `get_yearly_analytics` with every record counted in its month. */
  function YearlyCorrected(store: seq<Prediction>, uid: nat, year: int): (r: Result<YearReport>)
    ensures !FitsCInt(year) ==> r == Err(OverflowError)
    ensures FitsCInt(year) && !(1 <= year <= 9998) ==> r == Err(ValueError)
    ensures var run := Run(Initial(), YearRecords(store, uid, year), true);
            1 <= year <= 9998 && run.Ok? ==> (r.Err? <==> !Writable(run.value)) && (r.Err? ==> r.error == TypeError)
    ensures r.Ok? ==> r.value.total == Count(store, YearWindow(uid, year))
    ensures r.Ok? ==> JsonKeysOk(KeySet(r.value.crops)) && JsonKeysOk(KeySet(r.value.risks))
  {
    var start :- FirstOfMonth(year, 1);
    var end :- FirstOfMonth(year + 1, 1);
    var ps := YearRecords(store, uid, year);
    var st :- Run(Initial(), ps, true);
    if !Writable(st) then Err(TypeError) else Ok(Report(year, |ps|, st))
  }

  // ---------------------------------------------------------------------
  // What the yearly loop computes

  /** The number of records created in `month`. */
  function MonthCount(ps: seq<Prediction>, month: int): nat {
    if ps == [] then 0 else (if ps[0].createdAt.month == month then 1 else 0) + MonthCount(ps[1..], month)
  }

  /** The number of records of kind `k` created in `month`. */
  function MonthKindCount(ps: seq<Prediction>, month: int, k: Value): nat {
    if ps == [] then 0
    else (if ps[0].createdAt.month == month && KindKey(ps[0]) == k then 1 else 0) + MonthKindCount(ps[1..], month, k)
  }

  /** Per month, the corrected loop adds the month's records to the total and
      the month's records of each known kind to that kind's column. */
  lemma {:induction false} RunMonthly(st: YearState, ps: seq<Prediction>, m: nat)
    requires Wf(st) && m < 12
    requires Run(st, ps, true).Ok?
    ensures var a := Run(st, ps, true).value.monthly[m];
            var b := st.monthly[m];
            && a.total == b.total + MonthCount(ps, m + 1)
            && a.yieldN == b.yieldN + MonthKindCount(ps, m + 1, Str("yield"))
            && a.cropN == b.cropN + MonthKindCount(ps, m + 1, Str("crop"))
            && a.riskN == b.riskN + MonthKindCount(ps, m + 1, Str("risk"))
    decreases |ps|
  {
    if ps != [] {
      var next := StepCorrected(st, ps[0]);
      RunMonthly(next.value, ps[1..], m);
    }
  }

  /** Every record falls in exactly one month. */
  lemma {:induction false} MonthsPartition(ps: seq<Prediction>)
    ensures MonthCount(ps, 1) + MonthCount(ps, 2) + MonthCount(ps, 3) + MonthCount(ps, 4)
            + MonthCount(ps, 5) + MonthCount(ps, 6) + MonthCount(ps, 7) + MonthCount(ps, 8)
            + MonthCount(ps, 9) + MonthCount(ps, 10) + MonthCount(ps, 11) + MonthCount(ps, 12) == |ps|
  {
    if ps != [] {
      MonthsPartition(ps[1..]);
    }
  }

  /** The corrected report is the report of the corrected loop's final state
      over the year's records. */
  lemma YearlyCorrectedIs(store: seq<Prediction>, uid: nat, year: int)
    requires YearlyCorrected(store, uid, year).Ok?
    ensures Run(Initial(), YearRecords(store, uid, year), true).Ok?
    ensures var ps := YearRecords(store, uid, year);
            YearlyCorrected(store, uid, year).value == Report(year, |ps|, Run(Initial(), ps, true).value)
  {
  }

  /** The corrected monthly breakdown counts each month's records, each
      quarter counts the records of its three months, and the quarters add up
      to the number of records in the year. */
  lemma YearlyCorrectedBreakdown(store: seq<Prediction>, uid: nat, year: int)
    requires YearlyCorrected(store, uid, year).Ok?
    ensures var r := YearlyCorrected(store, uid, year).value;
            var ps := YearRecords(store, uid, year);
            && (forall m :: 0 <= m < 12 ==>
                  && r.monthly[m].total == MonthCount(ps, m + 1)
                  && r.monthly[m].yieldN == MonthKindCount(ps, m + 1, Str("yield"))
                  && r.monthly[m].cropN == MonthKindCount(ps, m + 1, Str("crop"))
                  && r.monthly[m].riskN == MonthKindCount(ps, m + 1, Str("risk")))
            && (forall quarter :: 1 <= quarter <= 4 ==>
                  r.quarterly[quarter - 1]
                  == MonthCount(ps, 3 * quarter - 2) + MonthCount(ps, 3 * quarter - 1) + MonthCount(ps, 3 * quarter))
            && r.quarterly[0] + r.quarterly[1] + r.quarterly[2] + r.quarterly[3] == r.total
  {
    YearlyCorrectedIs(store, uid, year);
    var ps := YearRecords(store, uid, year);
    var st := Run(Initial(), ps, true).value;
    var r := Report(year, |ps|, st);
    forall m | 0 <= m < 12
      ensures st.monthly[m].total == MonthCount(ps, m + 1)
      ensures st.monthly[m].yieldN == MonthKindCount(ps, m + 1, Str("yield"))
      ensures st.monthly[m].cropN == MonthKindCount(ps, m + 1, Str("crop"))
      ensures st.monthly[m].riskN == MonthKindCount(ps, m + 1, Str("risk"))
    {
      RunMonthly(Initial(), ps, m);
    }
    forall quarter | 1 <= quarter <= 4
      ensures r.quarterly[quarter - 1]
              == MonthCount(ps, 3 * quarter - 2) + MonthCount(ps, 3 * quarter - 1) + MonthCount(ps, 3 * quarter)
    {
      assert r.quarterly[quarter - 1] == QuarterTotal(st.monthly, quarter - 1);
      QuarterOfMonths(st.monthly, ps, quarter);
    }
    MonthsPartition(ps);
  }

  lemma QuarterOfMonths(monthly: seq<MonthCounts>, ps: seq<Prediction>, quarter: int)
    requires |monthly| == 12 && 1 <= quarter <= 4
    requires forall m :: 0 <= m < 12 ==> monthly[m].total == MonthCount(ps, m + 1)
    ensures QuarterTotal(monthly, quarter - 1)
            == MonthCount(ps, 3 * quarter - 2) + MonthCount(ps, 3 * quarter - 1) + MonthCount(ps, 3 * quarter)
  {
    var m := 3 * (quarter - 1);
    assert monthly[m].total == MonthCount(ps, 3 * quarter - 2);
    assert monthly[m + 1].total == MonthCount(ps, 3 * quarter - 1);
    assert monthly[m + 2].total == MonthCount(ps, 3 * quarter);
  }

  /** The crop a crop record is counted under. */
  function CropName(p: Prediction): Value {
    if p.output.Some? && p.output.value.Obj? then Lookup(p.output.value.fields, "crop", Str("Unknown")) else Str("Unknown")
  }

  /** The risk level a risk record is counted under. */
  function RiskLevel(p: Prediction): Value {
    if p.output.Some? && p.output.value.Obj? then Lookup(p.output.value.fields, "risk_level", Str("Low")) else Str("Low")
  }

  function CropNames(ps: seq<Prediction>): (r: seq<Value>)
    ensures |r| == |ps| && forall i :: 0 <= i < |ps| ==> r[i] == CropName(ps[i])
  {
    seq(|ps|, i requires 0 <= i < |ps| => CropName(ps[i]))
  }

  function RiskLevels(ps: seq<Prediction>): (r: seq<Value>)
    ensures |r| == |ps| && forall i :: 0 <= i < |ps| ==> r[i] == RiskLevel(ps[i])
  {
    seq(|ps|, i requires 0 <= i < |ps| => RiskLevel(ps[i]))
  }

  /** The crops of the crop records, in order, one record at a time. */
  function CropsOf(ps: seq<Prediction>): seq<Value> {
    if ps == [] then []
    else (if KindKey(ps[0]) == Str("crop") then [CropName(ps[0])] else []) + CropsOf(ps[1..])
  }

  /** The levels of the risk records, in order, one record at a time. */
  function RiskLevelsOf(ps: seq<Prediction>): seq<Value> {
    if ps == [] then []
    else (if KindKey(ps[0]) == Str("risk") then [RiskLevel(ps[0])] else []) + RiskLevelsOf(ps[1..])
  }

  lemma {:induction false} CropsOfNames(ps: seq<Prediction>)
    ensures CropsOf(ps) == CropNames(Select(ps, KindIs(Str("crop"))))
  {
    if ps != [] {
      CropsOfNames(ps[1..]);
      var rest := Select(ps[1..], KindIs(Str("crop")));
      if KindKey(ps[0]) == Str("crop") {
        assert Select(ps, KindIs(Str("crop"))) == [ps[0]] + rest;
        assert CropNames([ps[0]] + rest) == [CropName(ps[0])] + CropNames(rest);
      } else {
        assert Select(ps, KindIs(Str("crop"))) == rest;
      }
    }
  }

  lemma {:induction false} RiskLevelsOfNames(ps: seq<Prediction>)
    ensures RiskLevelsOf(ps) == RiskLevels(Select(ps, KindIs(Str("risk"))))
  {
    if ps != [] {
      RiskLevelsOfNames(ps[1..]);
      var rest := Select(ps[1..], KindIs(Str("risk")));
      if KindKey(ps[0]) == Str("risk") {
        assert Select(ps, KindIs(Str("risk"))) == [ps[0]] + rest;
        assert RiskLevels([ps[0]] + rest) == [RiskLevel(ps[0])] + RiskLevels(rest);
      } else {
        assert Select(ps, KindIs(Str("risk"))) == rest;
      }
    }
  }

  /** One corrected step bumps the crop tally for a crop record, the risk
      tally for a risk record, and the yield count for a yield record. */
  lemma StepTallies(st: YearState, p: Prediction)
    requires Wf(st)
    requires StepCorrected(st, p).Ok?
    ensures var n := StepCorrected(st, p).value;
            && n.crops == (if KindKey(p) == Str("crop") then Bump(st.crops, CropName(p)) else st.crops)
            && n.risks == (if KindKey(p) == Str("risk") then Bump(st.risks, RiskLevel(p)) else st.risks)
            && n.yieldCount == st.yieldCount + (if KindKey(p) == Str("yield") then 1 else 0)
  {
  }

  lemma {:induction false} RunCrops(st: YearState, ps: seq<Prediction>)
    requires Wf(st)
    requires Run(st, ps, true).Ok?
    ensures Run(st, ps, true).value.crops == TallyInto(st.crops, CropsOf(ps))
    decreases |ps|
  {
    if ps != [] {
      StepTallies(st, ps[0]);
      RunCrops(StepCorrected(st, ps[0]).value, ps[1..]);
      var keys := CropsOf(ps);
      if KindKey(ps[0]) == Str("crop") {
        assert keys != [] && keys[0] == CropName(ps[0]) && keys[1..] == CropsOf(ps[1..]);
        assert TallyInto(st.crops, keys) == TallyInto(Bump(st.crops, keys[0]), keys[1..]);
      } else {
        assert keys == CropsOf(ps[1..]);
      }
    }
  }

  lemma {:induction false} RunRisks(st: YearState, ps: seq<Prediction>)
    requires Wf(st)
    requires Run(st, ps, true).Ok?
    ensures Run(st, ps, true).value.risks == TallyInto(st.risks, RiskLevelsOf(ps))
    decreases |ps|
  {
    if ps != [] {
      StepTallies(st, ps[0]);
      RunRisks(StepCorrected(st, ps[0]).value, ps[1..]);
      var keys := RiskLevelsOf(ps);
      if KindKey(ps[0]) == Str("risk") {
        assert keys != [] && keys[0] == RiskLevel(ps[0]) && keys[1..] == RiskLevelsOf(ps[1..]);
        assert TallyInto(st.risks, keys) == TallyInto(Bump(st.risks, keys[0]), keys[1..]);
      } else {
        assert keys == RiskLevelsOf(ps[1..]);
      }
    }
  }

  lemma {:induction false} RunYieldCount(st: YearState, ps: seq<Prediction>)
    requires Wf(st)
    requires Run(st, ps, true).Ok?
    ensures Run(st, ps, true).value.yieldCount == st.yieldCount + |Select(ps, KindIs(Str("yield")))|
    decreases |ps|
  {
    if ps != [] {
      StepTallies(st, ps[0]);
      RunYieldCount(StepCorrected(st, ps[0]).value, ps[1..]);
    }
  }

  /** The distributions tally the crop records' crops and the risk records'
      levels, in order, and the yield count is the number of yield records. */
  lemma RunTallies(st: YearState, ps: seq<Prediction>)
    requires Wf(st)
    requires Run(st, ps, true).Ok?
    ensures var r := Run(st, ps, true).value;
            && r.crops == TallyInto(st.crops, CropNames(Select(ps, KindIs(Str("crop")))))
            && r.risks == TallyInto(st.risks, RiskLevels(Select(ps, KindIs(Str("risk")))))
            && r.yieldCount == st.yieldCount + |Select(ps, KindIs(Str("yield")))|
  {
    RunCrops(st, ps);
    CropsOfNames(ps);
    RunRisks(st, ps);
    RiskLevelsOfNames(ps);
    RunYieldCount(st, ps);
  }

  /** The number a yield record adds to the yield sum: its output's
      `yield`, 0 when the key is absent. (A run that succeeds meets no other
      kind of yield.) */
  function YieldOf(p: Prediction): real {
    if p.output.Some? && p.output.value.Obj? then
      var y := Lookup(p.output.value.fields, "yield", Num(0.0));
      if y.Num? then y.r else 0.0
    else 0.0
  }

  /** The yields of the yield records, in order. */
  function YieldsOf(ps: seq<Prediction>): seq<real> {
    if ps == [] then []
    else (if KindKey(ps[0]) == Str("yield") then [YieldOf(ps[0])] else []) + YieldsOf(ps[1..])
  }

  /** There is one yield per yield record. */
  lemma {:induction false} YieldsOfCount(ps: seq<Prediction>)
    ensures |YieldsOf(ps)| == |Select(ps, KindIs(Str("yield")))|
  {
    if ps != [] {
      YieldsOfCount(ps[1..]);
    }
  }

  lemma SumCons(x: real, xs: seq<real>)
    ensures Sum([x] + xs) == x + Sum(xs)
  {
    assert ([x] + xs)[1..] == xs;
  }

  /** One step, as written or corrected, adds a yield record's yield to the
      sum and counts it. */
  lemma StepYield(st: YearState, p: Prediction, corrected: bool)
    requires Wf(st)
    requires (if corrected then StepCorrected(st, p) else Step(st, p)).Ok?
    ensures var n := (if corrected then StepCorrected(st, p) else Step(st, p)).value;
            && n.totalYield == st.totalYield + (if KindKey(p) == Str("yield") then YieldOf(p) else 0.0)
            && n.yieldCount == st.yieldCount + (if KindKey(p) == Str("yield") then 1 else 0)
  {
  }

  /** The loop, as written or corrected, sums the yields of the yield
      records and counts them. */
  lemma {:induction false} RunYields(st: YearState, ps: seq<Prediction>, corrected: bool)
    requires Wf(st)
    requires Run(st, ps, corrected).Ok?
    ensures Run(st, ps, corrected).value.totalYield == st.totalYield + Sum(YieldsOf(ps))
    ensures Run(st, ps, corrected).value.yieldCount == st.yieldCount + |YieldsOf(ps)|
    decreases |ps|
  {
    if ps != [] {
      var next := (if corrected then StepCorrected(st, ps[0]) else Step(st, ps[0])).value;
      StepYield(st, ps[0], corrected);
      RunYields(next, ps[1..], corrected);
      if KindKey(ps[0]) == Str("yield") {
        assert YieldsOf(ps) == [YieldOf(ps[0])] + YieldsOf(ps[1..]);
        SumCons(YieldOf(ps[0]), YieldsOf(ps[1..]));
      } else {
        assert YieldsOf(ps) == YieldsOf(ps[1..]);
      }
    }
  }

  /** The report's average yield is the mean of the yield records' yields,
      and 0 when there are none. */
  lemma ReportYield(year: int, ps: seq<Prediction>, corrected: bool)
    requires Run(Initial(), ps, corrected).Ok?
    ensures var r := Report(year, |ps|, Run(Initial(), ps, corrected).value);
            MeanOf(r.avgYield, YieldsOf(ps))
  {
    var st := Run(Initial(), ps, corrected).value;
    RunYields(Initial(), ps, corrected);
    assert st.totalYield == Sum(YieldsOf(ps)) && st.yieldCount == |YieldsOf(ps)|;
  }

  /** The yearly average yield, as written, is the mean of the yields of the
      year's yield records (0 when there are none), and the revenue estimate
      is 25 per unit of it when it is positive and 0 otherwise. */
  lemma YearlyYield(store: seq<Prediction>, uid: nat, year: int)
    requires Yearly(store, uid, year).Ok?
    ensures var r := Yearly(store, uid, year).value;
            var ps := YearRecords(store, uid, year);
            && MeanOf(r.avgYield, YieldsOf(ps))
            && |YieldsOf(ps)| == |Select(ps, KindIs(Str("yield")))|
            && r.estimatedRevenue == if r.avgYield > 0.0 then r.avgYield * PricePerUnit else 0.0
  {
    var ps := YearRecords(store, uid, year);
    ReportYield(year, ps, false);
    YieldsOfCount(ps);
  }

  lemma YearlyCorrectedYield(store: seq<Prediction>, uid: nat, year: int)
    requires YearlyCorrected(store, uid, year).Ok?
    ensures var r := YearlyCorrected(store, uid, year).value;
            var ps := YearRecords(store, uid, year);
            && MeanOf(r.avgYield, YieldsOf(ps))
            && |YieldsOf(ps)| == |Select(ps, KindIs(Str("yield")))|
            && r.estimatedRevenue == if r.avgYield > 0.0 then r.avgYield * PricePerUnit else 0.0
  {
    var ps := YearRecords(store, uid, year);
    ReportYield(year, ps, true);
    YieldsOfCount(ps);
  }

  /** The crop distribution counts each crop among the year's crop records
      and sums to their number; the risk distribution always lists Low,
      Medium and High, and sums to the number of risk records. */
  lemma YearlyCorrectedDistributions(store: seq<Prediction>, uid: nat, year: int)
    requires YearlyCorrected(store, uid, year).Ok?
    ensures var r := YearlyCorrected(store, uid, year).value;
            var ps := YearRecords(store, uid, year);
            && (forall k :: CountOf(r.crops, k) == multiset(CropNames(Select(ps, KindIs(Str("crop")))))[k])
            && Total(r.crops) == |Select(ps, KindIs(Str("crop")))|
            && Total(r.risks) == |Select(ps, KindIs(Str("risk")))|
            && (forall k :: CountOf(r.risks, k) == multiset(RiskLevels(Select(ps, KindIs(Str("risk")))))[k])
            && {Str("Low"), Str("Medium"), Str("High")} <= KeySet(r.risks)
  {
    YearlyCorrectedIs(store, uid, year);
    var ps := YearRecords(store, uid, year);
    RunTallies(Initial(), ps);
    TallySpec([], CropNames(Select(ps, KindIs(Str("crop")))));
    RiskTally(RiskLevels(Select(ps, KindIs(Str("risk")))));
    TallySpec(Zeroed([Str("Low"), Str("Medium"), Str("High")]), RiskLevels(Select(ps, KindIs(Str("risk")))));
    ThreeLevels();
  }

  /** Tallying risk levels onto the three zeroed levels keeps the three
      levels and adds one per record. */
  lemma RiskTally(levels: seq<Value>)
    ensures var r := TallyInto(Zeroed([Str("Low"), Str("Medium"), Str("High")]), levels);
            Total(r) == |levels| && {Str("Low"), Str("Medium"), Str("High")} <= KeySet(r)
  {
    TallySpec(Zeroed([Str("Low"), Str("Medium"), Str("High")]), levels);
    ThreeLevels();
  }

  /** The risk distribution can be written exactly when every risk level
      is a string: the three initial levels are strings, and a level of any
      other type would be a key beside them. */
  lemma RiskKeysWritable(levels: seq<Value>)
    ensures JsonKeysOk(KeySet(TallyInto(Zeroed([Str("Low"), Str("Medium"), Str("High")]), levels)))
            <==> forall i :: 0 <= i < |levels| ==> levels[i].Str?
  {
    var z := Zeroed([Str("Low"), Str("Medium"), Str("High")]);
    var keys := KeySet(TallyInto(z, levels));
    TallySpec(z, levels);
    ThreeLevels();
    if forall i :: 0 <= i < |levels| ==> levels[i].Str? {
      forall k | k in keys ensures k.Str? {
        if k !in KeySet(z) {
          assert k in set x | x in levels;
        }
      }
      JsonKeysOfOneType(keys);
    } else {
      var i :| 0 <= i < |levels| && !levels[i].Str?;
      assert levels[i] in keys && Str("Low") in keys;
      assert !Comparable(levels[i], Str("Low"));
    }
  }

  /** Once the corrected loop has run, the report is written exactly when
      the crops can be dict keys of the reply and every risk level is a
      string. */
  lemma YearlyCorrectedWritable(store: seq<Prediction>, uid: nat, year: int)
    requires 1 <= year <= 9998
    requires Run(Initial(), YearRecords(store, uid, year), true).Ok?
    ensures var ps := YearRecords(store, uid, year);
            var crops := CropNames(Select(ps, KindIs(Str("crop"))));
            var levels := RiskLevels(Select(ps, KindIs(Str("risk"))));
            YearlyCorrected(store, uid, year).Ok? <==>
              JsonKeysOk(set c | c in crops) && forall i :: 0 <= i < |levels| ==> levels[i].Str?
  {
    var ps := YearRecords(store, uid, year);
    var crops := CropNames(Select(ps, KindIs(Str("crop"))));
    RunTallies(Initial(), ps);
    TallySpec([], crops);
    RiskKeysWritable(RiskLevels(Select(ps, KindIs(Str("risk")))));
  }

  /** The corrected report is written exactly when the year is one
      `datetime` represents in full, every record passes the corrected
      step, the crops can be keys of the reply and every risk level is a
      string. */
  lemma YearlyCorrectedSucceeds(store: seq<Prediction>, uid: nat, year: int)
    ensures var ps := YearRecords(store, uid, year);
            var crops := CropNames(Select(ps, KindIs(Str("crop"))));
            var levels := RiskLevels(Select(ps, KindIs(Str("risk"))));
            YearlyCorrected(store, uid, year).Ok? <==>
              && 1 <= year <= 9998
              && (forall i :: 0 <= i < |ps| ==> Steps(ps[i], true))
              && JsonKeysOk(set c | c in crops)
              && forall i :: 0 <= i < |levels| ==> levels[i].Str?
  {
    var ps := YearRecords(store, uid, year);
    RunSucceeds(Initial(), ps, true);
    if 1 <= year <= 9998 && Run(Initial(), ps, true).Ok? {
      YearlyCorrectedWritable(store, uid, year);
    }
  }

  /** The report as written is written exactly when the year is one
      `datetime` represents in full, every record passes the as-written
      step, the crops can be keys of the reply and every risk level is a
      string. */
  lemma YearlySucceeds(store: seq<Prediction>, uid: nat, year: int)
    ensures var ps := YearRecords(store, uid, year);
            var crops := CropNames(Select(ps, KindIs(Str("crop"))));
            var levels := RiskLevels(Select(ps, KindIs(Str("risk"))));
            Yearly(store, uid, year).Ok? <==>
              && 1 <= year <= 9998
              && (forall i :: 0 <= i < |ps| ==> Steps(ps[i], false))
              && JsonKeysOk(set c | c in crops)
              && forall i :: 0 <= i < |levels| ==> levels[i].Str?
  {
    var ps := YearRecords(store, uid, year);
    RunSucceeds(Initial(), ps, false);
    if 1 <= year <= 9998 && Run(Initial(), ps, false).Ok? {
      RunTalliesAgree(Initial(), Initial(), ps);
      assert Writable(Run(Initial(), ps, false).value) <==> Writable(Run(Initial(), ps, true).value);
      YearlyCorrectedWritable(store, uid, year);
    }
  }

  /** The concrete case: one yield record of 3 in the year gives an average
      yield of 3 and an estimated revenue of 75. */
  lemma YearlyYieldExample(uid: nat)
    ensures var p := Prediction(Ref(1), uid, Some(Str("yield")), Instant(2024, 3, 5, 0),
                                Some(Str("Rice")), Some(Str("Kharif")), Some(Str("Pune")), Some(Str("West")),
                                Some(Num(2.0)), Some(Str("acres")), Some(Obj(map[])),
                                Some(Obj(map["yield" := Num(3.0)])), None, None);
            var r := Yearly([p], uid, 2024);
            r.Ok? && r.value.total == 1 && r.value.avgYield == 3.0 && r.value.estimatedRevenue == 75.0
  {
    var p := Prediction(Ref(1), uid, Some(Str("yield")), Instant(2024, 3, 5, 0),
                        Some(Str("Rice")), Some(Str("Kharif")), Some(Str("Pune")), Some(Str("West")),
                        Some(Num(2.0)), Some(Str("acres")), Some(Obj(map[])),
                        Some(Obj(map["yield" := Num(3.0)])), None, None);
    YearWindowSpec(uid, 2024, p);
    assert Select([p], YearWindow(uid, 2024)) == [p];
    assert OldestFirst([p]) == [p];
    var one := Step(Initial(), p);
    assert one.Ok? && one.value.totalYield == 3.0 && one.value.yieldCount == 1;
    assert [p][1..] == [];
    assert Run(Initial(), [p], false) == Run(one.value, [], false) == one;
    var st := Run(Initial(), [p], false);
    assert st.value.crops == [] && st.value.risks == Initial().risks;
    ThreeLevels();
    JsonKeysOfOneType(KeySet(st.value.risks));
  }

  lemma ThreeLevels()
    ensures var z := Zeroed([Str("Low"), Str("Medium"), Str("High")]);
            && Total(z) == 0 && KeySet(z) == {Str("Low"), Str("Medium"), Str("High")}
            && forall k :: CountOf(z, k) == 0
  {
    var z := Zeroed([Str("Low"), Str("Medium"), Str("High")]);
    assert z == [Bucket(Str("Low"), 0), Bucket(Str("Medium"), 0), Bucket(Str("High"), 0)];
    assert z[1..] == [Bucket(Str("Medium"), 0), Bucket(Str("High"), 0)];
    assert z[1..][1..] == [Bucket(Str("High"), 0)];
    assert z[1..][1..][1..] == [];
    ZeroedCountsNothing([Str("Low"), Str("Medium"), Str("High")]);
  }

  /** On records of the three known kinds the as-written loop and the
      corrected loop take the same steps. */
  lemma {:induction false} RunAgrees(st: YearState, ps: seq<Prediction>)
    requires Wf(st)
    requires forall i :: 0 <= i < |ps| ==> ps[i].kind.Some? && ps[i].kind.value in Kinds
    ensures Run(st, ps, false) == Run(st, ps, true)
    decreases |ps|
  {
    if ps != [] {
      assert Step(st, ps[0]) == StepCorrected(st, ps[0]);
      var next := Step(st, ps[0]);
      if next.Ok? {
        RunAgrees(next.value, ps[1..]);
      }
    }
  }

  /** When every record of the year is a yield, crop or risk prediction, as
      the basic save path writes them, the report as written is the
      corrected one. */
  lemma YearlyAgreesOnBasicRecords(store: seq<Prediction>, uid: nat, year: int)
    requires var ps := YearRecords(store, uid, year);
             forall i :: 0 <= i < |ps| ==> ps[i].kind.Some? && ps[i].kind.value in Kinds
    ensures Yearly(store, uid, year) == YearlyCorrected(store, uid, year)
  {
    if 1 <= year <= 9998 {
      RunAgrees(Initial(), YearRecords(store, uid, year));
    }
  }

  /** As written, a record of any type outside the month's keys makes the
      whole report fail. */
  lemma {:induction false} RunRejectsOtherKinds(st: YearState, ps: seq<Prediction>, i: nat)
    requires Wf(st)
    requires i < |ps| && (ps[i].kind.None? || ps[i].kind.value !in MonthKeys)
    ensures Run(st, ps, false).Err?
    decreases |ps|
  {
    var next := Step(st, ps[0]);
    if i > 0 && next.Ok? {
      RunRejectsOtherKinds(next.value, ps[1..], i - 1);
    }
  }

  /** A detailed record (type "yield_detailed") created in the year makes the
      as-written report fail. */
  lemma YearlyRejectsDetailed(store: seq<Prediction>, uid: nat, year: int, p: Prediction)
    requires 1 <= year <= 9998
    requires p in store && p.owner == uid && p.createdAt.year == year
    requires p.kind == Some(Str("yield_detailed"))
    ensures Yearly(store, uid, year).Err?
  {
    YearWindowSpec(uid, year, p);
    SelectMembers(store, YearWindow(uid, year), p);
    OldestFirstSpec(Select(store, YearWindow(uid, year)));
    var ps := YearRecords(store, uid, year);
    assert p in multiset(ps);
    var i :| 0 <= i < |ps| && ps[i] == p;
    RunRejectsOtherKinds(Initial(), ps, i);
  }

  /** The concrete case: one detailed record is the whole year, and the
      report is KeyError('yield_detailed'). */
  lemma YearlyDetailedExample(uid: nat)
    ensures var p := Prediction(Ref(1), uid, Some(Str("yield_detailed")), Instant(2024, 3, 5, 0),
                                Some(Str("Rice")), Some(Str("Kharif")), Some(Str("Pune")), Some(Str("West")),
                                Some(Num(2.0)), Some(Str("acres")), None, None, Some(Obj(map[])), None);
            Yearly([p], uid, 2024) == Err(KeyError("yield_detailed"))
  {
    var p := Prediction(Ref(1), uid, Some(Str("yield_detailed")), Instant(2024, 3, 5, 0),
                        Some(Str("Rice")), Some(Str("Kharif")), Some(Str("Pune")), Some(Str("West")),
                        Some(Num(2.0)), Some(Str("acres")), None, None, Some(Obj(map[])), None);
    YearWindowSpec(uid, 2024, p);
    assert Select([p], YearWindow(uid, 2024)) == [p];
    assert OldestFirst([p]) == [p];
  }

  // ---------------------------------------------------------------------
  // The quarterly report

  /** The quarter the request defaults to for a month: `(month - 1) // 3 + 1`. */
  function DefaultQuarter(month: int): (q: int)
    requires 1 <= month <= 12
    ensures 1 <= q <= 4
    ensures 3 * (q - 1) + 1 <= month <= 3 * q
  {
    (month - 1) / 3 + 1
  }

  /** The quarter's first instant and the first instant after it. A year or
      first month too wide for a C `int` makes `datetime` raise
      OverflowError. Otherwise a quarter outside 1 to 4 gives a first month
      outside 1 to 12, and `datetime` raises ValueError, as it does for a
      year it cannot represent. */
  function QuarterBounds(year: int, quarter: int): (r: Result<(DateTime, DateTime)>)
    ensures r.Ok? <==> 1 <= quarter <= 4 && 1 <= year <= 9999 && (quarter == 4 ==> year <= 9998)
    ensures !FitsCInt(year) || !FitsCInt(3 * quarter - 2) ==> r == Err(OverflowError)
    ensures FitsCInt(year) && FitsCInt(3 * quarter - 2) && r.Err? ==> r.error == ValueError
    ensures r.Ok? ==> r.value.0 == MonthStart(year, 3 * quarter - 2)
    ensures r.Ok? ==> r.value.1 == if quarter == 4 then MonthStart(year + 1, 1) else MonthStart(year, 3 * quarter + 1)
  {
    var first := (quarter - 1) * 3 + 1;
    var start :- FirstOfMonth(year, first);
    var end :- if quarter == 4 then FirstOfMonth(year + 1, 1) else FirstOfMonth(year, first + 3);
    Ok((start, end))
  }

  function QuarterWindow(uid: nat, start: Instant, end: Instant): Criterion {
    Both(Both(OwnedBy(uid), CreatedFrom(start)), CreatedBefore(end))
  }

  /** The quarter's window holds exactly the owner's records created in the
      quarter's three months of `year`. */
  lemma QuarterWindowSpec(uid: nat, year: int, quarter: int, p: Prediction)
    requires QuarterBounds(year, quarter).Ok?
    ensures var b := QuarterBounds(year, quarter).value;
            Holds(QuarterWindow(uid, b.0, b.1), p) <==>
            p.owner == uid && p.createdAt.year == year && 3 * quarter - 2 <= p.createdAt.month <= 3 * quarter
  {
    var b := QuarterBounds(year, quarter).value;
    var owned := Both(OwnedBy(uid), CreatedFrom(b.0));
    assert Holds(owned, p) <==> Holds(OwnedBy(uid), p) && Holds(CreatedFrom(b.0), p);
    assert Holds(QuarterWindow(uid, b.0, b.1), p) <==> Holds(owned, p) && Holds(CreatedBefore(b.1), p);
    if quarter == 4 {
      TailOfYearWindow(p.createdAt, year, 10);
    } else {
      MonthWindow(p.createdAt, year, 3 * quarter - 2, 3 * quarter + 1);
    }
  }

  /** The loop's state: the yield sum and count, and the crops in order. */
  datatype QuarterState = QuarterState(totalYield: real, yieldCount: nat, crops: seq<Value>)

  /** One iteration: `pred['prediction_type']` must exist; a yield adds its
      numeric `yield` (default 0), a crop appends its `crop` (default
      "Unknown"), anything else is passed over. */
  function QuarterStep(st: QuarterState, p: Prediction): (r: Result<QuarterState>)
    ensures r.Ok? ==> |r.value.crops| <= |st.crops| + 1
    ensures p.kind.None? ==> r == Err(KeyError("prediction_type"))
  {
    if p.kind.None? then Err(KeyError("prediction_type"))
    else if p.kind.value == Str("yield") then
      var out :- OutputDict(p);
      var y := Lookup(out, "yield", Num(0.0));
      if y.Num? then Ok(st.(totalYield := st.totalYield + y.r, yieldCount := st.yieldCount + 1))
      else Err(TypeError)
    else if p.kind.value == Str("crop") then
      var out :- OutputDict(p);
      Ok(st.(crops := st.crops + [Lookup(out, "crop", Str("Unknown"))]))
    else Ok(st)
  }

  /** The loop over the quarter's records, stopping at the first error; it
      completes exactly when every record passes. */
  function QuarterRun(st: QuarterState, ps: seq<Prediction>): (r: Result<QuarterState>)
    ensures r.Ok? <==> forall i :: 0 <= i < |ps| ==> QuarterSteps(ps[i])
    decreases |ps|
  {
    if ps == [] then Ok(st)
    else
      var next := QuarterStep(st, ps[0]);
      assert next.Ok? <==> QuarterSteps(ps[0]);
      assert forall i :: 0 < i < |ps| ==> ps[i] == ps[1..][i - 1];
      if next.Err? then Err(next.error) else QuarterRun(next.value, ps[1..])
  }

  datatype QuarterReport = QuarterReport(
    year: int,
    quarter: int,
    start: DateTime,
    end: DateTime,
    total: nat,
    avgYield: real,
    revenue: real,
    crops: set<Value>)

  /** `get_quarterly_analytics`. The revenue is the average yield times the
      price, without the yearly report's guard against a non-positive
      average. `set(crops)` raises TypeError for a dict-valued crop. */
  function Quarterly(store: seq<Prediction>, uid: nat, year: int, quarter: int): (r: Result<QuarterReport>)
    ensures !FitsCInt(year) || !FitsCInt(3 * quarter - 2) ==> r == Err(OverflowError)
    ensures FitsCInt(year) && FitsCInt(3 * quarter - 2) && QuarterBounds(year, quarter).Err? ==> r == Err(ValueError)
    ensures var b := QuarterBounds(year, quarter);
            b.Ok? ==> var run := QuarterRun(QuarterState(0.0, 0, []), Select(store, QuarterWindow(uid, b.value.0, b.value.1)));
                      run.Ok? ==> (r.Err? <==> exists c :: c in run.value.crops && !Hashable(c)) && (r.Err? ==> r.error == TypeError)
    ensures r.Ok? ==> var b := QuarterBounds(year, quarter).value;
                      r.value.total == Count(store, QuarterWindow(uid, b.0, b.1))
    ensures r.Ok? ==> r.value.revenue == r.value.avgYield * PricePerUnit
  {
    var bounds :- QuarterBounds(year, quarter);
    var ps := Select(store, QuarterWindow(uid, bounds.0, bounds.1));
    var st :- QuarterRun(QuarterState(0.0, 0, []), ps);
    if exists c :: c in st.crops && !Hashable(c) then Err(TypeError)
    else
      var avg := Mean(st.totalYield, st.yieldCount);
      Ok(QuarterReport(year, quarter, bounds.0, bounds.1, |ps|, avg, avg * PricePerUnit,
                       set c | c in st.crops))
  }

  /** The loop's crop list is the crop records' crops, in order, and its
      yield count is the number of yield records. */
  lemma QuarterRunSpec(st: QuarterState, ps: seq<Prediction>)
    requires QuarterRun(st, ps).Ok?
    ensures QuarterRun(st, ps).value.crops == st.crops + CropNames(Select(ps, KindIs(Str("crop"))))
    ensures QuarterRun(st, ps).value.yieldCount == st.yieldCount + |Select(ps, KindIs(Str("yield")))|
  {
    QuarterRunCrops(st, ps);
    CropsOfNames(ps);
    QuarterRunYields(st, ps);
  }

  lemma {:induction false} QuarterRunCrops(st: QuarterState, ps: seq<Prediction>)
    requires QuarterRun(st, ps).Ok?
    ensures QuarterRun(st, ps).value.crops == st.crops + CropsOf(ps)
    decreases |ps|
  {
    if ps != [] {
      var p := ps[0];
      var next := QuarterStep(st, p).value;
      QuarterStepSpec(st, p);
      QuarterRunCrops(next, ps[1..]);
      if KindKey(p) == Str("crop") {
        assert next.crops + CropsOf(ps[1..]) == st.crops + ([CropName(p)] + CropsOf(ps[1..]));
      } else {
        assert next.crops == st.crops;
      }
    }
  }

  lemma {:induction false} QuarterRunYields(st: QuarterState, ps: seq<Prediction>)
    requires QuarterRun(st, ps).Ok?
    ensures QuarterRun(st, ps).value.yieldCount == st.yieldCount + |Select(ps, KindIs(Str("yield")))|
    ensures QuarterRun(st, ps).value.totalYield == st.totalYield + Sum(YieldsOf(ps))
    decreases |ps|
  {
    if ps != [] {
      QuarterStepSpec(st, ps[0]);
      QuarterRunYields(QuarterStep(st, ps[0]).value, ps[1..]);
      if KindKey(ps[0]) == Str("yield") {
        assert YieldsOf(ps) == [YieldOf(ps[0])] + YieldsOf(ps[1..]);
        SumCons(YieldOf(ps[0]), YieldsOf(ps[1..]));
      } else {
        assert YieldsOf(ps) == YieldsOf(ps[1..]);
      }
    }
  }

  /** One step appends a crop record's crop and counts a yield record. */
  lemma QuarterStepSpec(st: QuarterState, p: Prediction)
    requires QuarterStep(st, p).Ok?
    ensures var n := QuarterStep(st, p).value;
            && n.crops == st.crops + (if KindKey(p) == Str("crop") then [CropName(p)] else [])
            && n.yieldCount == st.yieldCount + (if KindKey(p) == Str("yield") then 1 else 0)
            && n.totalYield == st.totalYield + (if KindKey(p) == Str("yield") then YieldOf(p) else 0.0)
  {
  }

  /** The quarter's average yield is the mean of the yields of its yield
      records, and 0 when there are none; the revenue is 25 per unit of it,
      whatever its sign. */
  lemma QuarterlyYield(store: seq<Prediction>, uid: nat, year: int, quarter: int)
    requires Quarterly(store, uid, year, quarter).Ok?
    ensures var b := QuarterBounds(year, quarter).value;
            var ps := Select(store, QuarterWindow(uid, b.0, b.1));
            var r := Quarterly(store, uid, year, quarter).value;
            && MeanOf(r.avgYield, YieldsOf(ps))
            && |YieldsOf(ps)| == |Select(ps, KindIs(Str("yield")))|
            && r.revenue == r.avgYield * PricePerUnit
  {
    var b := QuarterBounds(year, quarter).value;
    var ps := Select(store, QuarterWindow(uid, b.0, b.1));
    var st := QuarterRun(QuarterState(0.0, 0, []), ps).value;
    QuarterRunYields(QuarterState(0.0, 0, []), ps);
    YieldsOfCount(ps);
    assert st.totalYield == Sum(YieldsOf(ps)) && st.yieldCount == |YieldsOf(ps)|;
  }

  /** The recommended crops are exactly the distinct crops of the quarter's
      crop records. */
  lemma QuarterlyCrops(store: seq<Prediction>, uid: nat, year: int, quarter: int)
    requires Quarterly(store, uid, year, quarter).Ok?
    ensures var b := QuarterBounds(year, quarter).value;
            var crops := Select(Select(store, QuarterWindow(uid, b.0, b.1)), KindIs(Str("crop")));
            Quarterly(store, uid, year, quarter).value.crops == set i | 0 <= i < |crops| :: CropName(crops[i])
  {
    var b := QuarterBounds(year, quarter).value;
    var ps := Select(store, QuarterWindow(uid, b.0, b.1));
    QuarterRunSpec(QuarterState(0.0, 0, []), ps);
    var names := CropNames(Select(ps, KindIs(Str("crop"))));
    assert QuarterRun(QuarterState(0.0, 0, []), ps).value.crops == names;
  }

  /** A record the quarterly loop passes without raising: its type is
      present; a yield's output is a dict whose `yield` is a number; a
      crop's output is a dict. */
  predicate QuarterSteps(p: Prediction) {
    && p.kind.Some?
    && (p.kind.value == Str("yield") ==>
          p.output.Some? && p.output.value.Obj? && Lookup(p.output.value.fields, "yield", Num(0.0)).Num?)
    && (p.kind.value == Str("crop") ==> p.output.Some? && p.output.value.Obj?)
  }

  /** The quarterly report is written exactly when the quarter's bounds are
      instants `datetime` represents, every record of the quarter passes the
      loop, and every crop recommended can be a set member. */
  lemma QuarterlySucceeds(store: seq<Prediction>, uid: nat, year: int, quarter: int)
    ensures Quarterly(store, uid, year, quarter).Ok? <==>
              && QuarterBounds(year, quarter).Ok?
              && var b := QuarterBounds(year, quarter).value;
                 var ps := Select(store, QuarterWindow(uid, b.0, b.1));
                 var crops := Select(ps, KindIs(Str("crop")));
                 && (forall i :: 0 <= i < |ps| ==> QuarterSteps(ps[i]))
                 && forall i :: 0 <= i < |crops| ==> Hashable(CropName(crops[i]))
  {
    var b := QuarterBounds(year, quarter);
    if b.Ok? {
      var ps := Select(store, QuarterWindow(uid, b.value.0, b.value.1));
      var init := QuarterState(0.0, 0, []);
      QuarterlyAfterRun(store, uid, year, quarter);
      if QuarterRun(init, ps).Ok? {
        QuarterRunSpec(init, ps);
        HashableNames(Select(ps, KindIs(Str("crop"))));
      }
    }
  }

  /** Within valid bounds, the report is written exactly when the loop
      completes with hashable crops. */
  lemma QuarterlyAfterRun(store: seq<Prediction>, uid: nat, year: int, quarter: int)
    requires QuarterBounds(year, quarter).Ok?
    ensures var b := QuarterBounds(year, quarter).value;
            var run := QuarterRun(QuarterState(0.0, 0, []), Select(store, QuarterWindow(uid, b.0, b.1)));
            Quarterly(store, uid, year, quarter).Ok? <==> run.Ok? && forall c :: c in run.value.crops ==> Hashable(c)
  {
  }

  lemma HashableNames(crops: seq<Prediction>)
    ensures (forall c :: c in CropNames(crops) ==> Hashable(c)) <==> forall i :: 0 <= i < |crops| ==> Hashable(CropName(crops[i]))
  {
    var names := CropNames(crops);
    if forall i :: 0 <= i < |crops| ==> Hashable(CropName(crops[i])) {
      forall c | c in names ensures Hashable(c) {
        var i :| 0 <= i < |names| && names[i] == c;
      }
    }
  }

  /** The concrete case: a crop record whose crop is a dict makes the
      quarter's report fail with TypeError. */
  lemma QuarterlyDictCropExample(uid: nat)
    ensures var p := Prediction(Ref(1), uid, Some(Str("crop")), Instant(2024, 2, 5, 0),
                                None, None, None, None, None, None, Some(Obj(map[])),
                                Some(Obj(map["crop" := Obj(map[])])), None, None);
            Quarterly([p], uid, 2024, 1) == Err(TypeError)
  {
    var p := Prediction(Ref(1), uid, Some(Str("crop")), Instant(2024, 2, 5, 0),
                        None, None, None, None, None, None, Some(Obj(map[])),
                        Some(Obj(map["crop" := Obj(map[])])), None, None);
    QuarterWindowSpec(uid, 2024, 1, p);
    var b := QuarterBounds(2024, 1).value;
    assert Select([p], QuarterWindow(uid, b.0, b.1)) == [p];
    var one := QuarterStep(QuarterState(0.0, 0, []), p);
    assert OutputDict(p) == Ok(map["crop" := Obj(map[])]);
    assert Lookup(map["crop" := Obj(map[])], "crop", Str("Unknown")) == Obj(map[]);
    assert one == Ok(QuarterState(0.0, 0, [] + [Obj(map[])]));
    assert [p][1..] == [];
    assert QuarterRun(QuarterState(0.0, 0, []), [p]) == QuarterRun(one.value, []) == one;
    assert Obj(map[]) in one.value.crops;
  }

  // ---------------------------------------------------------------------
  // The two reports agree

  lemma {:induction false} MonthCountConcat(a: seq<Prediction>, b: seq<Prediction>, month: int)
    ensures MonthCount(a + b, month) == MonthCount(a, month) + MonthCount(b, month)
  {
    if a == [] {
      assert a + b == b;
    } else {
      MonthCountConcat(a[1..], b, month);
      assert (a + b)[1..] == a[1..] + b;
    }
  }

  lemma RemoveAt(b: seq<Prediction>, j: nat)
    requires j < |b|
    ensures multiset(b[..j] + b[j + 1..]) == multiset(b) - multiset{b[j]}
  {
    assert b == b[..j] + [b[j]] + b[j + 1..];
  }

  lemma MonthCountRemove(b: seq<Prediction>, j: nat, month: int)
    requires j < |b|
    ensures MonthCount(b, month) == MonthCount(b[..j] + b[j + 1..], month) + (if b[j].createdAt.month == month then 1 else 0)
  {
    assert b == b[..j] + ([b[j]] + b[j + 1..]);
    MonthCountConcat(b[..j], [b[j]] + b[j + 1..], month);
    MonthCountConcat([b[j]], b[j + 1..], month);
    MonthCountConcat(b[..j], b[j + 1..], month);
  }

  /** Counting by month does not depend on the order of the records. */
  lemma {:induction false} MonthCountPermutation(a: seq<Prediction>, b: seq<Prediction>, month: int)
    requires multiset(a) == multiset(b)
    ensures MonthCount(a, month) == MonthCount(b, month)
    decreases |a|
  {
    if a == [] {
      assert |b| == |multiset(b)| == 0;
    } else {
      var x := a[0];
      assert x in multiset(b);
      var j :| 0 <= j < |b| && b[j] == x;
      RemoveAt(b, j);
      assert a == [x] + a[1..];
      assert multiset(a[1..]) == multiset(a) - multiset{x};
      MonthCountPermutation(a[1..], b[..j] + b[j + 1..], month);
      MonthCountRemove(b, j, month);
    }
  }

  /** The quarter's window holds the year's records of the quarter's three
      months. */
  lemma {:induction false} QuarterMonths(store: seq<Prediction>, uid: nat, year: int, quarter: int)
    requires QuarterBounds(year, quarter).Ok?
    ensures var b := QuarterBounds(year, quarter).value;
            var ps := Select(store, YearWindow(uid, year));
            Count(store, QuarterWindow(uid, b.0, b.1))
            == MonthCount(ps, 3 * quarter - 2) + MonthCount(ps, 3 * quarter - 1) + MonthCount(ps, 3 * quarter)
  {
    if store != [] {
      QuarterMonths(store[1..], uid, year, quarter);
      YearWindowSpec(uid, year, store[0]);
      QuarterWindowSpec(uid, year, quarter, store[0]);
      var head := if Holds(YearWindow(uid, year), store[0]) then [store[0]] else [];
      var tail := Select(store[1..], YearWindow(uid, year));
      assert Select(store, YearWindow(uid, year)) == head + tail;
      MonthCountConcat(head, tail, 3 * quarter - 2);
      MonthCountConcat(head, tail, 3 * quarter - 1);
      MonthCountConcat(head, tail, 3 * quarter);
    }
  }

  /** A quarter's report counts as many records as the corrected yearly
      report puts in that quarter. */
  lemma QuarterlyMatchesYearly(store: seq<Prediction>, uid: nat, year: int, quarter: int)
    requires Quarterly(store, uid, year, quarter).Ok?
    requires YearlyCorrected(store, uid, year).Ok?
    ensures 1 <= quarter <= 4
    ensures Quarterly(store, uid, year, quarter).value.total == YearlyCorrected(store, uid, year).value.quarterly[quarter - 1]
  {
    assert QuarterBounds(year, quarter).Ok?;
    QuarterWindowMatchesYearly(store, uid, year, quarter);
  }

  lemma QuarterWindowMatchesYearly(store: seq<Prediction>, uid: nat, year: int, quarter: int)
    requires QuarterBounds(year, quarter).Ok?
    requires YearlyCorrected(store, uid, year).Ok?
    ensures var b := QuarterBounds(year, quarter).value;
            Count(store, QuarterWindow(uid, b.0, b.1)) == YearlyCorrected(store, uid, year).value.quarterly[quarter - 1]
  {
    YearQuarterCount(store, uid, year, quarter);
    QuarterMonths(store, uid, year, quarter);
  }

  /** The corrected yearly report's quarter counts the year's records of the
      quarter's three months, in whatever order they are stored. */
  lemma YearQuarterCount(store: seq<Prediction>, uid: nat, year: int, quarter: int)
    requires YearlyCorrected(store, uid, year).Ok?
    requires 1 <= quarter <= 4
    ensures var sel := Select(store, YearWindow(uid, year));
            YearlyCorrected(store, uid, year).value.quarterly[quarter - 1]
            == MonthCount(sel, 3 * quarter - 2) + MonthCount(sel, 3 * quarter - 1) + MonthCount(sel, 3 * quarter)
  {
    YearlyCorrectedBreakdown(store, uid, year);
    var sel := Select(store, YearWindow(uid, year));
    var ps := YearRecords(store, uid, year);
    OldestFirstSpec(sel);
    MonthCountPermutation(ps, sel, 3 * quarter - 2);
    MonthCountPermutation(ps, sel, 3 * quarter - 1);
    MonthCountPermutation(ps, sel, 3 * quarter);
  }
}

=== FILE: averages.dfy ===
/** Sums and means over the values the analytics read out of records. */
module Averages {
  import opened Wrappers
  import opened Values

  function Sum(xs: seq<real>): real {
    if xs == [] then 0.0 else xs[0] + Sum(xs[1..])
  }

  /** A field holds a number. */
  predicate IsNumber(f: Field) {
    f.Some? && f.value.Num?
  }

  /** The numbers among the fields, in order; missing fields, nulls and
      values of other types are passed over, as `$avg` does. */
  function Numbers(fs: seq<Field>): (r: seq<real>)
    ensures |r| <= |fs|
  {
    if fs == [] then []
    else (if IsNumber(fs[0]) then [fs[0].value.r] else []) + Numbers(fs[1..])
  }

  /** `Numbers` keeps exactly the numeric fields. */
  lemma {:induction false} NumbersMembers(fs: seq<Field>, x: real)
    ensures x in Numbers(fs) <==> Some(Num(x)) in fs
  {
    if fs != [] {
      NumbersMembers(fs[1..], x);
      assert fs == [fs[0]] + fs[1..];
    }
  }

  lemma {:induction false} NumbersEmpty(fs: seq<Field>)
    ensures Numbers(fs) == [] <==> forall i :: 0 <= i < |fs| ==> !IsNumber(fs[i])
  {
    if fs != [] {
      NumbersEmpty(fs[1..]);
      assert forall i :: 0 < i < |fs| ==> fs[i] == fs[1..][i - 1];
    }
  }

  /** `a` is the mean of `count` values that sum to `total`: `a` times
      `count` is `total`, and `a` is 0 when there are no values. */
  predicate MeanOfTotal(a: real, total: real, count: nat) {
    if count == 0 then a == 0.0 else a * count as real == total
  }

  /** `total / count if count > 0 else 0`. */
  function Mean(total: real, count: nat): (a: real)
    ensures MeanOfTotal(a, total, count)
  {
    if count == 0 then 0.0 else total / count as real
  }

  /** `a` is the mean of `xs`, and 0 when `xs` is empty. */
  predicate MeanOf(a: real, xs: seq<real>) {
    MeanOfTotal(a, Sum(xs), |xs|)
  }

  /** MongoDB's `$avg`: the mean of the numeric values, null when there are
      none. */
  function Avg(fs: seq<Field>): (r: Option<real>)
    ensures r.Some? ==> MeanOf(r.value, Numbers(fs))
    ensures r.None? <==> forall i :: 0 <= i < |fs| ==> !IsNumber(fs[i])
  {
    NumbersEmpty(fs);
    var xs := Numbers(fs);
    if xs == [] then None else Some(Sum(xs) / |xs| as real)
  }

  /** `$avg` read as 0 when it is null is the mean of the numbers, and 0
      when there are none. */
  lemma AvgOrZero(fs: seq<Field>)
    ensures MeanOf(Avg(fs).GetOr(0.0), Numbers(fs))
  {
    NumbersEmpty(fs);
  }

  /** A sum of values between two bounds lies between the bounds times the
      count. */
  lemma {:induction false} SumBounds(xs: seq<real>, lo: real, hi: real)
    requires forall i :: 0 <= i < |xs| ==> lo <= xs[i] <= hi
    ensures lo * |xs| as real <= Sum(xs) <= hi * |xs| as real
  {
    if xs != [] {
      SumBounds(xs[1..], lo, hi);
      assert forall i :: 0 < i < |xs| ==> xs[i] == xs[1..][i - 1];
    }
  }

  /** Every number among the fields lies in [lo, hi]. */
  predicate NumbersWithin(fs: seq<Field>, lo: real, hi: real) {
    forall i :: 0 <= i < |fs| && IsNumber(fs[i]) ==> lo <= fs[i].value.r <= hi
  }

  /** A mean lies between the smallest and the largest value averaged. */
  lemma AvgBounds(fs: seq<Field>, lo: real, hi: real)
    requires NumbersWithin(fs, lo, hi)
    ensures Avg(fs).Some? ==> lo <= Avg(fs).value <= hi
  {
    var xs := Numbers(fs);
    if xs != [] {
      forall i | 0 <= i < |xs| ensures lo <= xs[i] <= hi {
        NumbersMembers(fs, xs[i]);
        var j :| 0 <= j < |fs| && fs[j] == Some(Num(xs[i]));
      }
      SumBounds(xs, lo, hi);
      var n := |xs| as real;
      assert lo * n <= Sum(xs) <= hi * n;
      MeanBetween(Sum(xs), n, lo, hi);
    }
  }

  lemma MeanBetween(total: real, n: real, lo: real, hi: real)
    requires n > 0.0 && lo * n <= total <= hi * n
    ensures lo <= total / n <= hi
  {
  }

  /** `r` is `part` as a percentage of `whole`: `r` percent of `whole` is
      `part`, and `r` is 0 when `whole` is 0. */
  predicate PercentOf(r: real, part: nat, whole: nat) {
    if whole == 0 then r == 0.0 else r * whole as real == part as real * 100.0
  }

  /** A percentage `part / whole * 100`, and 0 for an empty whole. */
  function Percent(part: nat, whole: nat): (r: real)
    requires part <= whole
    ensures PercentOf(r, part, whole)
    ensures 0.0 <= r <= 100.0
    ensures whole > 0 ==> (r == 100.0 <==> part == whole)
    ensures r == 0.0 <==> part == 0 || whole == 0
  {
    if whole > 0 then
      PercentBound(part, whole);
      part as real / whole as real * 100.0
    else 0.0
  }

  lemma PercentBound(part: nat, whole: nat)
    requires part <= whole && whole > 0
    ensures 0.0 <= part as real / whole as real <= 1.0
    ensures part as real / whole as real == 1.0 <==> part == whole
    ensures part as real / whole as real == 0.0 <==> part == 0
  {
  }
}

=== FILE: calendar.dfy ===
/** Naive timestamps, as Python's `datetime` represents `created_at`: a
    calendar date plus a time of day, kept as one tick count of
    microseconds since midnight. Month lengths are not modelled: a day is
    in 1..31. */
module Calendar {
  import opened Wrappers

  datatype Instant = Instant(year: int, month: int, day: int, tick: int)

  /** The instants `datetime` can represent. */
  predicate Valid(t: Instant) {
    1 <= t.year <= 9999 && 1 <= t.month <= 12 && 1 <= t.day <= 31 && 0 <= t.tick < TicksPerDay
  }

  const TicksPerDay: int := 86_400_000_000

  type DateTime = t: Instant | Valid(t) witness Instant(1, 1, 1, 0)

  /** `a < b` on datetimes: lexicographic on (year, month, day, time of day). */
  predicate Before(a: Instant, b: Instant) {
    || a.year < b.year
    || (a.year == b.year && a.month < b.month)
    || (a.year == b.year && a.month == b.month && a.day < b.day)
    || (a.year == b.year && a.month == b.month && a.day == b.day && a.tick < b.tick)
  }

  /** `a <= b` on datetimes. */
  predicate AtOrBefore(a: Instant, b: Instant) {
    !Before(b, a)
  }

  /** Midnight on the first day of a month. */
  function MonthStart(year: int, month: int): Instant {
    Instant(year, month, 1, 0)
  }

  /** The integers a C `int` holds: `datetime` reads its year, month and
      day arguments into one. */
  predicate FitsCInt(n: int) {
    -0x8000_0000 <= n <= 0x7fff_ffff
  }

  /** `datetime(year, month, 1)`. A year or month too wide for a C `int`
      raises OverflowError before any range check; otherwise a year outside
      1..9999 or a month outside 1..12 raises ValueError. */
  function FirstOfMonth(year: int, month: int): (r: Result<DateTime>)
    ensures r.Ok? <==> 1 <= year <= 9999 && 1 <= month <= 12
    ensures r.Ok? ==> r.value == MonthStart(year, month)
    ensures !FitsCInt(year) || !FitsCInt(month) ==> r == Err(OverflowError)
    ensures FitsCInt(year) && FitsCInt(month) && r.Err? ==> r.error == ValueError
  {
    if !FitsCInt(year) || !FitsCInt(month) then Err(OverflowError)
    else if 1 <= year <= 9999 && 1 <= month <= 12 then Ok(MonthStart(year, month))
    else Err(ValueError)
  }

  lemma BeforeIsStrictTotalOrder(a: Instant, b: Instant, c: Instant)
    ensures !Before(a, a)
    ensures Before(a, b) ==> !Before(b, a)
    ensures Before(a, b) && Before(b, c) ==> Before(a, c)
    ensures a == b || Before(a, b) || Before(b, a)
  {
  }

  /** A valid instant lies in the half-open window [month m1 of y, month m2 of y)
      exactly when its year is y and its month is in m1..m2-1. */
  lemma MonthWindow(t: DateTime, y: int, m1: int, m2: int)
    requires 1 <= m1 <= m2 <= 12
    ensures AtOrBefore(MonthStart(y, m1), t) && Before(t, MonthStart(y, m2))
            <==> t.year == y && m1 <= t.month < m2
  {
  }

  /** A valid instant lies in [month m of y, Jan 1 of y+1) exactly when its
      year is y and its month is at least m. */
  lemma TailOfYearWindow(t: DateTime, y: int, m: int)
    requires 1 <= m <= 12
    ensures AtOrBefore(MonthStart(y, m), t) && Before(t, MonthStart(y + 1, 1))
            <==> t.year == y && m <= t.month
  {
  }

  // ---------------------------------------------------------------------
  // Text

  /** The digit characters, in value order. */
  const DigitChars: string := "0123456789abcdef"

  /** The value of one digit character, 0 for any other character. */
  function DigitValue(c: char): nat {
    if '0' <= c <= '9' then c as int - '0' as int
    else if 'a' <= c <= 'f' then c as int - 'a' as int + 10
    else 0
  }

  function Pow(b: nat, e: nat): (r: nat)
    ensures b > 0 ==> r > 0
  {
    if e == 0 then 1 else b * Pow(b, e - 1)
  }

  /** The last `width` digits of `n` in `base`, zero-padded and most
      significant first, as the `%0<width>d` and `%0<width>x` formats print
      them. */
  function Digits(n: nat, width: nat, base: nat): (r: string)
    requires 2 <= base <= 16
    ensures |r| == width
    ensures forall i :: 0 <= i < |r| ==> r[i] in DigitChars[..base]
  {
    if width == 0 then "" else Digits(n / base, width - 1, base) + [DigitChars[n % base]]
  }

  /** The number a digit string spells in `base`. */
  function DigitsValue(s: string, base: nat): nat {
    if s == [] then 0 else DigitsValue(s[..|s| - 1], base) * base + DigitValue(s[|s| - 1])
  }

  /** Reading the digits back gives the number, modulo the powers of the
      base that do not fit in `width` digits. */
  lemma {:induction false} DigitsRoundTrip(n: nat, width: nat, base: nat)
    requires 2 <= base <= 16
    ensures DigitsValue(Digits(n, width, base), base) == n % Pow(base, width)
  {
    if width > 0 {
      var s := Digits(n, width, base);
      var p := Pow(base, width - 1);
      DigitsRoundTrip(n / base, width - 1, base);
      assert s[..|s| - 1] == Digits(n / base, width - 1, base);
      assert DigitValue(s[|s| - 1]) == n % base by {
        assert s[|s| - 1] == DigitChars[n % base];
      }
      ModOfQuotient(n, base, p);
    }
  }

  /** `(n // b) % p * b + n % b == n % (b * p)`. */
  lemma ModOfQuotient(n: nat, b: nat, p: nat)
    requires b > 0 && p > 0
    ensures (n / b) % p * b + n % b == n % (b * p)
  {
    var q := n / b;
    var k := q / p;
    var s := q % p;
    assert n == b * q + n % b;
    assert q == p * k + s;
    assert b * q == b * (p * k) + b * s;
    assert b * (p * k) == (b * p) * k;
    assert n == (b * p) * k + (s * b + n % b);
    assert s * b <= (p - 1) * b by {
      assert s <= p - 1;
    }
    assert (p - 1) * b == p * b - b;
    assert s * b + n % b < b * p;
    ModUnique(n, b * p, k, s * b + n % b);
  }

  lemma ModUnique(n: int, d: int, k: int, r: int)
    requires d > 0 && 0 <= r < d && n == d * k + r
    ensures n % d == r
  {
    var k0 := n / d;
    var r0 := n % d;
    var m := k - k0;
    assert d * m == d * k - d * k0;
    assert d * m == r0 - r;
    if m >= 1 {
      MulAtLeast(d, m);
    } else if m <= -1 {
      assert d * (-m) == -(d * m);
      MulAtLeast(d, -m);
    }
  }

  lemma MulAtLeast(d: int, m: int)
    requires d > 0 && m >= 1
    ensures d * m >= d
  {
    assert d * m == d * (m - 1) + d;
  }

  /** `str(datetime)`: `YYYY-MM-DD HH:MM:SS`, followed by `.ffffff` when
      the microseconds are not zero. */
  function DateTimeText(t: DateTime): (r: string)
    ensures |r| == if t.tick % 1_000_000 == 0 then 19 else 26
    ensures r[..10] == DateText(t) && r[10] == ' '
  {
    DateText(t) + " " + ClockText(t.tick)
  }

  /** The date, `YYYY-MM-DD`. */
  function DateText(t: DateTime): (r: string)
    ensures |r| == 10 && r[4] == '-' && r[7] == '-'
  {
    Digits(t.year, 4, 10) + "-" + Digits(t.month, 2, 10) + "-" + Digits(t.day, 2, 10)
  }

  /** The time of day, `HH:MM:SS`, with `.ffffff` when the microseconds are
      not zero. */
  function ClockText(tick: nat): (r: string)
    ensures |r| == if tick % 1_000_000 == 0 then 8 else 15
  {
    var secs := tick / 1_000_000;
    var micros := tick % 1_000_000;
    Digits(secs / 3600, 2, 10) + ":" + Digits(secs / 60 % 60, 2, 10) + ":" + Digits(secs % 60, 2, 10)
    + (if micros == 0 then "" else "." + Digits(micros, 6, 10))
  }
}

=== FILE: dashboard.dfy ===
/** The dashboard statistics: community totals for visitors
    (`get_aggregate_dashboard`) and a signed-in user's own figures for the
    current year (`get_personal_dashboard`). Both run aggregation pipelines;
    the model computes what those pipelines return. */
module Dashboard {
  import opened Wrappers
  import opened Calendar
  import opened Values
  import opened Tally
  import opened MockStore
  import opened Records
  import opened Averages

  /** The confidence at which a prediction counts as a success. */
  const HighConfidence: real := 0.7

  /** `$output_data.<key>` of every record, in order. */
  function OutputFields(s: seq<Prediction>, key: string): (r: seq<Field>)
    ensures |r| == |s|
    ensures forall i :: 0 <= i < |s| ==> r[i] == OutputPath(s[i], key)
  {
    seq(|s|, i requires 0 <= i < |s| => OutputPath(s[i], key))
  }

  function YieldRecords(s: seq<Prediction>): seq<Prediction> {
    Select(s, KindIs(Str("yield")))
  }

  // ---------------------------------------------------------------------
  // Community statistics

  datatype AggregateStats = AggregateStats(
    totalPredictions: nat,
    avgYield: real,
    successRate: real,
    activeFarmers: nat)

  /** `get_aggregate_dashboard`. The yield group exists exactly when some
      record is a yield prediction; its `$avg` is null when none of them has
      a numeric yield, and `round(None, 2)` then raises TypeError. */
  function AggregateDashboard(store: seq<Prediction>, users: seq<Doc>): (r: Result<AggregateStats>)
    ensures r.Err? <==> |YieldRecords(store)| > 0 && Avg(OutputFields(YieldRecords(store), "yield")).None?
    ensures r.Err? ==> r.error == TypeError
    ensures r.Ok? ==> r.value.totalPredictions == |store| && r.value.activeFarmers == |users|
    ensures r.Ok? ==> 0.0 <= r.value.successRate <= 100.0
    ensures r.Ok? ==> PercentOf(r.value.successRate, Count(store, OutputAtLeast("confidence", HighConfidence)), |store|)
    ensures r.Ok? ==> MeanOf(r.value.avgYield, Numbers(OutputFields(YieldRecords(store), "yield")))
  {
    var yieldRecs := YieldRecords(store);
    var avg := Avg(OutputFields(yieldRecs, "yield"));
    if |yieldRecs| > 0 && avg.None? then Err(TypeError)
    else
      var high := Count(store, OutputAtLeast("confidence", HighConfidence));
      AvgOrZero(OutputFields(yieldRecs, "yield"));
      FindAll(users);
      Ok(AggregateStats(|store|, if |yieldRecs| > 0 then avg.value else 0.0,
                        Percent(high, |store|), CountDocuments(users, Some(map[]))))
  }

  /** The success rate is the percentage of records with a numeric
      confidence of at least 0.7: 100 exactly when every record has one, and
      0 exactly when none has (or there are no records). */
  lemma AggregateSuccessRate(store: seq<Prediction>, users: seq<Doc>)
    requires AggregateDashboard(store, users).Ok?
    ensures var rate := AggregateDashboard(store, users).value.successRate;
            && PercentOf(rate, Count(store, OutputAtLeast("confidence", HighConfidence)), |store|)
            && (|store| > 0 ==> (rate == 100.0 <==> forall i :: 0 <= i < |store| ==> Holds(OutputAtLeast("confidence", HighConfidence), store[i])))
            && (rate == 0.0 <==> forall i :: 0 <= i < |store| ==> !Holds(OutputAtLeast("confidence", HighConfidence), store[i]))
  {
    CountExtremes(store, OutputAtLeast("confidence", HighConfidence));
  }

  /** The average yield is the mean of the numeric yields of the yield
      predictions (0 when there are none), so it lies within their range. */
  lemma AggregateYieldBounds(store: seq<Prediction>, users: seq<Doc>, lo: real, hi: real)
    requires AggregateDashboard(store, users).Ok?
    requires lo <= 0.0 <= hi
    requires NumbersWithin(OutputFields(YieldRecords(store), "yield"), lo, hi)
    ensures MeanOf(AggregateDashboard(store, users).value.avgYield, Numbers(OutputFields(YieldRecords(store), "yield")))
    ensures lo <= AggregateDashboard(store, users).value.avgYield <= hi
  {
    AvgBounds(OutputFields(YieldRecords(store), "yield"), lo, hi);
  }

  // ---------------------------------------------------------------------
  // Personal statistics

  /** The owner's records from the first instant of `year` on; there is no
      upper bound. */
  function InYear(uid: nat, year: int): Criterion {
    Both(OwnedBy(uid), CreatedFrom(MonthStart(year, 1)))
  }

  /** `$output_data.crop` as a group key. */
  function CropKey(p: Prediction): Value {
    OrDefault(OutputPath(p, "crop"), Null)
  }

  function CropKeys(s: seq<Prediction>): (r: seq<Value>)
    ensures |r| == |s| && forall i :: 0 <= i < |s| ==> r[i] == CropKey(s[i])
  {
    seq(|s|, i requires 0 <= i < |s| => CropKey(s[i]))
  }

  /** `$gte` inside an aggregation expression compares across types in BSON
      order: missing and null sort below numbers, and strings, documents,
      ObjectIds and dates sort above them. */
  predicate AggregateAtLeast(f: Field, bound: real) {
    f.Some? && match f.value
      case Null => false
      case Num(x) => x >= bound
      case _ => true
  }

  predicate Succeeded(p: Prediction) {
    AggregateAtLeast(OutputPath(p, "confidence"), HighConfidence)
  }

  /** The summed `success_count` of all groups. */
  function SuccessCount(s: seq<Prediction>): (n: nat)
    ensures n <= |s|
  {
    if s == [] then 0 else (if Succeeded(s[0]) then 1 else 0) + SuccessCount(s[1..])
  }

  /** The success count is the number of records whose confidence is at
      least 0.7 in BSON order. */
  lemma {:induction false} SuccessCountCounts(s: seq<Prediction>)
    ensures SuccessCount(s) == |set i | 0 <= i < |s| && Succeeded(s[i])|
    decreases |s|
  {
    if s != [] {
      var n := |s| - 1;
      var init := s[..n];
      SuccessCountCounts(init);
      SuccessCountSnoc(init, s[n]);
      assert init + [s[n]] == s;
      var before := set i | 0 <= i < |init| && Succeeded(init[i]);
      var after := set i | 0 <= i < |s| && Succeeded(s[i]);
      if Succeeded(s[n]) {
        assert after == before + {n};
      } else {
        assert after == before;
      }
    }
  }

  lemma {:induction false} SuccessCountSnoc(s: seq<Prediction>, p: Prediction)
    ensures SuccessCount(s + [p]) == SuccessCount(s) + (if Succeeded(p) then 1 else 0)
  {
    if s != [] {
      SuccessCountSnoc(s[1..], p);
      assert (s + [p])[1..] == s[1..] + [p];
    }
  }

  /** The projected user document. `created_at` is rendered with
      `.isoformat()` when truthy, which only a datetime has. */
  datatype UserInfo = UserInfo(name: Value, email: Value, joined: Value)

  function UserInfoOf(user: Doc): (r: Result<UserInfo>)
    ensures r.Err? <==> Truthy(Lookup(user, "created_at", Null)) && !Lookup(user, "created_at", Null).Time?
    ensures r.Ok? ==> r.value.joined == if Truthy(Lookup(user, "created_at", Null)) then user["created_at"] else Null
  {
    var joined := Lookup(user, "created_at", Null);
    if Truthy(joined) && !joined.Time? then Err(AttributeError)
    else Ok(UserInfo(Lookup(user, "name", Null), Lookup(user, "email", Null), if Truthy(joined) then joined else Null))
  }

  datatype PersonalStats = PersonalStats(
    user: UserInfo,
    year: int,
    totalYear: nat,
    yieldCount: nat,
    cropCount: nat,
    riskCount: nat,
    avgYield: real,
    topCrop: Value,
    distinctCrops: nat,
    successRate: real,
    totalAllTime: nat,
    crops: seq<Bucket>,
    recent: seq<Prediction>)

  /** The 404 reply for an unknown user, or the statistics. */
  datatype PersonalReply = UserNotFound | Personal(stats: PersonalStats)

  /** The first `n` records, or all of them when there are fewer. */
  function Take(s: seq<Prediction>, n: nat): (r: seq<Prediction>)
    ensures |r| == if |s| < n then |s| else n
    ensures r == s[..|r|]
  {
    if |s| < n then s else s[..n]
  }

  /** The crop predictions of the year, the records the crop distribution
      groups. */
  function CropRecords(store: seq<Prediction>, uid: nat, year: int): seq<Prediction> {
    Select(store, Both(KindIs(Str("crop")), InYear(uid, year)))
  }

  /** Every group key of the year is a valid Python dict key: no record of
      the year has a dict-valued type, and no crop prediction of the year a
      dict-valued crop. */
  predicate GroupsHashable(store: seq<Prediction>, uid: nat, year: int) {
    var yearRecs := Select(store, InYear(uid, year));
    var cropRecs := CropRecords(store, uid, year);
    && (forall i :: 0 <= i < |yearRecs| ==> Hashable(KindKey(yearRecs[i])))
    && (forall i :: 0 <= i < |cropRecs| ==> Hashable(CropKey(cropRecs[i])))
  }

  /** The crops the crop dict is keyed by. */
  function CropKeySet(store: seq<Prediction>, uid: nat, year: int): set<Value> {
    set k | k in CropKeys(CropRecords(store, uid, year))
  }

  /** The statistics of the user `uid` for `year`: the pipeline's facets,
      the loop that sums the year groups, and the crop dict. */
  function Stats(store: seq<Prediction>, info: UserInfo, uid: nat, year: int): (r: PersonalStats)
    ensures r.user == info && r.year == year
    ensures r.totalAllTime <= |store|
    ensures |r.recent| == if r.totalAllTime < 10 then r.totalAllTime else 10
  {
    var owned := Select(store, OwnedBy(uid));
    NewestFirstSpec(owned);
    assert |NewestFirst(owned)| == |multiset(owned)| == Count(store, OwnedBy(uid));
    var yearRecs := Select(store, InYear(uid, year));
    var kinds := TallyInto([], KindKeys(yearRecs));
    var crops := TallyInto([], CropKeys(CropRecords(store, uid, year)));
    FreshTally(KindKeys(yearRecs));
    FreshTally(CropKeys(CropRecords(store, uid, year)));
    var top := TopKey(crops);
    PersonalStats(
      info, year, Total(kinds),
      CountOf(kinds, Str("yield")), CountOf(kinds, Str("crop")), CountOf(kinds, Str("risk")),
      Avg(OutputFields(YieldRecords(yearRecs), "yield")).GetOr(0.0),
      if top.Some? then top.value else Str("N/A"),
      |crops|,
      Percent(SuccessCount(yearRecs), Total(kinds)),
      |owned|,
      crops,
      Take(NewestFirst(owned), 10))
  }

  /** `get_personal_dashboard` for the user `uid` in the year `year` (the
      current UTC year). Grouping by a dict-valued type or crop succeeds in
      the store, but using it as a Python dict key raises TypeError; a
      truthy `created_at` that is not a datetime has no `isoformat` and
      raises AttributeError; and the reply cannot be written, again with
      TypeError, when the crop dict's keys cannot (a null crop beside a
      named one, say). */
  function PersonalDashboard(store: seq<Prediction>, users: seq<Doc>, uid: nat, year: int): (r: Result<PersonalReply>)
    ensures var user := FindOne(users, map["_id" := Ref(uid)]);
            && (r == Ok(UserNotFound) <==> user.None?)
            && (r.Err? <==> user.Some? && (!GroupsHashable(store, uid, year) || UserInfoOf(user.value).Err?
                                           || !JsonKeysOk(CropKeySet(store, uid, year))))
            && (r.Err? ==> r.error == if GroupsHashable(store, uid, year) && UserInfoOf(user.value).Err? then AttributeError else TypeError)
            && (r.Ok? && r.value.Personal? ==> r.value.stats == Stats(store, UserInfoOf(user.value).value, uid, year))
  {
    match FindOne(users, map["_id" := Ref(uid)])
    case None => Ok(UserNotFound)
    case Some(user) =>
      if !GroupsHashable(store, uid, year) then Err(TypeError)
      else
        var info :- UserInfoOf(user);
        if !JsonKeysOk(CropKeySet(store, uid, year)) then Err(TypeError)
        else Ok(Personal(Stats(store, info, uid, year)))
  }

  /** A kind's share of the kind tally is the number of records of that
      kind. */
  lemma {:induction false} KindKeysCount(s: seq<Prediction>, k: Value)
    requires k != Null
    ensures multiset(KindKeys(s))[k] == Count(s, KindIs(k))
  {
    if s != [] {
      KindKeysCount(s[1..], k);
      var one := if KindKey(s[0]) == k then 1 else 0;
      assert KindKeys(s) == [KindKey(s[0])] + KindKeys(s[1..]);
      assert multiset(KindKeys(s))[k] == one + multiset(KindKeys(s[1..]))[k];
      SelectCons(s[0], s[1..], KindIs(k));
      assert [s[0]] + s[1..] == s;
      assert Count(s, KindIs(k)) == one + Count(s[1..], KindIs(k));
    }
  }

  lemma YearKindCount(store: seq<Prediction>, uid: nat, year: int, k: Value)
    requires k != Null
    ensures CountOf(TallyInto([], KindKeys(Select(store, InYear(uid, year)))), k)
            == Count(store, Both(KindIs(k), InYear(uid, year)))
  {
    var yearRecs := Select(store, InYear(uid, year));
    TallySpec([], KindKeys(yearRecs));
    KindKeysCount(yearRecs, k);
    SelectBoth(store, KindIs(k), InYear(uid, year));
  }

  /** Records of three different kinds together are no more than all the
      records. */
  lemma {:induction false} ThreeKindsBound(s: seq<Prediction>, a: Value, b: Value, c: Value)
    requires a != b && b != c && a != c
    ensures Count(s, KindIs(a)) + Count(s, KindIs(b)) + Count(s, KindIs(c)) <= |s|
  {
    if s != [] {
      ThreeKindsBound(s[1..], a, b, c);
    }
  }

  /** The year's total is the number of the owner's records since the first
      of January, and it does not exceed the all-time total; the success rate
      is a percentage. */
  lemma PersonalTotals(store: seq<Prediction>, info: UserInfo, uid: nat, year: int)
    ensures var st := Stats(store, info, uid, year);
            && st.totalAllTime == Count(store, OwnedBy(uid))
            && st.totalYear == Count(store, InYear(uid, year))
            && st.totalYear <= st.totalAllTime
            && 0.0 <= st.successRate <= 100.0
  {
    var yearRecs := Select(store, InYear(uid, year));
    FreshTally(KindKeys(yearRecs));
    assert Stats(store, info, uid, year).totalYear == |yearRecs|;
    SelectMonotone(store, InYear(uid, year), OwnedBy(uid));
  }

  /** The success rate is the year's successful records as a percentage of
      the year's records, and 0 when the year has none. */
  lemma PersonalSuccessRate(store: seq<Prediction>, info: UserInfo, uid: nat, year: int)
    ensures var st := Stats(store, info, uid, year);
            PercentOf(st.successRate, SuccessCount(Select(store, InYear(uid, year))), st.totalYear)
  {
    FreshTally(KindKeys(Select(store, InYear(uid, year))));
  }

  /** Each kind's figure is the number of the year's records of that kind,
      and the three kinds together do not exceed the year's total. */
  lemma PersonalKinds(store: seq<Prediction>, info: UserInfo, uid: nat, year: int)
    ensures var st := Stats(store, info, uid, year);
            && st.yieldCount == Count(store, Both(KindIs(Str("yield")), InYear(uid, year)))
            && st.cropCount == Count(store, Both(KindIs(Str("crop")), InYear(uid, year)))
            && st.riskCount == Count(store, Both(KindIs(Str("risk")), InYear(uid, year)))
            && st.yieldCount + st.cropCount + st.riskCount <= st.totalYear
  {
    PersonalTotals(store, info, uid, year);
    YearKindCount(store, uid, year, Str("yield"));
    YearKindCount(store, uid, year, Str("crop"));
    YearKindCount(store, uid, year, Str("risk"));
    var yearRecs := Select(store, InYear(uid, year));
    ThreeKindsBound(yearRecs, Str("yield"), Str("crop"), Str("risk"));
    SelectBoth(store, KindIs(Str("yield")), InYear(uid, year));
    SelectBoth(store, KindIs(Str("crop")), InYear(uid, year));
    SelectBoth(store, KindIs(Str("risk")), InYear(uid, year));
  }

  /** The average yield is the mean of the numeric yields of the year's
      yield predictions (0 when there are none), so it lies within their
      range. */
  lemma PersonalYieldBounds(store: seq<Prediction>, info: UserInfo, uid: nat, year: int, lo: real, hi: real)
    requires lo <= 0.0 <= hi
    requires NumbersWithin(OutputFields(YieldRecords(Select(store, InYear(uid, year))), "yield"), lo, hi)
    ensures MeanOf(Stats(store, info, uid, year).avgYield, Numbers(OutputFields(YieldRecords(Select(store, InYear(uid, year))), "yield")))
    ensures lo <= Stats(store, info, uid, year).avgYield <= hi
  {
    PersonalYieldMean(store, info, uid, year);
    var ys := OutputFields(YieldRecords(Select(store, InYear(uid, year))), "yield");
    AvgBounds(ys, lo, hi);
    assert Stats(store, info, uid, year).avgYield == Avg(ys).GetOr(0.0);
  }

  /** The average yield is the mean of the numeric yields of the year's
      yield predictions, and 0 when there are none. */
  lemma PersonalYieldMean(store: seq<Prediction>, info: UserInfo, uid: nat, year: int)
    ensures var ys := Numbers(OutputFields(YieldRecords(Select(store, InYear(uid, year))), "yield"));
            var st := Stats(store, info, uid, year);
            MeanOf(st.avgYield, ys)
  {
    var fs := OutputFields(YieldRecords(Select(store, InYear(uid, year))), "yield");
    assert Stats(store, info, uid, year).avgYield == Avg(fs).GetOr(0.0);
    AvgOrZero(fs);
  }

  /** A stricter criterion selects no more records. */
  lemma {:induction false} SelectMonotone(s: seq<Prediction>, c: Criterion, d: Criterion)
    requires forall p :: Holds(c, p) ==> Holds(d, p)
    ensures Count(s, c) <= Count(s, d)
  {
    if s != [] {
      SelectMonotone(s[1..], c, d);
    }
  }

  /** The crop figures: one bucket per distinct crop of the year's crop
      predictions, each holding that crop's count; the top crop has the
      largest count, and is "N/A" exactly when there are no crop
      predictions. */
  lemma PersonalCrops(store: seq<Prediction>, info: UserInfo, uid: nat, year: int)
    ensures var st := Stats(store, info, uid, year);
            var cropRecs := CropRecords(store, uid, year);
            && (forall k :: CountOf(st.crops, k) == multiset(CropKeys(cropRecs))[k])
            && st.distinctCrops == |set i | 0 <= i < |cropRecs| :: CropKey(cropRecs[i])|
            && (cropRecs == [] ==> st.topCrop == Str("N/A"))
            && (cropRecs != [] ==> exists i :: 0 <= i < |cropRecs| && CropKey(cropRecs[i]) == st.topCrop)
            && (cropRecs != [] ==> forall k :: CountOf(st.crops, k) <= CountOf(st.crops, st.topCrop))
  {
    TallyOfCrops(CropRecords(store, uid, year));
  }

  /** The crop tally of a list of records: one bucket per distinct crop with
      its number of records, and, for a non-empty list, a top crop that is
      one of the crops and has the largest count. */
  lemma TallyOfCrops(cropRecs: seq<Prediction>)
    ensures var crops := TallyInto([], CropKeys(cropRecs));
            && DistinctKeys(crops)
            && (forall k :: CountOf(crops, k) == multiset(CropKeys(cropRecs))[k])
            && |crops| == |set i | 0 <= i < |cropRecs| :: CropKey(cropRecs[i])|
            && (crops == [] <==> cropRecs == [])
            && (cropRecs != [] ==> exists i :: 0 <= i < |cropRecs| && CropKey(cropRecs[i]) == TopKey(crops).value)
            && (cropRecs != [] ==> forall k :: CountOf(crops, k) <= CountOf(crops, TopKey(crops).value))
  {
    var keys := CropKeys(cropRecs);
    var crops := TallyInto([], keys);
    TallySpec([], keys);
    DistinctBucketCount(crops);
    assert (set x | x in keys) == set i | 0 <= i < |cropRecs| :: CropKey(cropRecs[i]);
    if cropRecs != [] {
      assert keys[0] in multiset(keys);
      assert CountOf(crops, keys[0]) > 0;
      assert crops != [];
      var top := TopKey(crops);
      forall k ensures CountOf(crops, k) <= CountOf(crops, top.value) {
        CountOfIsSomeBucket(crops, k);
      }
    } else {
      assert keys == [];
    }
  }

  /** `CountOf` reads either zero or the count of some bucket. */
  lemma {:induction false} CountOfIsSomeBucket(b: seq<Bucket>, k: Value)
    ensures CountOf(b, k) == 0 || exists j :: 0 <= j < |b| && CountOf(b, k) == b[j].count
  {
    if b != [] && b[0].key != k {
      CountOfIsSomeBucket(b[1..], k);
      if CountOf(b, k) != 0 {
        var j :| 0 <= j < |b[1..]| && CountOf(b[1..], k) == b[1..][j].count;
        assert b[j + 1] == b[1..][j];
      }
    }
  }

  /** The first `n` records in newest-first order are records of the list,
      newest first, and no record left out is newer than one kept. */
  lemma NewestPrefix(s: seq<Prediction>, n: nat)
    ensures var r := Take(NewestFirst(s), n);
            && (forall i :: 0 <= i < |r| ==> r[i] in s)
            && (forall i, j :: 0 <= i < j < |r| ==> AtOrBefore(r[j].createdAt, r[i].createdAt))
            && (forall p, i :: p in s && p !in r && 0 <= i < |r| ==> AtOrBefore(p.createdAt, r[i].createdAt))
  {
    var sorted := NewestFirst(s);
    var r := Take(sorted, n);
    NewestFirstSpec(s);
    assert r == sorted[..|r|];
    forall i | 0 <= i < |r| ensures r[i] in s {
      assert r[i] in multiset(sorted);
    }
    forall p, i | p in s && p !in r && 0 <= i < |r|
      ensures AtOrBefore(p.createdAt, r[i].createdAt)
    {
      assert p in multiset(sorted);
      var j :| 0 <= j < |sorted| && sorted[j] == p;
      assert j >= |r|;
    }
  }

  /** The recent list holds the owner's ten newest records (fewer when there
      are fewer), newest first, and no owned record left out of it is newer
      than any record in it. */
  lemma PersonalRecent(store: seq<Prediction>, info: UserInfo, uid: nat, year: int)
    ensures var st := Stats(store, info, uid, year);
            var owned := Select(store, OwnedBy(uid));
            && |st.recent| == (if |owned| < 10 then |owned| else 10)
            && (forall i :: 0 <= i < |st.recent| ==> st.recent[i] in store && st.recent[i].owner == uid)
            && (forall i, j :: 0 <= i < j < |st.recent| ==> AtOrBefore(st.recent[j].createdAt, st.recent[i].createdAt))
            && (forall p, i :: p in owned && p !in st.recent && 0 <= i < |st.recent| ==> AtOrBefore(p.createdAt, st.recent[i].createdAt))
  {
    var owned := Select(store, OwnedBy(uid));
    var recent := Take(NewestFirst(owned), 10);
    NewestPrefix(owned, 10);
    forall i | 0 <= i < |recent| ensures recent[i] in store && recent[i].owner == uid {
      SelectMembers(store, OwnedBy(uid), recent[i]);
    }
  }
}

=== FILE: filters.dfy ===
/** The filter engine of `get_predictions_with_filters`: the owner's records
    within optional inclusive date bounds, newest first, normalised, then
    kept when they pass every filter the caller supplied. */
module Filters {
  import opened Wrappers
  import opened Calendar
  import opened Values
  import opened Sorting
  import opened Records
  import opened Normalizer

  /** A date bound from the query string: absent or empty, an ISO string that
      `datetime.fromisoformat` parses, or one it rejects with ValueError. The
      parsed value of `At` is naive, which the driver reads as UTC. */
  datatype DateBound = Unset | At(t: DateTime) | Malformed

  /** The recognised query arguments. A string argument missing from the
      query is `None`; a number argument is `None` when missing or when it
      does not parse as a float. */
  datatype Params = Params(
    crop: Option<string>,
    season: Option<string>,
    location: Option<string>,
    region: Option<string>,
    startDate: DateBound,
    endDate: DateBound,
    minRevenue: Option<real>,
    maxRevenue: Option<real>)

  /** A string argument filters only when truthy: present and non-empty. */
  predicate Given(a: Option<string>) {
    a.Some? && a.value != ""
  }

  /** A number argument filters only when truthy: present and non-zero. */
  predicate GivenNum(a: Option<real>) {
    a.Some? && a.value != 0.0
  }

  /** The date the driver sends for a parsed bound: a BSON date holds whole
      milliseconds, so the microseconds below the millisecond are dropped. */
  function DriverBound(t: DateTime): (r: DateTime)
    ensures r.year == t.year && r.month == t.month && r.day == t.day
    ensures r.tick % 1000 == 0 && r.tick <= t.tick < r.tick + 1000
  {
    t.(tick := t.tick - t.tick % 1000)
  }

  /** The store query: the owner, and each parsed date bound inclusively, as
      the driver encodes it. */
  function StoreQuery(uid: nat, f: Params): Criterion {
    var owned := OwnedBy(uid);
    var from := if f.startDate.At? then Both(owned, CreatedFrom(DriverBound(f.startDate.t))) else owned;
    if f.endDate.At? then Both(from, CreatedUntil(DriverBound(f.endDate.t))) else from
  }

  /** Date bounds are inclusive at both ends, at the millisecond the driver
      keeps, and absent bounds do not restrict. */
  lemma StoreQueryWindow(uid: nat, f: Params, p: Prediction)
    ensures Holds(StoreQuery(uid, f), p) <==>
            && p.owner == uid
            && (f.startDate.At? ==> AtOrBefore(DriverBound(f.startDate.t), p.createdAt))
            && (f.endDate.At? ==> AtOrBefore(p.createdAt, DriverBound(f.endDate.t)))
  {
    var owned := OwnedBy(uid);
    var from := if f.startDate.At? then Both(owned, CreatedFrom(DriverBound(f.startDate.t))) else owned;
    assert Holds(from, p) <==> p.owner == uid && (f.startDate.At? ==> AtOrBefore(DriverBound(f.startDate.t), p.createdAt));
  }



  // ---------------------------------------------------------------------
  // The filters, each as a condition on a normalised row

  predicate CropOk(f: Params, row: Row) {
    !Given(f.crop) || row.cropType == Str(f.crop.value)
  }

  predicate SeasonOk(f: Params, row: Row) {
    !Given(f.season) || row.season == Str(f.season.value)
  }

  /** Case-insensitive substring match: the argument, lower-cased, occurs in
      the row's location, lower-cased. */
  predicate LocationOk(f: Params, row: Row) {
    !Given(f.location) || (row.location.Str? && IsSubstring(Lower(f.location.value), Lower(row.location.s)))
  }

  predicate RegionOk(f: Params, row: Row) {
    !Given(f.region) || row.region == Str(f.region.value)
  }

  predicate MinRevenueOk(f: Params, row: Row) {
    !GivenNum(f.minRevenue) || (row.revenue.Num? && row.revenue.r >= f.minRevenue.value)
  }

  predicate MaxRevenueOk(f: Params, row: Row) {
    !GivenNum(f.maxRevenue) || (row.revenue.Num? && row.revenue.r <= f.maxRevenue.value)
  }

  /** The conjunction of all filters. */
  predicate Satisfies(f: Params, row: Row) {
    CropOk(f, row) && SeasonOk(f, row) && LocationOk(f, row) && RegionOk(f, row)
    && MinRevenueOk(f, row) && MaxRevenueOk(f, row)
  }

  /** What the chain of `continue` tests does with one row. */
  datatype Verdict = Keep | Skip | Raise(error: PyError)

  /** The tests in source order. `.lower()` on a location that is not a
      string raises AttributeError; `<` or `>` between a revenue that is not
      a number and a float raises TypeError. */
  function Check(f: Params, row: Row): (v: Verdict)
    ensures v == Keep <==> Satisfies(f, row)
    ensures v.Raise? ==> v.error == AttributeError || v.error == TypeError
  {
    if Given(f.crop) && row.cropType != Str(f.crop.value) then Skip
    else if Given(f.season) && row.season != Str(f.season.value) then Skip
    else if Given(f.location) && !row.location.Str? then Raise(AttributeError)
    else if Given(f.location) && !IsSubstring(Lower(f.location.value), Lower(row.location.s)) then Skip
    else if Given(f.region) && row.region != Str(f.region.value) then Skip
    else if GivenNum(f.minRevenue) && !row.revenue.Num? then Raise(TypeError)
    else if GivenNum(f.minRevenue) && row.revenue.r < f.minRevenue.value then Skip
    else if GivenNum(f.maxRevenue) && !row.revenue.Num? then Raise(TypeError)
    else if GivenNum(f.maxRevenue) && row.revenue.r > f.maxRevenue.value then Skip
    else Keep
  }

  /** The loop over the query results: normalise, test, keep or skip; the
      first exception ends the request. */
  function Scan(f: Params, ps: seq<Prediction>): (r: Result<seq<Row>>)
    ensures r.Ok? ==> |r.value| <= |ps|
    ensures r.Ok? ==> forall i :: 0 <= i < |r.value| ==> Satisfies(f, r.value[i])
  {
    if ps == [] then Ok([])
    else
      var row :- Normalize(ps[0]);
      match Check(f, row)
      case Raise(e) => Err(e)
      case Skip => Scan(f, ps[1..])
      case Keep =>
        var rest :- Scan(f, ps[1..]);
        Ok([row] + rest)
  }

  /** The response body: `count` and the kept rows. */
  datatype Response = Response(count: nat, rows: seq<Row>)

  /** `get_predictions_with_filters` for the user `uid`. */
  function FilterPredictions(store: seq<Prediction>, uid: nat, f: Params): (r: Result<Response>)
    ensures f.startDate.Malformed? || f.endDate.Malformed? ==> r == Err(ValueError)
    ensures r.Ok? ==> r.value.count == |r.value.rows|
  {
    if f.startDate.Malformed? || f.endDate.Malformed? then Err(ValueError)
    else
      var rows :- Scan(f, NewestFirst(Select(store, StoreQuery(uid, f))));
      Ok(Response(|rows|, rows))
  }

  // ---------------------------------------------------------------------
  // The reference definition: normalise everything, then keep what passes

  /** Every record normalised, or the first normalisation error. */
  function NormalizeAll(ps: seq<Prediction>): (r: Result<seq<Row>>)
    ensures r.Ok? <==> forall i :: 0 <= i < |ps| ==> Normalize(ps[i]).Ok?
    ensures r.Ok? ==> |r.value| == |ps| && forall i :: 0 <= i < |ps| ==> r.value[i] == Normalize(ps[i]).value
  {
    if ps == [] then Ok([])
    else
      var row :- Normalize(ps[0]);
      var rest := NormalizeAll(ps[1..]);
      assert forall i :: 0 < i < |ps| ==> ps[i] == ps[1..][i - 1];
      if rest.Err? then Err(rest.error) else Ok([row] + rest.value)
  }

  /** The rows that pass every filter, in order. */
  function KeepSatisfying(f: Params, rows: seq<Row>): (r: seq<Row>)
    ensures |r| <= |rows|
  {
    if rows == [] then []
    else (if Satisfies(f, rows[0]) then [rows[0]] else []) + KeepSatisfying(f, rows[1..])
  }

  /** No row of the list makes a test raise. */
  predicate NoneRaises(f: Params, rows: seq<Row>) {
    forall i :: 0 <= i < |rows| ==> !Check(f, rows[i]).Raise?
  }

  /** The loop succeeds exactly when every record normalises and no row makes
      a test raise, and then it returns the normalised rows that pass every
      filter, in order. */
  lemma {:induction false} ScanIsFilterOfNormalized(f: Params, ps: seq<Prediction>)
    ensures Scan(f, ps).Ok? <==> NormalizeAll(ps).Ok? && NoneRaises(f, NormalizeAll(ps).value)
    ensures Scan(f, ps).Ok? ==> Scan(f, ps).value == KeepSatisfying(f, NormalizeAll(ps).value)
  {
    if ps != [] {
      ScanIsFilterOfNormalized(f, ps[1..]);
      var all := NormalizeAll(ps);
      if all.Ok? {
        assert all.value == [all.value[0]] + NormalizeAll(ps[1..]).value;
        assert all.value[1..] == NormalizeAll(ps[1..]).value;
        if NoneRaises(f, all.value[1..]) && !Check(f, all.value[0]).Raise? {
          assert NoneRaises(f, all.value);
        }
        if NoneRaises(f, all.value) {
          assert !Check(f, all.value[0]).Raise?;
          assert NoneRaises(f, all.value[1..]) by {
            forall i | 0 <= i < |all.value[1..]| ensures !Check(f, all.value[1..][i]).Raise? {
              assert all.value[1..][i] == all.value[i + 1];
            }
          }
        }
      }
    }
  }

  /** `KeepSatisfying` keeps exactly the rows that pass every filter. */
  lemma {:induction false} KeepSatisfyingMembers(f: Params, rows: seq<Row>, row: Row)
    ensures row in KeepSatisfying(f, rows) <==> row in rows && Satisfies(f, row)
  {
    if rows != [] {
      KeepSatisfyingMembers(f, rows[1..], row);
      var head := if Satisfies(f, rows[0]) then [rows[0]] else [];
      assert KeepSatisfying(f, rows) == head + KeepSatisfying(f, rows[1..]);
      assert row in KeepSatisfying(f, rows) <==> row in head || row in KeepSatisfying(f, rows[1..]);
      assert rows == [rows[0]] + rows[1..];
      assert row in rows <==> row == rows[0] || row in rows[1..];
    }
  }

  /** Each row is dated no earlier than the rows after it. */
  predicate NewestFirstRows(rows: seq<Row>) {
    forall i, j :: 0 <= i < j < |rows| ==> AtOrBefore(rows[j].date, rows[i].date)
  }

  /** `KeepSatisfying` keeps the relative order of dates. */
  lemma {:induction false} KeepSatisfyingKeepsOrder(f: Params, rows: seq<Row>)
    requires NewestFirstRows(rows)
    ensures NewestFirstRows(KeepSatisfying(f, rows))
  {
    if rows != [] {
      KeepSatisfyingKeepsOrder(f, rows[1..]);
      var r := KeepSatisfying(f, rows);
      var t := KeepSatisfying(f, rows[1..]);
      var kept := Satisfies(f, rows[0]);
      assert r == (if kept then [rows[0]] else []) + t;
      forall i, j | 0 <= i < j < |r| ensures AtOrBefore(r[j].date, r[i].date) {
        if !kept {
          assert r[i] == t[i] && r[j] == t[j];
          assert AtOrBefore(t[j].date, t[i].date);
        } else if i > 0 {
          assert r[i] == t[i - 1] && r[j] == t[j - 1];
          assert AtOrBefore(t[j - 1].date, t[i - 1].date);
        } else {
          assert r[i] == rows[0] && r[j] == t[j - 1];
          KeepSatisfyingMembers(f, rows[1..], t[j - 1]);
          var m :| 0 <= m < |rows[1..]| && rows[1..][m] == t[j - 1];
          assert rows[m + 1] == r[j];
          assert AtOrBefore(rows[m + 1].date, rows[0].date);
        }
      }
    }
  }

  /** The normalised candidates of a request: the owner's records within the
      date bounds, newest first. */
  function Candidates(store: seq<Prediction>, uid: nat, f: Params): seq<Prediction> {
    NewestFirst(Select(store, StoreQuery(uid, f)))
  }

  /** A start bound later in the same millisecond as a stored record still
      admits it: the driver drops the bound's sub-millisecond digits. */
  lemma SubMillisecondStart(store: seq<Prediction>, uid: nat, f: Params, p: Prediction)
    requires p in store && p.owner == uid && p.createdAt == Instant(2024, 1, 1, 0)
    requires f.startDate == At(Instant(2024, 1, 1, 500)) && f.endDate == Unset
    ensures Holds(StoreQuery(uid, f), p)
    ensures p in Candidates(store, uid, f)
  {
    StoreQueryWindow(uid, f, p);
    SelectMembers(store, StoreQuery(uid, f), p);
    NewestFirstSpec(Select(store, StoreQuery(uid, f)));
    assert p in multiset(Candidates(store, uid, f));
  }

  /** The filter endpoint, stated against the reference definition: it
      succeeds exactly when the date arguments parse, every candidate
      normalises and no filter test raises; the result then holds exactly
      the normalised candidates that pass every supplied filter, newest first,
      and `count` is their number. */
  lemma FilterSemantics(store: seq<Prediction>, uid: nat, f: Params)
    ensures var r := FilterPredictions(store, uid, f);
            var all := NormalizeAll(Candidates(store, uid, f));
            && (r.Ok? <==> !f.startDate.Malformed? && !f.endDate.Malformed? && all.Ok? && NoneRaises(f, all.value))
            && (r.Ok? ==> r.value.rows == KeepSatisfying(f, all.value) && r.value.count == |r.value.rows|)
  {
    ScanIsFilterOfNormalized(f, Candidates(store, uid, f));
  }

  /** A row is in the result exactly when it is the normalisation of one of
      the owner's records within the date bounds and it passes every filter:
      the result is the intersection of the sets each filter keeps. */
  lemma FilterMembers(store: seq<Prediction>, uid: nat, f: Params, row: Row)
    requires FilterPredictions(store, uid, f).Ok?
    ensures row in FilterPredictions(store, uid, f).value.rows <==>
            && (exists p :: p in store && Holds(StoreQuery(uid, f), p) && Normalize(p) == Ok(row))
            && CropOk(f, row) && SeasonOk(f, row) && LocationOk(f, row) && RegionOk(f, row)
            && MinRevenueOk(f, row) && MaxRevenueOk(f, row)
  {
    FilterSemantics(store, uid, f);
    var cands := Candidates(store, uid, f);
    var all := NormalizeAll(cands).value;
    KeepSatisfyingMembers(f, all, row);
    NewestFirstSpec(Select(store, StoreQuery(uid, f)));
    if row in all {
      var i :| 0 <= i < |all| && all[i] == row;
      assert cands[i] in multiset(Select(store, StoreQuery(uid, f)));
      SelectMembers(store, StoreQuery(uid, f), cands[i]);
      assert Normalize(cands[i]) == Ok(row);
    }
    if exists p :: p in store && Holds(StoreQuery(uid, f), p) && Normalize(p) == Ok(row) {
      var p :| p in store && Holds(StoreQuery(uid, f), p) && Normalize(p) == Ok(row);
      SelectMembers(store, StoreQuery(uid, f), p);
      assert p in multiset(cands);
      var i :| 0 <= i < |cands| && cands[i] == p;
      assert all[i] == row;
    }
  }

  /** The result is ordered newest first. */
  lemma FilterNewestFirst(store: seq<Prediction>, uid: nat, f: Params)
    requires FilterPredictions(store, uid, f).Ok?
    ensures NewestFirstRows(FilterPredictions(store, uid, f).value.rows)
  {
    FilterSemantics(store, uid, f);
    var cands := Candidates(store, uid, f);
    var all := NormalizeAll(cands).value;
    NewestFirstSpec(Select(store, StoreQuery(uid, f)));
    KeepSatisfyingKeepsOrder(f, all);
  }

  /** Arguments that are absent or falsy exclude nothing. */
  lemma {:induction false} NoFiltersKeepAll(f: Params, rows: seq<Row>)
    requires !Given(f.crop) && !Given(f.season) && !Given(f.location) && !Given(f.region)
    requires !GivenNum(f.minRevenue) && !GivenNum(f.maxRevenue)
    ensures KeepSatisfying(f, rows) == rows
  {
    if rows != [] {
      NoFiltersKeepAll(f, rows[1..]);
    }
  }

  /** The location filter ignores the case of its argument. */
  lemma LocationIgnoresCase(f: Params, row: Row)
    requires Given(f.location)
    ensures LocationOk(f, row) <==> LocationOk(f.(location := Some(Lower(f.location.value))), row)
  {
    LowerIdempotent(f.location.value);
  }

  /** A crop no candidate has yields an empty result with count 0, provided
      the candidates normalise: the crop test comes first, so nothing after
      it can raise. */
  lemma UnknownCropGivesNothing(store: seq<Prediction>, uid: nat, f: Params)
    requires Given(f.crop) && !f.startDate.Malformed? && !f.endDate.Malformed?
    requires NormalizeAll(Candidates(store, uid, f)).Ok?
    requires var all := NormalizeAll(Candidates(store, uid, f)).value;
             forall i :: 0 <= i < |all| ==> all[i].cropType != Str(f.crop.value)
    ensures FilterPredictions(store, uid, f) == Ok(Response(0, []))
  {
    var all := NormalizeAll(Candidates(store, uid, f)).value;
    FilterSemantics(store, uid, f);
    assert NoneRaises(f, all);
    var kept := KeepSatisfying(f, all);
    if kept != [] {
      KeepSatisfyingMembers(f, all, kept[0]);
      assert false;
    }
  }
}

=== FILE: history.dfy ===
/** A user's own prediction history: the capped listing with a per-type
    summary (`get_prediction_history`) and the paginated profile listing
    (`get_user_predictions`). */
module History {
  import opened Wrappers
  import opened Calendar
  import opened Values
  import opened Sorting
  import opened Tally
  import opened Records

  /** The cursor's `limit(n)`: 0 means no limit, and a negative `n` returns
      at most `-n` documents (in a single batch). */
  function ApplyLimit(s: seq<Prediction>, n: int): (r: seq<Prediction>)
    ensures n == 0 ==> r == s
    ensures n != 0 ==> |r| == if |s| < Abs(n) then |s| else Abs(n)
    ensures r == s[..|r|]
  {
    if n == 0 || |s| < Abs(n) then s else s[..Abs(n)]
  }

  function Abs(n: int): nat {
    if n < 0 then -n else n
  }

  /** The largest integer a BSON int64 holds. */
  const Int64Max: int := 0x7fff_ffff_ffff_ffff

  /** The driver sends a cursor's skip and the size of its limit as BSON
      int64 fields, and raises OverflowError, when the query runs, for one
      that does not fit. */
  predicate CursorFits(skip: nat, limit: int) {
    skip <= Int64Max && Abs(limit) <= Int64Max
  }

  // ---------------------------------------------------------------------
  // The capped history with a summary

  /** The history query: the owner, and the type when one is given and
      non-empty. */
  function HistoryQuery(uid: nat, kind: Option<string>): Criterion {
    if kind.Some? && kind.value != "" then Both(OwnedBy(uid), KindIs(Str(kind.value))) else OwnedBy(uid)
  }

  datatype HistoryReply = HistoryReply(count: nat, summary: seq<Bucket>, predictions: seq<Prediction>)

  /** `get_prediction_history`: the owner's records of the requested type,
      newest first, at most `limit` of them (default 100), with the number of
      listed records per type. A dict-valued type cannot be a summary key,
      and a summary whose keys the reply cannot write (a missing type beside
      a named one, say) fails when the reply is written; both raise
      TypeError. Before either, a limit too wide for the driver raises
      OverflowError. */
  function PredictionHistory(store: seq<Prediction>, uid: nat, kind: Option<string>, limit: int): (r: Result<HistoryReply>)
    ensures !CursorFits(0, limit) ==> r == Err(OverflowError)
    ensures var listed := Listed(store, uid, kind, limit);
            CursorFits(0, limit) ==>
              && (r.Err? <==> (exists p :: p in listed && !Hashable(KindKey(p))) || !JsonKeysOk(set p | p in listed :: KindKey(p)))
              && (r.Err? ==> r.error == TypeError)
    ensures r.Ok? ==> r.value.count == |r.value.predictions| && r.value.predictions == Listed(store, uid, kind, limit)
  {
    var listed := Listed(store, uid, kind, limit);
    if !CursorFits(0, limit) then Err(OverflowError)
    else if exists p :: p in listed && !Hashable(KindKey(p)) then Err(TypeError)
    else if !JsonKeysOk(set p | p in listed :: KindKey(p)) then Err(TypeError)
    else Ok(HistoryReply(|listed|, TallyInto([], KindKeys(listed)), listed))
  }

  /** The records the history lists: no more than match, and no more than a
      non-zero limit allows. */
  function Listed(store: seq<Prediction>, uid: nat, kind: Option<string>, limit: int): (r: seq<Prediction>)
    ensures |r| <= Count(store, HistoryQuery(uid, kind))
    ensures limit != 0 ==> |r| <= Abs(limit)
  {
    Window(store, HistoryQuery(uid, kind), 0, limit)
  }

  /** `find(criterion).sort('created_at', -1).skip(skip).limit(limit)`: no
      more records than match past the skipped ones, and no more than a
      non-zero limit allows. */
  function Window(store: seq<Prediction>, c: Criterion, skip: nat, limit: int): (r: seq<Prediction>)
    ensures |r| <= if skip <= Count(store, c) then Count(store, c) - skip else 0
    ensures limit != 0 ==> |r| <= Abs(limit)
  {
    var sorted := NewestFirst(Select(store, c));
    NewestFirstSpec(Select(store, c));
    assert |sorted| == |multiset(sorted)| == Count(store, c);
    ApplyLimit(if skip <= |sorted| then sorted[skip..] else [], limit)
  }

  /** Skipping records of a newest-first list and applying a limit leaves
      stored records that satisfy the criterion, newest first. */
  lemma WindowContents(store: seq<Prediction>, c: Criterion, skip: nat, limit: int)
    ensures var ps := Window(store, c, skip, limit);
            && (forall i :: 0 <= i < |ps| ==> ps[i] in store && Holds(c, ps[i]))
            && (forall i, j :: 0 <= i < j < |ps| ==> AtOrBefore(ps[j].createdAt, ps[i].createdAt))
  {
    var sorted := NewestFirst(Select(store, c));
    NewestFirstSpec(Select(store, c));
    var ps := Window(store, c, skip, limit);
    if skip <= |sorted| {
      assert forall i :: 0 <= i < |ps| ==> ps[i] == sorted[skip + i];
      forall i | 0 <= i < |ps| ensures ps[i] in store && Holds(c, ps[i]) {
        assert sorted[skip + i] in multiset(Select(store, c));
        SelectMembers(store, c, ps[i]);
      }
    }
  }

  /** The listed records are the owner's, of the requested type, newest
      first. */
  lemma ListedContents(store: seq<Prediction>, uid: nat, kind: Option<string>, limit: int)
    ensures var ps := Listed(store, uid, kind, limit);
            && (forall i :: 0 <= i < |ps| ==> ps[i] in store && ps[i].owner == uid)
            && (kind.Some? && kind.value != "" ==> forall i :: 0 <= i < |ps| ==> ps[i].kind == Some(Str(kind.value)))
            && (forall i, j :: 0 <= i < j < |ps| ==> AtOrBefore(ps[j].createdAt, ps[i].createdAt))
  {
    var q := HistoryQuery(uid, kind);
    WindowContents(store, q, 0, limit);
    var ps := Listed(store, uid, kind, limit);
    forall i | 0 <= i < |ps|
      ensures ps[i].owner == uid
      ensures kind.Some? && kind.value != "" ==> ps[i].kind == Some(Str(kind.value))
    {
      assert Holds(q, ps[i]);
      if kind.Some? && kind.value != "" {
        assert Holds(Both(OwnedBy(uid), KindIs(Str(kind.value))), ps[i]);
        assert Holds(OwnedBy(uid), ps[i]) && Holds(KindIs(Str(kind.value)), ps[i]);
      } else {
        assert Holds(OwnedBy(uid), ps[i]);
      }
    }
  }

  /** With no limit, or a limit at least as large as their number, every one
      of the owner's records of the requested type is listed. */
  lemma ListedAll(store: seq<Prediction>, uid: nat, kind: Option<string>, limit: int)
    requires limit == 0 || Abs(limit) >= Count(store, HistoryQuery(uid, kind))
    ensures multiset(Listed(store, uid, kind, limit)) == multiset(Select(store, HistoryQuery(uid, kind)))
  {
    var sorted := NewestFirst(Select(store, HistoryQuery(uid, kind)));
    assert sorted[0..] == sorted;
    assert Listed(store, uid, kind, limit) == ApplyLimit(sorted, limit);
    assert ApplyLimit(sorted, limit) == sorted;
    NewestFirstSpec(Select(store, HistoryQuery(uid, kind)));
  }

  /** The history lists the owner's records of the requested type, newest
      first; with no limit, or a limit at least as large as their number, it
      lists all of them. */
  lemma HistoryListing(store: seq<Prediction>, uid: nat, kind: Option<string>, limit: int)
    requires PredictionHistory(store, uid, kind, limit).Ok?
    ensures var ps := PredictionHistory(store, uid, kind, limit).value.predictions;
            && (forall i :: 0 <= i < |ps| ==> ps[i] in store && ps[i].owner == uid)
            && (kind.Some? && kind.value != "" ==> forall i :: 0 <= i < |ps| ==> ps[i].kind == Some(Str(kind.value)))
            && (forall i, j :: 0 <= i < j < |ps| ==> AtOrBefore(ps[j].createdAt, ps[i].createdAt))
            && (limit == 0 || Abs(limit) >= Count(store, HistoryQuery(uid, kind)) ==>
                  multiset(ps) == multiset(Select(store, HistoryQuery(uid, kind))))
  {
    ListedContents(store, uid, kind, limit);
    if limit == 0 || Abs(limit) >= Count(store, HistoryQuery(uid, kind)) {
      ListedAll(store, uid, kind, limit);
    }
  }

  /** The summary counts each type among the listed records: its counts add
      up to `count`, and there is one entry per distinct type. */
  lemma HistorySummary(store: seq<Prediction>, uid: nat, kind: Option<string>, limit: int)
    requires PredictionHistory(store, uid, kind, limit).Ok?
    ensures var h := PredictionHistory(store, uid, kind, limit).value;
            && (forall k :: CountOf(h.summary, k) == multiset(KindKeys(h.predictions))[k])
            && Total(h.summary) == h.count
            && |h.summary| == |set i | 0 <= i < |h.predictions| :: KindKey(h.predictions[i])|
  {
    var h := PredictionHistory(store, uid, kind, limit).value;
    assert h.summary == TallyInto([], KindKeys(h.predictions));
    KindTally(h.predictions);
  }

  /** The tally of a list's types counts each type's records, totals the
      list's length, and has one bucket per distinct type. */
  lemma KindTally(ps: seq<Prediction>)
    ensures var b := TallyInto([], KindKeys(ps));
            && (forall k :: CountOf(b, k) == multiset(KindKeys(ps))[k])
            && Total(b) == |ps|
            && |b| == |set i | 0 <= i < |ps| :: KindKey(ps[i])|
  {
    var b := TallyInto([], KindKeys(ps));
    TallySpec([], KindKeys(ps));
    DistinctBucketCount(b);
    assert (set x | x in KindKeys(ps)) == set i | 0 <= i < |ps| :: KindKey(ps[i]);
  }

  /** Tallying keys that are all equal to the first bucket's key only grows
      that bucket. */
  lemma {:induction false} TallyUniform(k: Value, c: nat, keys: seq<Value>)
    requires forall i :: 0 <= i < |keys| ==> keys[i] == k
    ensures TallyInto([Bucket(k, c)], keys) == [Bucket(k, c + |keys|)]
    decreases |keys|
  {
    if keys != [] {
      TallyUniform(k, c + 1, keys[1..]);
    }
  }

  /** A list whose records all have one type tallies into that one bucket,
      or none when it is empty. */
  lemma OneKindTally(ps: seq<Prediction>, t: Value)
    requires forall i :: 0 <= i < |ps| ==> ps[i].kind == Some(t)
    ensures TallyInto([], KindKeys(ps)) == if ps == [] then [] else [Bucket(t, |ps|)]
  {
    var keys := KindKeys(ps);
    if keys != [] {
      assert forall i :: 0 <= i < |keys| ==> keys[i] == t;
      assert Bump([], keys[0]) == [Bucket(t, 1)];
      assert TallyInto([], keys) == TallyInto([Bucket(t, 1)], keys[1..]);
      TallyUniform(t, 1, keys[1..]);
    }
  }

  /** With a type given, the summary has the single entry for that type (or
      none when nothing is listed). */
  lemma HistorySummaryOfOneType(store: seq<Prediction>, uid: nat, t: string, limit: int)
    requires t != ""
    requires PredictionHistory(store, uid, Some(t), limit).Ok?
    ensures var h := PredictionHistory(store, uid, Some(t), limit).value;
            h.summary == if h.count == 0 then [] else [Bucket(Str(t), h.count)]
  {
    var h := PredictionHistory(store, uid, Some(t), limit).value;
    HistoryListing(store, uid, Some(t), limit);
    assert h.summary == TallyInto([], KindKeys(h.predictions));
    OneKindTally(h.predictions, Str(t));
  }

  // ---------------------------------------------------------------------
  // The paginated profile listing

  /** Python's `a // b`: the floor of the quotient. */
  function FloorDiv(a: int, b: int): (q: int)
    requires b != 0
    ensures b > 0 ==> b * q <= a < b * q + b
    ensures b < 0 ==> b * q >= a > b * q + b
  {
    if b > 0 then a / b else (-a) / (-b)
  }

  /** One entry of the listing. */
  datatype PageItem = PageItem(id: Value, kind: Value, input: Value, output: Value, modelType: Value, date: DateTime)

  /** The entry for one record: `prediction_type`, `input_data` and
      `output_data` are read with `[]`, so each raises KeyError when missing;
      `model_type` defaults to "unknown". */
  function FormatItem(p: Prediction): (r: Result<PageItem>)
    ensures r.Err? <==> p.kind.None? || p.input.None? || p.output.None?
    ensures r.Err? ==> r.error == KeyError(if p.kind.None? then "prediction_type" else if p.input.None? then "input_data" else "output_data")
    ensures r.Ok? ==> r.value.id == p.id && r.value.date == p.createdAt
  {
    if p.kind.None? then Err(KeyError("prediction_type"))
    else if p.input.None? then Err(KeyError("input_data"))
    else if p.output.None? then Err(KeyError("output_data"))
    else Ok(PageItem(p.id, p.kind.value, p.input.value, p.output.value, OrDefault(p.modelType, Str("unknown")), p.createdAt))
  }

  /** Formats every record, in order, stopping at the first error. */
  function FormatAll(ps: seq<Prediction>, format: Prediction -> Result<PageItem>): (r: Result<seq<PageItem>>)
    ensures r.Ok? <==> forall i :: 0 <= i < |ps| ==> format(ps[i]).Ok?
    ensures r.Ok? ==> |r.value| == |ps| && forall i :: 0 <= i < |ps| ==> r.value[i] == format(ps[i]).value
  {
    if ps == [] then Ok([])
    else
      var item :- format(ps[0]);
      var rest := FormatAll(ps[1..], format);
      assert forall i :: 0 < i < |ps| ==> ps[i] == ps[1..][i - 1];
      if rest.Err? then Err(rest.error) else Ok([item] + rest.value)
  }

  /** The listing query: the owner, and the type unless it is "all". */
  function PageQuery(uid: nat, kind: string): Criterion {
    if kind != "all" then Both(OwnedBy(uid), KindIs(Str(kind))) else OwnedBy(uid)
  }

  datatype Pagination = Pagination(page: int, limit: int, total: nat, pages: int)
  datatype PageReply = PageReply(items: seq<PageItem>, pagination: Pagination)

  /** The records on a page: skip `skip` of the newest-first list, then apply
      the limit; the page holds no more than remain past the skipped records
      and no more than a non-zero limit allows. */
  function PageRecords(store: seq<Prediction>, uid: nat, kind: string, skip: nat, limit: int): (r: seq<Prediction>)
    ensures |r| <= if skip <= Count(store, PageQuery(uid, kind)) then Count(store, PageQuery(uid, kind)) - skip else 0
    ensures limit != 0 ==> |r| <= Abs(limit)
  {
    Window(store, PageQuery(uid, kind), skip, limit)
  }

  /** The listing with the entry format as a parameter. A negative skip is
      rejected by the cursor with ValueError; a skip or limit too wide for
      the driver raises OverflowError when the query runs; a zero limit
      lists everything and then divides by zero when counting pages. */
  function Paginate(store: seq<Prediction>, uid: nat, kind: string, page: int, limit: int,
                    format: Prediction -> Result<PageItem>): (r: Result<PageReply>)
    ensures (page - 1) * limit < 0 ==> r == Err(ValueError)
    ensures (page - 1) * limit >= 0 && !CursorFits((page - 1) * limit, limit) ==> r == Err(OverflowError)
    ensures (page - 1) * limit >= 0 && CursorFits((page - 1) * limit, limit)
            && FormatAll(PageRecords(store, uid, kind, (page - 1) * limit, limit), format).Ok?
            ==> (r.Err? <==> limit == 0) && (r.Err? ==> r.error == ZeroDivisionError)
    ensures r.Ok? ==> r.value.pagination.total == Count(store, PageQuery(uid, kind))
    ensures r.Ok? ==> && (page - 1) * limit >= 0 && CursorFits((page - 1) * limit, limit)
                      && var items := FormatAll(PageRecords(store, uid, kind, (page - 1) * limit, limit), format);
                         items.Ok? && r.value.items == items.value
  {
    var total := Count(store, PageQuery(uid, kind));
    var skip := (page - 1) * limit;
    if skip < 0 then Err(ValueError)
    else if !CursorFits(skip, limit) then Err(OverflowError)
    else
      var items :- FormatAll(PageRecords(store, uid, kind, skip, limit), format);
      if limit == 0 then Err(ZeroDivisionError)
      else Ok(PageReply(items, Pagination(page, limit, total, FloorDiv(total + limit - 1, limit))))
  }

  /** `get_user_predictions`, with the entry format as written. */
  function UserPredictions(store: seq<Prediction>, uid: nat, kind: string, page: int, limit: int): (r: Result<PageReply>)
    ensures (page - 1) * limit < 0 ==> r == Err(ValueError)
    ensures (page - 1) * limit >= 0 && !CursorFits((page - 1) * limit, limit) ==> r == Err(OverflowError)
    ensures r.Ok? ==> r.value.pagination.total == Count(store, PageQuery(uid, kind))
    ensures r.Ok? ==> && (page - 1) * limit >= 0 && CursorFits((page - 1) * limit, limit)
                      && var ps := PageRecords(store, uid, kind, (page - 1) * limit, limit);
                         && |r.value.items| == |ps|
                         && forall i :: 0 <= i < |ps| ==> FormatItem(ps[i]).Ok? && r.value.items[i] == FormatItem(ps[i]).value
  {
    Paginate(store, uid, kind, page, limit, FormatItem)
  }

  /** With a positive limit, `pages` is the fewest pages of `limit` entries
      that hold every record: `pages` pages hold them all, one page fewer
      does not. */
  lemma PageCount(store: seq<Prediction>, uid: nat, kind: string, page: int, limit: int)
    requires limit > 0
    requires UserPredictions(store, uid, kind, page, limit).Ok?
    ensures var p := UserPredictions(store, uid, kind, page, limit).value.pagination;
            (p.pages - 1) * limit < p.total <= p.pages * limit
  {
    var total := Count(store, PageQuery(uid, kind));
    assert UserPredictions(store, uid, kind, page, limit).value.pagination.pages == FloorDiv(total + limit - 1, limit);
    CeilingPages(total, limit);
  }

  lemma CeilingPages(total: nat, limit: int)
    requires limit > 0
    ensures var pages := FloorDiv(total + limit - 1, limit);
            (pages - 1) * limit < total <= pages * limit
  {
    var pages := FloorDiv(total + limit - 1, limit);
    assert (pages - 1) * limit == limit * pages - limit;
  }

  /** With a positive limit, a page that skips `skip` records holds the
      next `limit` records of the newest-first list, or what is left of it:
      its entry `j` is record `skip + j`. Page `page` skips `(page - 1) *
      limit` records, so consecutive pages tile the list. */
  lemma PageWindow(store: seq<Prediction>, uid: nat, kind: string, skip: nat, limit: int)
    requires limit > 0
    ensures var sorted := NewestFirst(Select(store, PageQuery(uid, kind)));
            var onPage := PageRecords(store, uid, kind, skip, limit);
            && |onPage| == (if |sorted| <= skip then 0 else if |sorted| - skip < limit then |sorted| - skip else limit)
            && forall j :: 0 <= j < |onPage| ==> onPage[j] == sorted[skip + j]
  {
    var sorted := NewestFirst(Select(store, PageQuery(uid, kind)));
    var rest := if skip <= |sorted| then sorted[skip..] else [];
    assert PageRecords(store, uid, kind, skip, limit) == ApplyLimit(rest, limit);
  }

  /** The entries of a page belong to the owner, match the type unless it is
      "all", and are newest first. */
  lemma PageContents(store: seq<Prediction>, uid: nat, kind: string, skip: nat, limit: int)
    ensures var ps := PageRecords(store, uid, kind, skip, limit);
            && (forall i :: 0 <= i < |ps| ==> ps[i] in store && ps[i].owner == uid)
            && (kind != "all" ==> forall i :: 0 <= i < |ps| ==> ps[i].kind == Some(Str(kind)))
            && (forall i, j :: 0 <= i < j < |ps| ==> AtOrBefore(ps[j].createdAt, ps[i].createdAt))
  {
    var q := PageQuery(uid, kind);
    WindowContents(store, q, skip, limit);
    var ps := PageRecords(store, uid, kind, skip, limit);
    forall i | 0 <= i < |ps|
      ensures ps[i].owner == uid
      ensures kind != "all" ==> ps[i].kind == Some(Str(kind))
    {
      assert Holds(q, ps[i]);
      if kind != "all" {
        assert Holds(Both(OwnedBy(uid), KindIs(Str(kind))), ps[i]);
        assert Holds(OwnedBy(uid), ps[i]) && Holds(KindIs(Str(kind)), ps[i]);
      } else {
        assert Holds(OwnedBy(uid), ps[i]);
      }
    }
  }

  // ---------------------------------------------------------------------
  // Detailed records on a page

  /** A detailed record, as the detailed save path writes it, has no
      `input_data`, so a page that holds one fails with KeyError. */
  lemma DetailedRecordBreaksPage(uid: nat, now: DateTime)
    ensures var p := Prediction(Ref(1), uid, Some(Str("yield_detailed")), now,
                                Some(Null), Some(Null), Some(Null), Some(Null), Some(Null), Some(Null),
                                None, None, Some(Obj(map[])), None);
            UserPredictions([p], uid, "all", 1, 20) == Err(KeyError("input_data"))
  {
    var p := Prediction(Ref(1), uid, Some(Str("yield_detailed")), now,
                        Some(Null), Some(Null), Some(Null), Some(Null), Some(Null), Some(Null),
                        None, None, Some(Obj(map[])), None);
    assert Select([p], OwnedBy(uid)) == [p];
    assert NewestFirst([p]) == [p];
  }

  /** The entry format reading the three keys with `.get`, so a missing key
      lists as null. */
  function FormatItemLenient(p: Prediction): (r: Result<PageItem>)
    ensures r.Ok?
    ensures r.value.id == p.id && r.value.date == p.createdAt
    ensures p.kind.Some? && p.input.Some? && p.output.Some? ==> r == FormatItem(p)
  {
    Ok(PageItem(p.id, OrDefault(p.kind, Null), OrDefault(p.input, Null), OrDefault(p.output, Null),
                OrDefault(p.modelType, Str("unknown")), p.createdAt))
  }

  /** `get_user_predictions` reading entries leniently. */
  function UserPredictionsLenient(store: seq<Prediction>, uid: nat, kind: string, page: int, limit: int): (r: Result<PageReply>)
    ensures r.Ok? <==> (page - 1) * limit >= 0 && CursorFits((page - 1) * limit, limit) && limit != 0
  {
    var skip := (page - 1) * limit;
    assert skip >= 0 ==> FormatAll(PageRecords(store, uid, kind, skip, limit), FormatItemLenient).Ok?;
    Paginate(store, uid, kind, page, limit, FormatItemLenient)
  }

  /** Read leniently, every page lists exactly its records, in order, with
      their ids and dates. */
  lemma LenientPageLists(store: seq<Prediction>, uid: nat, kind: string, page: int, limit: int)
    requires (page - 1) * limit >= 0 && CursorFits((page - 1) * limit, limit) && limit != 0
    ensures var r := UserPredictionsLenient(store, uid, kind, page, limit);
            var ps := PageRecords(store, uid, kind, (page - 1) * limit, limit);
            && r.Ok? && |r.value.items| == |ps|
            && forall i :: 0 <= i < |ps| ==> r.value.items[i].id == ps[i].id && r.value.items[i].date == ps[i].createdAt
  {
  }
}

=== FILE: normalize.dfy ===
/** The record normaliser of the filtered-search endpoint
    (`get_predictions_with_filters`): both stored shapes of a prediction are
    mapped to one canonical row, every missing key replaced by a fixed
    default. Also the two save paths that produce those shapes, so that what
    the normaliser sees for real records can be stated. */
module Normalizer {
  import opened Wrappers
  import opened Calendar
  import opened Values
  import opened Records

  /** The two stored shapes. */
  datatype Shape = Detailed | Basic

  /** `pred.get('prediction_type', '') == 'yield_detailed'` picks the shape. */
  function ShapeOf(p: Prediction): Shape {
    if OrDefault(p.kind, Str("")) == Str("yield_detailed") then Detailed else Basic
  }

  /** The canonical view of one record. `date` stands for both formatted
      date strings. */
  datatype Row = Row(
    id: Value,
    cropType: Value,
    season: Value,
    location: Value,
    region: Value,
    landArea: Value,
    landAreaUnit: Value,
    yieldValue: Value,
    revenue: Value,
    confidence: Value,
    date: DateTime)

  /** Yield, revenue and confidence as read from a result or output mapping. */
  datatype Figures = Figures(yieldValue: Value, revenue: Value, confidence: Value)

  /** Revenue per unit of yield for basic records (₹20 per kg). */
  const RevenuePerUnit: real := 20.0

  /** Python's `s * n`: `n` copies of `s` one after another. The result
      starts with `s` and repeats with period `|s|`. */
  function Repeat(s: string, n: nat): (r: string)
    ensures |r| == |s| * n
    ensures n > 0 ==> r[..|s|] == s
    ensures forall i :: |s| <= i < |r| ==> r[i] == r[i - |s|]
  {
    if n == 0 then [] else s + Repeat(s, n - 1)
  }

  /** `pred_yield * 20`: a number scales, a string repeats twenty times, and
      anything else (None, a dict, a datetime) raises TypeError. */
  function TimesRevenuePerUnit(v: Value): (r: Result<Value>)
    ensures v.Num? ==> r == Ok(Num(v.r * RevenuePerUnit))
    ensures v.Str? ==> r == Ok(Str(Repeat(v.s, 20)))
    ensures r.Err? <==> !v.Num? && !v.Str?
    ensures r.Err? ==> r.error == TypeError
  {
    match v
    case Num(x) => Ok(Num(x * RevenuePerUnit))
    case Str(s) => Ok(Str(Repeat(s, 20)))
    case _ => Err(TypeError)
  }

  /** `pred.get('prediction_result', {}).get(key, 0)` for the three figures. */
  function ResultFigures(p: Prediction): Result<Figures> {
    var res := OrDefault(p.result, Obj(map[]));
    if res.Obj? then
      Ok(Figures(Lookup(res.fields, "yield", Num(0.0)),
                 Lookup(res.fields, "revenue", Num(0.0)),
                 Lookup(res.fields, "confidence", Num(0.0))))
    else Err(AttributeError)
  }

  /** `pred['output_data'].get(...)`, with revenue estimated from the yield. */
  function OutputFigures(out: Value): Result<Figures> {
    if out.Obj? then
      var y := Lookup(out.fields, "yield", Num(0.0));
      var c := Lookup(out.fields, "confidence", Num(0.0));
      var rev :- TimesRevenuePerUnit(y);
      Ok(Figures(y, rev, c))
    else Err(AttributeError)
  }

  /** A basic record with an `output_data` key takes its figures from it. */
  predicate ReadsOutput(p: Prediction) {
    ShapeOf(p) == Basic && p.output.Some?
  }

  /** The inputs on which the normaliser raises: the mapping it reads figures
      from is present but not a dict, or the output yield of a basic record
      is neither a number nor a string. */
  predicate Unnormalizable(p: Prediction) {
    if ReadsOutput(p) then
      !p.output.value.Obj? || (var y := OrDefault(SubField(p.output, "yield"), Num(0.0)); !y.Num? && !y.Str?)
    else
      p.result.Some? && !p.result.value.Obj?
  }

  /** The normaliser. */
  function Normalize(p: Prediction): (r: Result<Row>)
    ensures r.Err? <==> Unnormalizable(p)
    ensures r.Ok? ==> r.value.id == p.id && r.value.date == p.createdAt
  {
    match ShapeOf(p)
    case Detailed =>
      var f :- ResultFigures(p);
      Ok(Row(p.id,
             OrDefault(p.cropType, Str("Unknown")),
             OrDefault(p.season, Str("Unknown")),
             OrDefault(p.location, Str("Unknown")),
             OrDefault(p.region, Str("Unknown")),
             OrDefault(p.landArea, Num(0.0)),
             OrDefault(p.landAreaUnit, Str("acres")),
             f.yieldValue, f.revenue, f.confidence,
             p.createdAt))
    case Basic =>
      var f :- if p.output.Some? then OutputFigures(p.output.value) else ResultFigures(p);
      Ok(Row(p.id,
             OrDefault(p.cropType, Str("Mixed")),
             OrDefault(p.season, Str("All Seasons")),
             OrDefault(p.location, Str("Various Locations")),
             OrDefault(p.region, Str("Multiple Regions")),
             Num(1.0),
             Str("acre"),
             f.yieldValue, f.revenue, f.confidence,
             p.createdAt))
  }

  /** `mapping.get(key, 0)` on a mapping that may be absent (read as `{}`). */
  function FigureOf(mapping: Field, key: string): Value {
    OrDefault(SubField(mapping, key), Num(0.0))
  }

  /** A detailed record: each descriptive key defaults to "Unknown", the land
      area to 0 "acres", and the figures come from `prediction_result`, each
      defaulting to 0. A default replaces only an absent key; a key that is
      present keeps its stored value, null included. */
  lemma NormalizeDetailed(p: Prediction)
    requires ShapeOf(p) == Detailed && Normalize(p).Ok?
    ensures var row := Normalize(p).value;
      && (p.cropType.None? ==> row.cropType == Str("Unknown"))
      && (p.cropType.Some? ==> row.cropType == p.cropType.value)
      && (p.season.None? ==> row.season == Str("Unknown"))
      && (p.season.Some? ==> row.season == p.season.value)
      && (p.location.None? ==> row.location == Str("Unknown"))
      && (p.location.Some? ==> row.location == p.location.value)
      && (p.region.None? ==> row.region == Str("Unknown"))
      && (p.region.Some? ==> row.region == p.region.value)
      && (p.landArea.None? ==> row.landArea == Num(0.0))
      && (p.landArea.Some? ==> row.landArea == p.landArea.value)
      && (p.landAreaUnit.None? ==> row.landAreaUnit == Str("acres"))
      && (p.landAreaUnit.Some? ==> row.landAreaUnit == p.landAreaUnit.value)
      && row.yieldValue == FigureOf(p.result, "yield")
      && row.revenue == FigureOf(p.result, "revenue")
      && row.confidence == FigureOf(p.result, "confidence")
  {
  }

  /** A basic record: sentinel place and season values unless the record has
      its own keys, a land area of 1 "acre", and figures from `output_data`
      when that key exists (revenue then being 20 times the yield, whatever
      revenue is stored), otherwise from `prediction_result`. */
  lemma NormalizeBasic(p: Prediction)
    requires ShapeOf(p) == Basic && Normalize(p).Ok?
    ensures var row := Normalize(p).value;
      && row.cropType == OrDefault(p.cropType, Str("Mixed"))
      && row.season == OrDefault(p.season, Str("All Seasons"))
      && row.location == OrDefault(p.location, Str("Various Locations"))
      && row.region == OrDefault(p.region, Str("Multiple Regions"))
      && row.landArea == Num(1.0) && row.landAreaUnit == Str("acre")
      && (p.output.Some? ==>
            && row.yieldValue == FigureOf(p.output, "yield")
            && row.confidence == FigureOf(p.output, "confidence")
            && (row.yieldValue.Num? ==> row.revenue == Num(RevenuePerUnit * row.yieldValue.r)))
      && (p.output.None? ==>
            && row.yieldValue == FigureOf(p.result, "yield")
            && row.revenue == FigureOf(p.result, "revenue")
            && row.confidence == FigureOf(p.result, "confidence"))
  {
  }

  // ---------------------------------------------------------------------
  // The save paths

  /** The request keys the detailed save path reads. */
  function RequestValue(request: map<string, Value>, key: string): Value {
    if key in request then request[key] else Null
  }

  /** `save_detailed_prediction`: every descriptive key is written, holding
      null when the request lacks it; `prediction_result` defaults to `{}`.
      The soil and weather groups are not read by the analytics and are
      left out. */
  function SaveDetailed(owner: nat, request: map<string, Value>, id: Value, now: DateTime): (p: Prediction)
    ensures ShapeOf(p) == Detailed
    ensures p.owner == owner && p.createdAt == now
  {
    Prediction(id, owner, Some(Str("yield_detailed")), now,
               Some(RequestValue(request, "cropType")),
               Some(RequestValue(request, "season")),
               Some(RequestValue(request, "location")),
               Some(RequestValue(request, "region")),
               Some(RequestValue(request, "landArea")),
               Some(RequestValue(request, "landAreaUnit")),
               None, None,
               Some(if "result" in request then request["result"] else Obj(map[])),
               None)
  }

  /** The yield, crop and risk save paths: kind, inputs, an output dict and
      the model provenance tag. */
  function SaveBasic(owner: nat, kind: string, input: Value, output: map<string, Value>,
                     trained: bool, id: Value, now: DateTime): (p: Prediction)
    requires kind in {"yield", "crop", "risk"}
    ensures ShapeOf(p) == Basic && ReadsOutput(p)
    ensures p.owner == owner && p.createdAt == now
  {
    Prediction(id, owner, Some(Str(kind)), now, None, None, None, None, None, None,
               Some(input), Some(Obj(output)), None, Some(Str(if trained then "trained" else "mock")))
  }

  /** A detailed record saved from a request reads back the request's own
      values: a key the request lacked reads back as null, never as the
      "Unknown" default, because the save path always writes the key. */
  lemma SavedDetailedReadsBack(owner: nat, request: map<string, Value>, id: Value, now: DateTime)
    requires "result" in request ==> request["result"].Obj?
    ensures var r := Normalize(SaveDetailed(owner, request, id, now));
      && r.Ok?
      && r.value.cropType == RequestValue(request, "cropType")
      && r.value.season == RequestValue(request, "season")
      && r.value.location == RequestValue(request, "location")
      && r.value.region == RequestValue(request, "region")
      && r.value.landArea == RequestValue(request, "landArea")
      && r.value.landAreaUnit == RequestValue(request, "landAreaUnit")
      && ("cropType" !in request ==> r.value.cropType == Null)
  {
  }

  /** A detailed request whose `result` is present but not a dict is stored,
      and every later normalisation of that record raises. */
  lemma SavedDetailedWithBadResultFails(owner: nat, request: map<string, Value>, id: Value, now: DateTime)
    requires "result" in request && !request["result"].Obj?
    ensures Normalize(SaveDetailed(owner, request, id, now)) == Err(AttributeError)
  {
  }

  /** A record written by a basic save path with a numeric yield (or none, as
      for crop and risk records) always normalises, with the sentinel
      defaults and a revenue of 20 times the yield. */
  lemma SavedBasicNormalizes(owner: nat, kind: string, input: Value, output: map<string, Value>,
                             trained: bool, id: Value, now: DateTime)
    requires kind in {"yield", "crop", "risk"}
    requires "yield" in output ==> output["yield"].Num?
    ensures var r := Normalize(SaveBasic(owner, kind, input, output, trained, id, now));
      && r.Ok?
      && r.value.cropType == Str("Mixed") && r.value.season == Str("All Seasons")
      && r.value.location == Str("Various Locations") && r.value.region == Str("Multiple Regions")
      && r.value.landArea == Num(1.0) && r.value.landAreaUnit == Str("acre")
      && r.value.revenue == Num(RevenuePerUnit * (if "yield" in output then output["yield"].r else 0.0))
  {
  }

  /** A detailed record with an explicit revenue of 5000 keeps it; a basic
      yield record of 200 with no revenue of its own gets 4000. */
  lemma RevenueExamples(owner: nat, now: DateTime)
    ensures var detailed := SaveDetailed(owner, map["result" := Obj(map["revenue" := Num(5000.0)])], Ref(1), now);
            Normalize(detailed).Ok? && Normalize(detailed).value.revenue == Num(5000.0)
    ensures var basic := SaveBasic(owner, "yield", Obj(map[]), map["yield" := Num(200.0), "confidence" := Num(0.9)], true, Ref(2), now);
            Normalize(basic).Ok? && Normalize(basic).value.revenue == Num(4000.0)
  {
  }
}

=== FILE: records.dfy ===
/** Stored prediction records and the store queries the analytics issue.

    Every save path writes an `_id`, an owner (`user_id`, an ObjectId) and a
    `created_at` datetime, so those are plain fields here. Every other key
    may be absent or hold null depending on the save path and the request,
    so it is a `Field`. */
module Records {
  import opened Wrappers
  import opened Calendar
  import opened Values
  import opened Sorting

  datatype Prediction = Prediction(
    id: Value,            // _id
    owner: nat,           // user_id
    kind: Field,          // prediction_type
    createdAt: DateTime,  // created_at
    cropType: Field,      // crop_type
    season: Field,
    location: Field,
    region: Field,
    landArea: Field,      // land_area
    landAreaUnit: Field,  // land_area_unit
    input: Field,         // input_data
    output: Field,        // output_data
    result: Field,        // prediction_result
    modelType: Field)     // model_type

  /** The query documents the analytics send to the prediction collection. */
  datatype Criterion =
    | OwnedBy(uid: nat)                 // {'user_id': uid}
    | KindIs(k: Value)                  // {'prediction_type': k}
    | CreatedFrom(from: Instant)        // {'created_at': {'$gte': from}}
    | CreatedUntil(until: Instant)      // {'created_at': {'$lte': until}}
    | CreatedBefore(before: Instant)    // {'created_at': {'$lt': before}}
    | OutputAtLeast(key: string, bound: real)  // {'output_data.<key>': {'$gte': bound}}
    | Both(a: Criterion, b: Criterion)  // two conditions in one query document

  predicate Holds(c: Criterion, p: Prediction) {
    match c
    case OwnedBy(uid) => p.owner == uid
    case KindIs(k) => p.kind == Some(k)
    case CreatedFrom(t) => AtOrBefore(t, p.createdAt)
    case CreatedUntil(t) => AtOrBefore(p.createdAt, t)
    case CreatedBefore(t) => Before(p.createdAt, t)
    // a query comparison only matches values of the bound's own type
    case OutputAtLeast(key, x) => var f := SubField(p.output, key); f.Some? && f.value.Num? && f.value.r >= x
    case Both(a, b) => Holds(a, p) && Holds(b, p)
  }

  /** `find(criterion)` without a sort: the matching records in stored order. */
  function Select(s: seq<Prediction>, c: Criterion): (r: seq<Prediction>)
    ensures |r| <= |s|
  {
    if s == [] then [] else (if Holds(c, s[0]) then [s[0]] else []) + Select(s[1..], c)
  }

  /** `Select` keeps exactly the records the criterion holds for, each as
      often as it is stored. */
  lemma {:induction false} SelectMembers(s: seq<Prediction>, c: Criterion, p: Prediction)
    ensures multiset(Select(s, c))[p] == if Holds(c, p) then multiset(s)[p] else 0
    ensures p in Select(s, c) <==> p in s && Holds(c, p)
  {
    SelectCounts(s, c, p);
    assert p in Select(s, c) <==> multiset(Select(s, c))[p] > 0;
    assert p in s <==> multiset(s)[p] > 0;
  }

  lemma {:induction false} SelectCounts(s: seq<Prediction>, c: Criterion, p: Prediction)
    ensures multiset(Select(s, c))[p] == if Holds(c, p) then multiset(s)[p] else 0
  {
    if s != [] {
      SelectCounts(s[1..], c, p);
      var head := if Holds(c, s[0]) then [s[0]] else [];
      assert Select(s, c) == head + Select(s[1..], c);
      assert multiset(Select(s, c)) == multiset(head) + multiset(Select(s[1..], c));
      assert s == [s[0]] + s[1..];
      assert multiset(s) == multiset{s[0]} + multiset(s[1..]);
    }
  }

  /** Every element of a selection satisfies the criterion. */
  lemma SelectAllHold(s: seq<Prediction>, c: Criterion)
    ensures forall i :: 0 <= i < |Select(s, c)| ==> Holds(c, Select(s, c)[i])
  {
    forall i | 0 <= i < |Select(s, c)| ensures Holds(c, Select(s, c)[i]) {
      SelectMembers(s, c, Select(s, c)[i]);
    }
  }

  lemma SelectCons(x: Prediction, s: seq<Prediction>, c: Criterion)
    ensures Select([x] + s, c) == (if Holds(c, x) then [x] else []) + Select(s, c)
  {
    assert ([x] + s)[1..] == s;
  }

  /** A conjunction of conditions selects what selecting by each in turn does. */
  lemma {:induction false} SelectBoth(s: seq<Prediction>, a: Criterion, b: Criterion)
    ensures Select(s, Both(a, b)) == Select(Select(s, b), a)
  {
    if s != [] {
      SelectBoth(s[1..], a, b);
      if Holds(b, s[0]) {
        assert Select(s, b) == [s[0]] + Select(s[1..], b);
        SelectCons(s[0], Select(s[1..], b), a);
      } else {
        assert Select(s, b) == Select(s[1..], b);
      }
    }
  }

  /** The number of selected records: `count_documents(criterion)`. */
  function Count(s: seq<Prediction>, c: Criterion): (n: nat)
    ensures n <= |s|
  {
    |Select(s, c)|
  }

  /** Every record is counted exactly when the criterion holds for all of
      them, and none exactly when it holds for none. */
  lemma {:induction false} CountExtremes(s: seq<Prediction>, c: Criterion)
    ensures Count(s, c) == |s| <==> forall i :: 0 <= i < |s| ==> Holds(c, s[i])
    ensures Count(s, c) == 0 <==> forall i :: 0 <= i < |s| ==> !Holds(c, s[i])
  {
    if s != [] {
      CountExtremes(s[1..], c);
      assert forall i :: 0 < i < |s| ==> s[i] == s[1..][i - 1];
    }
  }

  /** `p.get('prediction_type')`, and `$prediction_type` as a group key: a
      missing type reads as null. */
  function KindKey(p: Prediction): Value {
    OrDefault(p.kind, Null)
  }

  function KindKeys(s: seq<Prediction>): (r: seq<Value>)
    ensures |r| == |s| && forall i :: 0 <= i < |s| ==> r[i] == KindKey(s[i])
  {
    seq(|s|, i requires 0 <= i < |s| => KindKey(s[i]))
  }

  /** The sort key `created_at`. */
  function CreatedKey(p: Prediction): Value {
    Time(p.createdAt)
  }

  /** `.sort('created_at', -1)`. MongoDB leaves the order of equal timestamps
      unspecified; the model keeps them in stored order. */
  function NewestFirst(s: seq<Prediction>): (r: seq<Prediction>)
    ensures |r| == |s|
  {
    SortBy(s, CreatedKey, true)
  }

  /** `.sort('created_at', 1)`. */
  function OldestFirst(s: seq<Prediction>): (r: seq<Prediction>)
    ensures |r| == |s|
  {
    SortBy(s, CreatedKey, false)
  }

  /** Newest-first order rearranges the records so that no record is newer
      than one placed before it. */
  lemma NewestFirstSpec(s: seq<Prediction>)
    ensures multiset(NewestFirst(s)) == multiset(s)
    ensures Ordered(NewestFirst(s), CreatedKey, true)
    ensures forall i, j :: 0 <= i < j < |s| ==> AtOrBefore(NewestFirst(s)[j].createdAt, NewestFirst(s)[i].createdAt)
  {
    SortByPermutes(s, CreatedKey, true);
    SortByOrdered(s, CreatedKey, true);
    var r := NewestFirst(s);
    forall i, j | 0 <= i < j < |s| ensures AtOrBefore(r[j].createdAt, r[i].createdAt) {
      assert !Precedes(CreatedKey(r[j]), CreatedKey(r[i]), true);
    }
  }

  lemma OldestFirstSpec(s: seq<Prediction>)
    ensures multiset(OldestFirst(s)) == multiset(s)
    ensures forall i, j :: 0 <= i < j < |s| ==> AtOrBefore(OldestFirst(s)[i].createdAt, OldestFirst(s)[j].createdAt)
  {
    SortByPermutes(s, CreatedKey, false);
    SortByOrdered(s, CreatedKey, false);
    var r := OldestFirst(s);
    forall i, j | 0 <= i < j < |s| ensures AtOrBefore(r[i].createdAt, r[j].createdAt) {
      assert !Precedes(CreatedKey(r[j]), CreatedKey(r[i]), false);
    }
  }

  /** `$output_data.<key>` as MongoDB reads it in a query or pipeline. */
  function OutputPath(p: Prediction, key: string): Field {
    SubField(p.output, key)
  }
}

=== FILE: sorting.dfy ===
/** Stable sorting by a key, as Python's `list.sort(key=..., reverse=...)`
    does it, and as the model orders query results by `created_at`. */
module Sorting {
  import opened Values

  /** In the sorted result, a key `a` must come strictly before a key `b`:
      `a < b` ascending, `a > b` when sorting in reverse. */
  predicate Precedes(a: Value, b: Value, descending: bool) {
    if descending then Less(b, a) else Less(a, b)
  }

  /** Keys neither of which precedes the other; a stable sort keeps elements
      with equivalent keys in their original order. */
  predicate Equivalent(a: Value, b: Value) {
    !Less(a, b) && !Less(b, a)
  }

  lemma PrecedesIsStrictWeakOrder(a: Value, b: Value, c: Value, descending: bool)
    ensures Precedes(a, b, descending) ==> !Precedes(b, a, descending)
    ensures !Precedes(a, b, descending) && !Precedes(b, c, descending) ==> !Precedes(a, c, descending)
    ensures Precedes(a, b, descending) ==> !Equivalent(a, b)
  {
    LessAsymmetric(a, b);
    if !Precedes(a, b, descending) && !Precedes(b, c, descending) {
      if descending {
        LessNegativelyTransitive(c, b, a);
      } else {
        LessNegativelyTransitive(a, b, c);
      }
    }
  }

  /** Places `x` in front of the first element whose key `x`'s key does not
      follow. */
  function Insert<T>(x: T, s: seq<T>, key: T -> Value, descending: bool): (r: seq<T>)
    ensures |r| == |s| + 1
  {
    if s == [] || !Precedes(key(s[0]), key(x), descending) then [x] + s
    else [s[0]] + Insert(x, s[1..], key, descending)
  }

  /** Insertion sort; equivalent keys keep their original order. */
  function SortBy<T>(s: seq<T>, key: T -> Value, descending: bool): (r: seq<T>)
    ensures |r| == |s|
  {
    if s == [] then [] else Insert(s[0], SortBy(s[1..], key, descending), key, descending)
  }

  /** No element's key precedes the key of an element placed before it. */
  ghost predicate Ordered<T>(s: seq<T>, key: T -> Value, descending: bool) {
    forall i, j :: 0 <= i < j < |s| ==> !Precedes(key(s[j]), key(s[i]), descending)
  }

  /** The elements of `s` whose key is equivalent to `k`, in order. */
  function WithKey<T>(s: seq<T>, key: T -> Value, k: Value): (r: seq<T>)
    ensures |r| <= |s|
  {
    if s == [] then []
    else if Equivalent(key(s[0]), k) then [s[0]] + WithKey(s[1..], key, k)
    else WithKey(s[1..], key, k)
  }

  lemma {:induction false} InsertPermutes<T>(x: T, s: seq<T>, key: T -> Value, descending: bool)
    ensures multiset(Insert(x, s, key, descending)) == multiset(s) + multiset{x}
  {
    if s != [] && Precedes(key(s[0]), key(x), descending) {
      InsertPermutes(x, s[1..], key, descending);
      assert s == [s[0]] + s[1..];
    }
  }

  lemma {:induction false} InsertOrdered<T>(x: T, s: seq<T>, key: T -> Value, descending: bool)
    requires Ordered(s, key, descending)
    ensures Ordered(Insert(x, s, key, descending), key, descending)
  {
    var r := Insert(x, s, key, descending);
    if s == [] || !Precedes(key(s[0]), key(x), descending) {
      forall j | 0 < j < |r|
        ensures !Precedes(key(r[j]), key(x), descending)
      {
        if j > 1 {
          PrecedesIsStrictWeakOrder(key(s[j - 1]), key(s[0]), key(x), descending);
        }
      }
    } else {
      var t := Insert(x, s[1..], key, descending);
      InsertOrdered(x, s[1..], key, descending);
      InsertPermutes(x, s[1..], key, descending);
      forall j | 0 <= j < |t|
        ensures !Precedes(key(t[j]), key(s[0]), descending)
      {
        assert t[j] in multiset(t);
        if t[j] == x {
          PrecedesIsStrictWeakOrder(key(s[0]), key(x), key(x), descending);
        } else {
          assert t[j] in multiset(s[1..]);
          var m :| 0 <= m < |s[1..]| && s[1..][m] == t[j];
          assert s[m + 1] == t[j];
        }
      }
      assert r == [s[0]] + t;
    }
  }

  /** The sort returns a permutation of its input... */
  lemma {:induction false} SortByPermutes<T>(s: seq<T>, key: T -> Value, descending: bool)
    ensures multiset(SortBy(s, key, descending)) == multiset(s)
  {
    if s != [] {
      SortByPermutes(s[1..], key, descending);
      InsertPermutes(s[0], SortBy(s[1..], key, descending), key, descending);
      assert s == [s[0]] + s[1..];
    }
  }

  /** ...in key order... */
  lemma {:induction false} SortByOrdered<T>(s: seq<T>, key: T -> Value, descending: bool)
    ensures Ordered(SortBy(s, key, descending), key, descending)
  {
    if s != [] {
      SortByOrdered(s[1..], key, descending);
      InsertOrdered(s[0], SortBy(s[1..], key, descending), key, descending);
    }
  }

  lemma {:induction false} InsertWithKey<T>(x: T, s: seq<T>, key: T -> Value, descending: bool, k: Value)
    ensures WithKey(Insert(x, s, key, descending), key, k)
         == if Equivalent(key(x), k) then [x] + WithKey(s, key, k) else WithKey(s, key, k)
  {
    if s == [] || !Precedes(key(s[0]), key(x), descending) {
      assert Insert(x, s, key, descending)[1..] == s;
    } else {
      InsertWithKey(x, s[1..], key, descending, k);
      var r := Insert(x, s, key, descending);
      assert r[0] == s[0] && r[1..] == Insert(x, s[1..], key, descending);
      if Equivalent(key(x), k) {
        // s[0] strictly precedes x, so it is not equivalent to x's key.
        PrecedesIsStrictWeakOrder(key(s[0]), key(x), k, descending);
        PrecedesIsStrictWeakOrder(k, key(x), key(s[0]), descending);
        PrecedesIsStrictWeakOrder(key(s[0]), k, key(x), descending);
        LessAsymmetric(key(x), k);
        assert !Equivalent(key(s[0]), k);
      }
    }
  }

  /** ...and stable: the elements with equivalent keys appear in the
      result in the order they had in the input. */
  lemma {:induction false} SortByStable<T>(s: seq<T>, key: T -> Value, descending: bool, k: Value)
    ensures WithKey(SortBy(s, key, descending), key, k) == WithKey(s, key, k)
  {
    if s != [] {
      SortByStable(s[1..], key, descending, k);
      InsertWithKey(s[0], SortBy(s[1..], key, descending), key, descending, k);
    }
  }
}

=== FILE: store.dfy ===
/** The in-memory document collection that stands in for MongoDB when no
    server is reachable (backend/database.py): a collection is the sequence
    of its documents in insertion order, as its JSON file holds them, and a
    query is a dict of required key/value pairs. */
module MockStore {
  import opened Wrappers
  import opened Calendar
  import opened Values
  import opened Sorting

  type Doc = map<string, Value>
  type Query = map<string, Value>

  /** `_matches`: every key of the query is present in the document with an
      equal value. */
  predicate Matches(doc: Doc, query: Query) {
    forall k :: k in query ==> k in doc && doc[k] == query[k]
  }

  /** The loop of `_matches`, one query key at a time. */
  method MatchesLoop(doc: Doc, query: Query) returns (b: bool)
    ensures b <==> Matches(doc, query)
    ensures query == map[] ==> b
  {
    var pending := query.Keys;
    while pending != {}
      invariant pending <= query.Keys
      invariant forall k :: k in query && k !in pending ==> k in doc && doc[k] == query[k]
      decreases pending
    {
      var k :| k in pending;
      if k !in doc || doc[k] != query[k] {
        return false;
      }
      pending := pending - {k};
    }
    return true;
  }

  /** `find(query)`: the matching documents, in stored order. */
  function Find(data: seq<Doc>, query: Query): (r: seq<Doc>)
    ensures |r| <= |data|
  {
    if data == [] then []
    else (if Matches(data[0], query) then [data[0]] else []) + Find(data[1..], query)
  }

  /** `find` returns exactly the matching documents, each as often as it is
      stored. */
  lemma {:induction false} FindMembers(data: seq<Doc>, query: Query, d: Doc)
    ensures multiset(Find(data, query))[d] == if Matches(d, query) then multiset(data)[d] else 0
    ensures d in Find(data, query) <==> d in data && Matches(d, query)
  {
    if data != [] {
      FindMembers(data[1..], query, d);
      assert data == [data[0]] + data[1..];
    }
  }

  /** `find` distributes over concatenation, so it keeps the stored order. */
  lemma {:induction false} FindConcat(a: seq<Doc>, b: seq<Doc>, query: Query)
    ensures Find(a + b, query) == Find(a, query) + Find(b, query)
  {
    if a != [] {
      FindConcat(a[1..], b, query);
      var head := if Matches(a[0], query) then [a[0]] else [];
      assert (a + b)[0] == a[0] && (a + b)[1..] == a[1..] + b;
      assert Find(a + b, query) == head + Find(a[1..] + b, query);
      assert Find(a, query) == head + Find(a[1..], query);
    } else {
      assert a + b == b;
    }
  }

  /** The empty query matches every document. */
  lemma {:induction false} FindAll(data: seq<Doc>)
    ensures Find(data, map[]) == data
  {
    if data != [] {
      FindAll(data[1..]);
    }
  }

  /** `find_one(query)`: the first matching document in stored order, or
      None when no document matches. */
  function FindOne(data: seq<Doc>, query: Query): (r: Option<Doc>)
    ensures r.None? <==> forall i :: 0 <= i < |data| ==> !Matches(data[i], query)
    ensures r.Some? ==> exists i :: 0 <= i < |data| && data[i] == r.value && Matches(data[i], query)
                                    && forall j :: 0 <= j < i ==> !Matches(data[j], query)
  {
    if data == [] then None
    else if Matches(data[0], query) then Some(data[0])
    else
      var r := FindOne(data[1..], query);
      assert forall i :: 0 < i < |data| ==> data[i] == data[1..][i - 1];
      r
  }

  /** `find_one` returns the head of what `find` returns. */
  lemma {:induction false} FindOneIsFirstOfFind(data: seq<Doc>, query: Query)
    ensures FindOne(data, query) == if Find(data, query) == [] then None else Some(Find(data, query)[0])
  {
    if data != [] && !Matches(data[0], query) {
      FindOneIsFirstOfFind(data[1..], query);
    }
  }

  /** `count_documents(query)`: the whole collection's size for a missing or
      empty query, otherwise the number of matching documents. */
  function CountDocuments(data: seq<Doc>, query: Option<Query>): (n: nat)
    ensures n == |Find(data, query.GetOr(map[]))|
    ensures n <= |data|
  {
    if query.None? || query.value == map[] then
      FindAll(data);
      |data|
    else |Find(data, query.value)|
  }

  // ---------------------------------------------------------------------
  // The collection's JSON file

  /** `str(ObjectId)`: the id's twelve bytes as 24 lower-case hex digits. */
  function ObjectIdText(id: nat): (r: string)
    ensures |r| == 24
  {
    Digits(id, 24, 16)
  }

  /** `ObjectId(str(oid)) == oid`: the text reads back as the id, for every
      id that fits in twelve bytes. */
  lemma ObjectIdRoundTrip(id: nat)
    requires id < Pow(16, 24)
    ensures DigitsValue(ObjectIdText(id), 16) == id
  {
    DigitsRoundTrip(id, 24, 16);
    ModUnique(id, Pow(16, 24), 0, id);
  }

  /** The values JSON can hold: no datetime or ObjectId at any depth. */
  predicate Plain(v: Value)
    decreases v
  {
    match v
    case Time(_) => false
    case Ref(_) => false
    case Obj(m) => forall k :: k in m ==> Plain(m[k])
    case _ => true
  }

  predicate PlainDoc(d: Doc) {
    forall k :: k in d ==> Plain(d[k])
  }

  /** What the file gives back for a value: `json.dump(..., default=str)`
      writes a datetime or an ObjectId as its `str`, which `json.load` reads
      back as a string; a nested document is written key by key; anything
      else reads back as it was written. */
  function Stored(v: Value): (r: Value)
    ensures Plain(r)
    ensures v.Time? ==> r == Str(DateTimeText(v.t))
    ensures v.Ref? ==> r == Str(ObjectIdText(v.id))
    decreases v
  {
    match v
    case Time(t) => Str(DateTimeText(t))
    case Ref(id) => Str(ObjectIdText(id))
    case Obj(m) => Obj(map k | k in m :: Stored(m[k]))
    case _ => v
  }

  /** A value JSON can already hold reads back unchanged, so writing a
      collection that was read from its file changes nothing. */
  lemma {:induction false} StoredKeepsPlain(v: Value)
    requires Plain(v)
    ensures Stored(v) == v
    decreases v
  {
    if v.Obj? {
      forall k | k in v.fields
        ensures Stored(v.fields[k]) == v.fields[k]
      {
        StoredKeepsPlain(v.fields[k]);
      }
      assert (map k | k in v.fields :: Stored(v.fields[k])) == v.fields;
    }
  }

  function StoredDoc(d: Doc): (r: Doc)
    ensures r.Keys == d.Keys
    ensures forall k :: k in d ==> r[k] == Stored(d[k])
    ensures PlainDoc(r)
  {
    map k | k in d :: Stored(d[k])
  }

  /** A collection as `_load_json` returns it: documents of plain values. */
  predicate FromFile(data: seq<Doc>) {
    forall i :: 0 <= i < |data| ==> PlainDoc(data[i])
  }

  /** What `insert_one` stores and returns. */
  datatype Inserted = Inserted(data: seq<Doc>, insertedId: Value)

  /** `insert_one(document)`: gives the document `str(ObjectId())` as its
      `_id` unless it already has one, appends it to the collection read
      from the file, writes the file, and returns the document's `_id` as
      it was before the write. `newId` is the new ObjectId. */
  function InsertOne(data: seq<Doc>, doc: Doc, newId: nat): (r: Inserted)
    ensures |r.data| == |data| + 1 && r.data[..|data|] == data
    ensures r.data[|data|].Keys == doc.Keys + {"_id"}
    ensures forall k :: k in doc ==> r.data[|data|][k] == Stored(doc[k])
    ensures r.insertedId == if "_id" in doc then doc["_id"] else Str(ObjectIdText(newId))
    ensures r.data[|data|]["_id"] == Stored(r.insertedId)
    ensures FromFile(data) ==> FromFile(r.data)
  {
    var withId := if "_id" in doc then doc else doc["_id" := Str(ObjectIdText(newId))];
    Inserted(data + [StoredDoc(withId)], withId["_id"])
  }

  /** After an insert, `find` returns what it returned before, followed by the
      new document, as the file holds it, when it matches. */
  lemma FindAfterInsert(data: seq<Doc>, doc: Doc, newId: nat, query: Query)
    ensures var r := InsertOne(data, doc, newId);
            && r.data[|data|] == StoredDoc(r.data[|data|])
            && Find(r.data, query)
               == Find(data, query) + if Matches(r.data[|data|], query) then [r.data[|data|]] else []
  {
    var r := InsertOne(data, doc, newId);
    FindConcat(data, [r.data[|data|]], query);
    assert r.data == data + [r.data[|data|]];
    forall k | k in r.data[|data|]
      ensures Stored(r.data[|data|][k]) == r.data[|data|][k]
    {
      StoredKeepsPlain(r.data[|data|][k]);
    }
  }

  /** A document inserted with an `_id` no stored document has is what
      `find_one` returns for that `_id` as the file holds it, and for the
      returned `_id` itself when that is a string, number or null. */
  lemma FindOneAfterInsert(data: seq<Doc>, doc: Doc, newId: nat)
    requires var id := InsertOne(data, doc, newId).insertedId;
             forall i :: 0 <= i < |data| ==> "_id" !in data[i] || data[i]["_id"] != Stored(id)
    ensures var r := InsertOne(data, doc, newId);
            FindOne(r.data, map["_id" := Stored(r.insertedId)]) == Some(r.data[|data|])
    ensures var r := InsertOne(data, doc, newId);
            Plain(r.insertedId) ==> FindOne(r.data, map["_id" := r.insertedId]) == Some(r.data[|data|])
  {
    var r := InsertOne(data, doc, newId);
    var q := map["_id" := Stored(r.insertedId)];
    assert forall i :: 0 <= i < |data| ==> r.data[i] == data[i];
    assert forall i :: 0 <= i < |data| ==> !Matches(r.data[i], q);
    assert Matches(r.data[|data|], q);
    if Plain(r.insertedId) {
      StoredKeepsPlain(r.insertedId);
    }
  }

  /** A document inserted with an ObjectId or a datetime as its `_id` is
      written with that `_id` as a string, so `find_one` with the `_id`
      `insert_one` returned finds nothing. */
  lemma InsertedIdLost(data: seq<Doc>, doc: Doc, newId: nat)
    requires FromFile(data)
    requires "_id" in doc && (doc["_id"].Ref? || doc["_id"].Time?)
    ensures var r := InsertOne(data, doc, newId);
            FindOne(r.data, map["_id" := r.insertedId]) == None
  {
    var r := InsertOne(data, doc, newId);
    var q := map["_id" := r.insertedId];
    forall i | 0 <= i < |r.data|
      ensures !Matches(r.data[i], q)
    {
      assert !Plain(r.insertedId);
      if "_id" in r.data[i] {
        assert Plain(r.data[i]["_id"]);
      }
    }
  }

  /** The sort key `x.get(field, '')`. */
  function FieldKey(field: string): Doc -> Value {
    (d: Doc) => if field in d then d[field] else Str("")
  }

  /** Python can sort the documents by the field: every two keys can be
      compared with `<`. */
  predicate SortableBy(data: seq<Doc>, field: string) {
    forall i, j :: 0 <= i < |data| && 0 <= j < |data| ==> Comparable(FieldKey(field)(data[i]), FieldKey(field)(data[j]))
  }

  /** `MockCursor.sort(field, direction)`: a stable sort on `x.get(field, '')`,
      reversed when the direction is -1. `list.sort` raises TypeError as soon
      as it compares two keys `<` does not accept, which happens for any list
      of two or more documents whose keys are not all mutually comparable. */
  function CursorSort(data: seq<Doc>, field: string, direction: int): (r: Result<seq<Doc>>)
    ensures r.Ok? <==> |data| <= 1 || SortableBy(data, field)
    ensures r.Err? ==> r.error == TypeError
    ensures r.Ok? ==> multiset(r.value) == multiset(data)
    ensures r.Ok? ==> Ordered(r.value, FieldKey(field), direction == -1)
  {
    if |data| <= 1 || SortableBy(data, field) then
      var sorted := SortBy(data, FieldKey(field), direction == -1);
      SortByPermutes(data, FieldKey(field), direction == -1);
      SortByOrdered(data, FieldKey(field), direction == -1);
      Ok(sorted)
    else Err(TypeError)
  }

  /** Documents whose keys compare equal keep their stored order. */
  lemma CursorSortStable(data: seq<Doc>, field: string, direction: int, k: Value)
    requires CursorSort(data, field, direction).Ok?
    ensures WithKey(CursorSort(data, field, direction).value, FieldKey(field), k) == WithKey(data, FieldKey(field), k)
  {
    SortByStable(data, FieldKey(field), direction == -1, k);
  }
}

=== FILE: tally.dfy ===
/** Counting occurrences by key: Python's `d[k] = d.get(k, 0) + 1` on an
    insertion-ordered dict, and MongoDB's `{$group: {_id: key, count: {$sum: 1}}}`.
    A tally is a list of (key, count) buckets in first-appearance order. */
module Tally {
  import opened Wrappers
  import opened Values

  datatype Bucket = Bucket(key: Value, count: nat)

  /** `d.get(k, 0)`. */
  function CountOf(b: seq<Bucket>, k: Value): nat {
    if b == [] then 0 else if b[0].key == k then b[0].count else CountOf(b[1..], k)
  }

  function KeySet(b: seq<Bucket>): set<Value> {
    if b == [] then {} else {b[0].key} + KeySet(b[1..])
  }

  lemma {:induction false} KeySetMembers(b: seq<Bucket>, v: Value)
    ensures v in KeySet(b) <==> exists i :: 0 <= i < |b| && b[i].key == v
  {
    if b != [] {
      KeySetMembers(b[1..], v);
      if v in KeySet(b[1..]) {
        var i :| 0 <= i < |b[1..]| && b[1..][i].key == v;
        assert b[i + 1].key == v;
      }
      if exists i :: 0 <= i < |b| && b[i].key == v {
        var i :| 0 <= i < |b| && b[i].key == v;
        if i > 0 {
          assert b[1..][i - 1].key == v;
        }
      }
    }
  }

  /** The sum of all counts. */
  function Total(b: seq<Bucket>): nat {
    if b == [] then 0 else b[0].count + Total(b[1..])
  }

  ghost predicate DistinctKeys(b: seq<Bucket>) {
    forall i, j :: 0 <= i < j < |b| ==> b[i].key != b[j].key
  }

  /** Buckets that all start at zero, one per key: the shape of a dict
      initialised before counting. */
  function Zeroed(keys: seq<Value>): (b: seq<Bucket>)
    ensures |b| == |keys|
    ensures forall i :: 0 <= i < |keys| ==> b[i] == Bucket(keys[i], 0)
  {
    if keys == [] then [] else [Bucket(keys[0], 0)] + Zeroed(keys[1..])
  }

  /** A freshly initialised dict counts nothing yet. */
  lemma {:induction false} ZeroedCountsNothing(keys: seq<Value>)
    ensures forall k :: CountOf(Zeroed(keys), k) == 0
  {
    if keys != [] {
      ZeroedCountsNothing(keys[1..]);
      assert Zeroed(keys)[1..] == Zeroed(keys[1..]);
    }
  }

  /** `d[k] = d.get(k, 0) + 1`. */
  function Bump(b: seq<Bucket>, k: Value): seq<Bucket> {
    if b == [] then [Bucket(k, 1)]
    else if b[0].key == k then [Bucket(k, b[0].count + 1)] + b[1..]
    else [b[0]] + Bump(b[1..], k)
  }

  /** Counts every key of `keys`, in order, into the buckets `b`. */
  function TallyInto(b: seq<Bucket>, keys: seq<Value>): seq<Bucket>
    decreases |keys|
  {
    if keys == [] then b else TallyInto(Bump(b, keys[0]), keys[1..])
  }

  lemma {:induction false} BumpCounts(b: seq<Bucket>, k: Value, j: Value)
    ensures CountOf(Bump(b, k), j) == CountOf(b, j) + (if j == k then 1 else 0)
  {
    if b != [] && b[0].key != k {
      BumpCounts(b[1..], k, j);
      assert Bump(b, k)[1..] == Bump(b[1..], k);
    }
  }

  lemma {:induction false} BumpTotal(b: seq<Bucket>, k: Value)
    ensures Total(Bump(b, k)) == Total(b) + 1
    ensures KeySet(Bump(b, k)) == KeySet(b) + {k}
  {
    if b != [] {
      if b[0].key == k {
        assert Bump(b, k)[1..] == b[1..];
      } else {
        BumpTotal(b[1..], k);
        assert Bump(b, k)[1..] == Bump(b[1..], k);
      }
    }
  }

  lemma {:induction false} BumpDistinct(b: seq<Bucket>, k: Value)
    requires DistinctKeys(b)
    ensures DistinctKeys(Bump(b, k))
  {
    var r := Bump(b, k);
    if b != [] && b[0].key != k {
      BumpDistinct(b[1..], k);
      BumpTotal(b[1..], k);
      assert r[1..] == Bump(b[1..], k);
      forall j | 0 < j < |r| ensures r[0].key != r[j].key {
        KeySetMembers(r[1..], r[j].key);
        assert r[1..][j - 1] == r[j];
        KeySetMembers(b[1..], r[j].key);
        if r[j].key != k {
          var m :| 0 <= m < |b[1..]| && b[1..][m].key == r[j].key;
          assert b[m + 1].key == r[j].key;
        }
      }
    }
  }

  /** Counting a list of keys adds each key's number of occurrences to its
      bucket, adds the list's length to the total, and keeps keys distinct. */
  lemma {:induction false} TallySpec(b: seq<Bucket>, keys: seq<Value>)
    decreases |keys|
    ensures forall j :: CountOf(TallyInto(b, keys), j) == CountOf(b, j) + multiset(keys)[j]
    ensures Total(TallyInto(b, keys)) == Total(b) + |keys|
    ensures KeySet(TallyInto(b, keys)) == KeySet(b) + set x | x in keys
    ensures DistinctKeys(b) ==> DistinctKeys(TallyInto(b, keys))
  {
    if keys != [] {
      forall j ensures CountOf(Bump(b, keys[0]), j) == CountOf(b, j) + (if j == keys[0] then 1 else 0) {
        BumpCounts(b, keys[0], j);
      }
      BumpTotal(b, keys[0]);
      if DistinctKeys(b) {
        BumpDistinct(b, keys[0]);
      }
      TallySpec(Bump(b, keys[0]), keys[1..]);
      assert keys == [keys[0]] + keys[1..];
      assert (set x | x in keys) == {keys[0]} + (set x | x in keys[1..]);
    }
  }

  /** A dict counted from empty has one entry per distinct key and counts
      every key once. */
  lemma FreshTally(keys: seq<Value>)
    ensures Total(TallyInto([], keys)) == |keys|
    ensures DistinctKeys(TallyInto([], keys))
  {
    TallySpec([], keys);
  }

  /** With distinct keys there is one bucket per key. */
  lemma {:induction false} DistinctBucketCount(b: seq<Bucket>)
    requires DistinctKeys(b)
    ensures |KeySet(b)| == |b|
  {
    if b != [] {
      DistinctBucketCount(b[1..]);
      KeySetMembers(b[1..], b[0].key);
      forall i | 0 <= i < |b[1..]| ensures b[1..][i].key != b[0].key {
        assert b[1..][i] == b[i + 1];
      }
    }
  }

  /** The position of a bucket with the largest count (the first such). */
  function TopIndex(b: seq<Bucket>): (i: nat)
    requires b != []
    ensures i < |b|
    ensures forall j :: 0 <= j < |b| ==> b[j].count <= b[i].count
  {
    if |b| == 1 then 0
    else
      var t := TopIndex(b[1..]) + 1;
      if b[0].count >= b[t].count then 0 else t
  }

  /** The key of a largest bucket, as the first group of a `$sort` by count
      descending; `None` for an empty tally. */
  function TopKey(b: seq<Bucket>): (r: Option<Value>)
    requires DistinctKeys(b)
    ensures r.None? <==> b == []
    ensures r.Some? ==> r.value in KeySet(b)
    ensures r.Some? ==> forall j :: 0 <= j < |b| ==> b[j].count <= CountOf(b, r.value)
  {
    if b == [] then None
    else
      var i := TopIndex(b);
      CountOfDistinct(b, i);
      KeySetMembers(b, b[i].key);
      Some(b[i].key)
  }

  /** In a tally with distinct keys, a bucket's count is what `CountOf` reads. */
  lemma {:induction false} CountOfDistinct(b: seq<Bucket>, i: nat)
    requires i < |b|
    requires DistinctKeys(b)
    ensures CountOf(b, b[i].key) == b[i].count
  {
    if i > 0 {
      CountOfDistinct(b[1..], i - 1);
      assert b[1..][i - 1] == b[i];
    }
  }
}

=== FILE: values.dfy ===
/** The dynamically typed values stored in documents, the dictionary reads
    the analytics code performs on them, the string operations the filter
    uses, and the order Python's comparison operators put values in. */
module Values {
  import opened Wrappers
  import opened Calendar

  /** A stored value. Python's `int` and `float` are both `Num` (they compare
      and hash alike); `Ref` is an ObjectId; `Obj` a nested document. */
  datatype Value =
    | Null
    | Num(r: real)
    | Str(s: string)
    | Time(t: DateTime)
    | Ref(id: nat)
    | Obj(fields: map<string, Value>)

  /** One key of a stored document: `None` when the key is absent,
      `Some(Null)` when the key is present and holds null. */
  type Field = Option<Value>

  /** `doc.get(key, default)` on the document holding the field. */
  function OrDefault(f: Field, default: Value): (v: Value)
    ensures f.Some? ==> v == f.value
    ensures f.None? ==> v == default
  {
    f.GetOr(default)
  }

  /** `d.get(key, default)` on a dict. */
  function Lookup(m: map<string, Value>, key: string, default: Value): (v: Value)
    ensures key in m ==> v == m[key]
    ensures key !in m ==> v == default
  {
    if key in m then m[key] else default
  }

  /** `v.get(key, default)` where `v` is itself a value read from a document:
      only a dict has `.get`, anything else raises AttributeError. */
  function GetKey(v: Value, key: string, default: Value): (r: Result<Value>)
    ensures r.Err? <==> !v.Obj?
    ensures r.Err? ==> r.error == AttributeError
    ensures r.Ok? && key in v.fields ==> r.value == v.fields[key]
    ensures r.Ok? && key !in v.fields ==> r.value == default
  {
    if v.Obj? then Ok(Lookup(v.fields, key, default)) else Err(AttributeError)
  }

  /** The embedded-field path `$outer.key` as MongoDB resolves it: missing
      unless the outer value is a document holding the key. */
  function SubField(outer: Field, key: string): (f: Field)
    ensures f.Some? <==> outer.Some? && outer.value.Obj? && key in outer.value.fields
    ensures f.Some? ==> f.value == outer.value.fields[key]
  {
    if outer.Some? && outer.value.Obj? && key in outer.value.fields then Some(outer.value.fields[key]) else None
  }

  /** Python truthiness: null, zero, the empty string and the empty dict are
      false; datetimes and ObjectIds are always true. */
  predicate Truthy(v: Value) {
    match v
    case Null => false
    case Num(r) => r != 0.0
    case Str(s) => s != ""
    case Obj(m) => m != map[]
    case _ => true
  }

  /** Values Python can use as dict keys or set members: everything but a
      dict. */
  predicate Hashable(v: Value) {
    !v.Obj?
  }

  // ---------------------------------------------------------------------
  // Strings

  /** `str.lower` on one character; case mapping is modelled for ASCII only. */
  function LowerChar(c: char): char {
    if 'A' <= c <= 'Z' then (c as int - 'A' as int + 'a' as int) as char else c
  }

  function Lower(s: string): (r: string)
    ensures |r| == |s|
    ensures forall i :: 0 <= i < |s| ==> r[i] == LowerChar(s[i])
  {
    if s == [] then [] else [LowerChar(s[0])] + Lower(s[1..])
  }

  lemma LowerIdempotent(s: string)
    ensures Lower(Lower(s)) == Lower(s)
  {
  }

  predicate IsPrefix(p: string, s: string) {
    |p| <= |s| && s[..|p|] == p
  }

  /** Python's `needle in hay` for strings. */
  predicate IsSubstring(needle: string, hay: string)
    decreases |hay|
  {
    IsPrefix(needle, hay) || (|hay| > 0 && IsSubstring(needle, hay[1..]))
  }

  /** The needle occurs in the haystack starting at offset `i`. */
  predicate OccursAt(needle: string, hay: string, i: int) {
    0 <= i && i + |needle| <= |hay| && hay[i..i + |needle|] == needle
  }

  /** `IsSubstring` holds exactly when the needle occurs at some offset. */
  lemma {:induction false} SubstringAtOffset(needle: string, hay: string)
    ensures IsSubstring(needle, hay) <==> exists i :: OccursAt(needle, hay, i)
    decreases |hay|
  {
    if IsPrefix(needle, hay) {
      assert OccursAt(needle, hay, 0);
    } else {
      if exists i :: OccursAt(needle, hay, i) {
        var i :| OccursAt(needle, hay, i);
        assert i != 0;
        assert OccursAt(needle, hay[1..], i - 1);
        SubstringAtOffset(needle, hay[1..]);
      }
      if |hay| > 0 && IsSubstring(needle, hay[1..]) {
        SubstringAtOffset(needle, hay[1..]);
        var i :| OccursAt(needle, hay[1..], i);
        assert OccursAt(needle, hay, i + 1);
      }
    }
  }

  /** Python's `<` on strings: lexicographic on code points, a proper prefix
      coming first. */
  predicate StrLess(a: string, b: string) {
    if |a| == 0 then |b| > 0
    else if |b| == 0 then false
    else a[0] < b[0] || (a[0] == b[0] && StrLess(a[1..], b[1..]))
  }

  lemma {:induction false} StrLessIrreflexive(a: string)
    ensures !StrLess(a, a)
  {
    if |a| > 0 {
      StrLessIrreflexive(a[1..]);
    }
  }

  lemma {:induction false} StrLessTransitive(a: string, b: string, c: string)
    requires StrLess(a, b) && StrLess(b, c)
    ensures StrLess(a, c)
  {
    if |a| > 0 && |b| > 0 && |c| > 0 && a[0] == b[0] == c[0] {
      StrLessTransitive(a[1..], b[1..], c[1..]);
    }
  }

  lemma {:induction false} StrLessTotal(a: string, b: string)
    requires a != b
    ensures StrLess(a, b) || StrLess(b, a)
  {
    if |a| > 0 && |b| > 0 && a[0] == b[0] {
      assert a == [a[0]] + a[1..] && b == [b[0]] + b[1..];
      StrLessTotal(a[1..], b[1..]);
    }
  }

  // ---------------------------------------------------------------------
  // Ordering

  /** Values Python can order among themselves: numbers, strings, datetimes
      and ObjectIds. Null and dicts have no `<`. */
  predicate Orderable(v: Value) {
    v.Num? || v.Str? || v.Time? || v.Ref?
  }

  /** Two values Python can compare with `<` without raising TypeError. */
  predicate Comparable(a: Value, b: Value) {
    Orderable(a) && Orderable(b) &&
    (a.Num? == b.Num?) && (a.Str? == b.Str?) && (a.Time? == b.Time?) && (a.Ref? == b.Ref?)
  }

  // ---------------------------------------------------------------------
  // Dict keys in a JSON reply

  /** The key types `json` writes: str, int, float, bool and None. */
  predicate JsonKey(v: Value) {
    v.Str? || v.Num? || v.Null?
  }

  /** The keys of a dict the reply's JSON provider can write. The provider
      sorts every dict's items by key before writing them, so two distinct
      keys must compare with `<`; then every key must be of a type `json`
      writes as a key. Anything else raises TypeError. */
  predicate JsonKeysOk(keys: set<Value>) {
    && (forall k :: k in keys ==> JsonKey(k))
    && (forall a, b :: a in keys && b in keys && a != b ==> Comparable(a, b))
  }

  /** Keys that are all strings, or all numbers, can be written. */
  lemma JsonKeysOfOneType(keys: set<Value>)
    requires (forall k :: k in keys ==> k.Str?) || (forall k :: k in keys ==> k.Num?)
    ensures JsonKeysOk(keys)
  {
  }

  /** A null key can be written only when it is the dict's only key, and a
      datetime or ObjectId key never. */
  lemma JsonKeysNullAlone(keys: set<Value>)
    requires JsonKeysOk(keys)
    ensures Null in keys ==> keys == {Null}
    ensures forall k :: k in keys ==> !k.Time? && !k.Ref? && !k.Obj?
  {
  }

  function Rank(v: Value): nat {
    match v
    case Num(_) => 1
    case Str(_) => 2
    case Time(_) => 3
    case Ref(_) => 4
    case _ => 0
  }

  /** A strict weak order on all values that agrees with Python's `<` on
      every pair Python can compare: values of different kinds are ordered
      by kind, and Null and dicts are all equivalent to each other. */
  predicate Less(a: Value, b: Value) {
    if Rank(a) != Rank(b) then Rank(a) < Rank(b)
    else match (a, b)
      case (Num(x), Num(y)) => x < y
      case (Str(x), Str(y)) => StrLess(x, y)
      case (Time(x), Time(y)) => Before(x, y)
      case (Ref(x), Ref(y)) => x < y
      case _ => false
  }

  /** Within one kind of orderable values, `Less` is a total order. */
  lemma LessTotalOnComparable(a: Value, b: Value)
    requires Comparable(a, b) && a != b
    ensures Less(a, b) || Less(b, a)
  {
    match (a, b)
    case (Str(x), Str(y)) => StrLessTotal(x, y);
    case (Time(x), Time(y)) => BeforeIsStrictTotalOrder(x, y, y);
    case _ =>
  }

  lemma LessAsymmetric(a: Value, b: Value)
    ensures Less(a, b) ==> !Less(b, a)
  {
    if Less(a, b) && Less(b, a) {
      match (a, b)
      case (Str(x), Str(y)) => StrLessTransitive(x, y, x); StrLessIrreflexive(x);
      case (Time(x), Time(y)) => BeforeIsStrictTotalOrder(x, y, x);
      case _ =>
    }
  }

  /** Negative transitivity: the complement of `Less` is transitive, which
      together with asymmetry makes `Less` a strict weak order. */
  lemma LessNegativelyTransitive(a: Value, b: Value, c: Value)
    requires !Less(a, b) && !Less(b, c)
    ensures !Less(a, c)
  {
    if Less(a, c) && Rank(a) == Rank(b) == Rank(c) {
      match (a, b, c)
      case (Str(x), Str(y), Str(z)) =>
        if x != y {
          StrLessTotal(x, y);
          StrLessTransitive(y, x, z);
        }
      case (Time(x), Time(y), Time(z)) =>
        BeforeIsStrictTotalOrder(x, y, z);
        BeforeIsStrictTotalOrder(y, x, z);
      case _ =>
    }
  }
}

=== FILE: wrappers.dfy ===
/** Option and Result types, and the Python exceptions an endpoint can raise.
    Every analytics endpoint wraps its body in a catch-all that turns any
    exception into an HTTP 500 response; the model returns `Err` instead. */
module Wrappers {

  datatype Option<+T> = None | Some(value: T) {

    function GetOr(default: T): T {
      match this
      case Some(v) => v
      case None => default
    }
  }

  /** The exception classes the modelled code can raise. */
  datatype PyError =
    | KeyError(key: string)   // `d[key]` on a dict without that key
    | TypeError               // an operator applied to operands it does not accept
    | AttributeError          // `.get` / `.lower` on a value that has no such method
    | ValueError              // a rejected argument (bad date, negative skip)
    | ZeroDivisionError       // `//` or `/` by zero
    | OverflowError           // an integer too wide for the C or BSON field it is passed to

  datatype Result<+T> = Ok(value: T) | Err(error: PyError) {

    predicate IsFailure() {
      Err?
    }

    function PropagateFailure<U>(): Result<U>
      requires Err?
    {
      Err(error)
    }

    function Extract(): T
      requires Ok?
    {
      value
    }
  }
}
